=== FILE: README.md ===
# Meta / WhatsApp integration test server — a Dafny model of its core

The repository is an Express server that connects a business to the Meta
platforms (WhatsApp Cloud API, Messenger, Instagram) and to Tienda Nube. Most
of it is route glue around Graph API calls and HTML test pages. This project
models the parts underneath that have exact behaviour, one Dafny module per
source file:

- `TokenStore` (routes/token-helper.js): the in-memory access-token store.
  `storeToken` replaces a source's record, appends, and keeps the last 10.
  `/list` and `/get` read the store with an integer clock.
- `PsidTable` (routes/psid-helper.js): the captured-PSID table. Upserts are
  keyed on `(psid, page_id)` and capped at 50 entries. `/captured` sorts the
  shared array in place, newest first.
- `Webhook` (routes/webhook.js): the subscription handshake, and the POST
  dispatch of `page`, `whatsapp_business_account` and `instagram` payloads
  into PSID captures. It runs as nested loops over a `PsidTable.CaptureTable`.
- `ValidatorPatterns` and `Validation` (src/utils/validator.js): the regular
  expressions, written as string predicates; the error-accumulating
  `Validator` class with its schema walker; the seven schemas; `validate`;
  and the validation middleware.
- `InstagramId` (routes/instagram-id-helper.js): the three-field messaging-ID
  selector. The webhook-captured ID wins and the login ID is the fallback.
- `PsidLookup` (routes/psid-lookup.js): `/conversations` and `/user-info`,
  with the PSID extraction loop.
- `TokenDebug` (routes/token-debug.js): `/verify` and `generateRecommendations`.
- `ErrorHandling` (src/utils/errorHandler.js): the `AppError` family, the
  per-API handlers, `normalizeError`, the error middleware and `apiCall`.
- `WhatsAppMessenger` (routes/whatsapp-messenger.js): the parameter checks and
  payloads of the send and mark-read endpoints, and the `/diagnose` run.
- `Logging` (src/utils/logger.js): level arithmetic, the `Logger` class and
  its output, `child` meta merging, and the `whatsapp`/`auth` helpers.
- `Configuration` (src/config/index.js): reading the configuration from the
  environment, `validate`, `getServiceConfig`, `isServiceEnabled` and
  `getStatus`.

Two support modules hold what all of them share:

- `Wrappers` holds `Option` and `Result`.
- `JsValues` models JavaScript values: `undefined`, `null`, booleans, integer
  numbers, strings, arrays and objects. It defines the operations the source
  relies on: truthiness, `||`, `typeof`, property reads, object spread,
  `String(x)`, `join`, and ASCII case mapping.

Every network call is a parameter. A successful Graph API answer is `Ok`
with the response data, and a failed one is `Err` with
`error.response?.data || error.message`. The current time is an integer
parameter in milliseconds. Console output is modelled as a sequence of
written entries (`Logging.Logger.out`).

routes/token-helper.js has no token renewal, refresh threshold or auto-renew
logic. Only its token store is modelled.

## Model

| member | source | states |
|---|---|---|
| TokenStore.ExpiryOf | routes/token-helper.js:15 | an expiry exists exactly when `expires_in` is given and non-zero, and then lies `expires_in * 1000` ms after creation |
| TokenStore.NewRecord | routes/token-helper.js:8-17 | the record carries the given token, source and page ID, is created now, and has an expiry exactly when `expires_in` is non-zero |
| TokenStore.WithoutSource | routes/token-helper.js:19 | the filter keeps exactly the records of other sources and never grows the list |
| TokenStore.WithoutSourceAppend | routes/token-helper.js:19 | filtering a concatenation is the concatenation of the filtered parts (relative order is kept) |
| TokenStore.WithoutAbsentSource | routes/token-helper.js:19 | filtering out a source that is absent changes nothing |
| TokenStore.WithoutSourceKeepsUnique | routes/token-helper.js:19 | filtering keeps sources unique |
| TokenStore.Stored | routes/token-helper.js:19-27 | the new list is non-empty, at most 10 long, ends with the new record, and otherwise holds only old records of other sources |
| TokenStore.StoredHasOneRecordPerSource | routes/token-helper.js:19-27 | after a store the list is non-empty, at most 10 long, ends with the new record, and no other record has its source |
| TokenStore.StoredKeepsSourcesUnique | routes/token-helper.js:19-27 | storing keeps at most one record per source |
| TokenStore.StoredIsSuffixOfOthers | routes/token-helper.js:19-27 | the new list is the other sources' records, in their old order, with the oldest dropped to fit 10, then the new record |
| TokenStore.StoredEvictsOldest | routes/token-helper.js:22-27 | storing a new source into a full store drops exactly the first record |
| TokenStore.StoredAppendsBelowCapacity | routes/token-helper.js:22-27 | below capacity a new source is simply appended |
| TokenStore.IsExpired | routes/token-helper.js:47 | a record without expiry is never expired |
| TokenStore.View | routes/token-helper.js:40-48 | one `/list` row: source, page, creation time and expiry of the record, its preview, its length in UTF-16 code units (between its character count and twice that), and the strict expiry test |
| TokenStore.RecordExpiry | routes/token-helper.js:47 | a record without expiry is never expired; otherwise it is expired iff now is strictly after creation + `expires_in` seconds |
| TokenStore.Preview | routes/token-helper.js:45 | the preview is a prefix of at most 20 characters of the token followed by `...` |
| TokenStore.ListTokens | routes/token-helper.js:40-53 | `/list` keeps store order and count; each view carries the source, page, creation time, expiry, the length in UTF-16 code units, the preview and the strict expiry test |
| TokenStore.FindBySource | routes/token-helper.js:68 | `find` returns the first record whose source strictly equals the query, or nothing when none does |
| TokenStore.GetToken | routes/token-helper.js:59-88 | `/get` answers 400 iff `source` is falsy, 404 iff no record has it, and otherwise the first record with that source (no earlier record has it) in full with its expiry flag |
| TokenStore.GetAfterStore | routes/token-helper.js:59-88 | right after storing a record, `/get` for its source returns exactly that record |
| TokenStore.Store.constructor | routes/token-helper.js:5 | the store starts empty |
| TokenStore.Store.StoreToken | routes/token-helper.js:8-27 | the new list is `Stored(old list, new record)`: at most 10, ends with the new record, one record per source |
| PsidTable.FindPair | routes/psid-helper.js:9 | `findIndex` returns the first entry with the same `(psid, page_id)`, or -1 when there is none |
| PsidTable.Bumped | routes/psid-helper.js:11-17 | a known entry keeps its pair and `first_seen`, counts one more sighting, takes the new `last_seen`, and replaces its last message only with a truthy one |
| PsidTable.FirstSighting | routes/psid-helper.js:20-28 | a new entry has count 1 and `first_seen == last_seen == now` |
| PsidTable.Upserted | routes/psid-helper.js:8-34 | the table is non-empty and at most 50 long; a new pair ends it as a first sighting; a known pair keeps the length of a table of at most 50 |
| PsidTable.UpsertExistingInPlace | routes/psid-helper.js:11-17 | a known pair is updated where it stands: count + 1, `first_seen` kept, `last_seen` = now, `last_message` replaced only by a truthy message, other entries unchanged |
| PsidTable.UpsertNewAppends | routes/psid-helper.js:18-33 | a new pair is appended with count 1 and `first_seen == last_seen`; a full table drops its first entry |
| PsidTable.UpsertKeepsPairsUnique | routes/psid-helper.js:8-34 | after an upsert exactly one entry has the pair, and pairs stay unique |
| PsidTable.AdjacentIsNewestFirst | routes/psid-helper.js:42 | ordering adjacent entries newest first orders the whole list |
| PsidTable.InsertNewestFirst | routes/psid-helper.js:42 | inserting adds exactly the one new element, which lands at the front or behind the old head |
| PsidTable.InsertKeepsNewestFirst | routes/psid-helper.js:42 | inserting into a newest-first list keeps it newest first |
| PsidTable.SortNewestFirst | routes/psid-helper.js:42 | the sort is a permutation of the table, newest `last_seen` first |
| PsidTable.SortIsNewestFirstPermutation | routes/psid-helper.js:42 | the sorted table is a permutation in which every earlier entry is at least as recent as every later one |
| PsidTable.PairsUniqueUnderPermutation | routes/psid-helper.js:42 | sorting keeps pairs unique |
| PsidTable.SingleOccurrence | routes/psid-helper.js:42 | in a table with unique pairs each entry occurs once |
| PsidTable.SortThenEvictDropsNewest | routes/psid-helper.js:31-42 | after `/captured` has sorted a full table, the next new pair evicts the most recently seen entry |
| PsidTable.CaptureTable.constructor | routes/psid-helper.js:5 | the table starts empty |
| PsidTable.CaptureTable.AddCapturedPsid | routes/psid-helper.js:8-34 | the table becomes `Upserted(old table, …)` and never exceeds 50 entries |
| PsidTable.CaptureTable.Captured | routes/psid-helper.js:38-49 | `/captured` sorts the shared table in place newest first (a permutation) and answers with it and its length |
| Webhook.VerifySubscription | routes/webhook.js:10-24 | the handshake answers 200 with the challenge iff `hub.mode` is `subscribe` and `hub.verify_token` strictly equals `process.env.WEBHOOK_VERIFY_TOKEN` as the configuration reads it, and 403 otherwise |
| Webhook.PostStatus | routes/webhook.js:27-212 | 404 iff the object is not `page`, `instagram` or `whatsapp_business_account`; 500 only for a WhatsApp body; otherwise 200 |
| Webhook.Captures | routes/webhook.js:38-189 | a `page` body gives one capture per messaging event; objects other than `page` and `instagram` give none |
| Webhook.ApplyCaptures | routes/psid-helper.js:8-34 | applying no captures leaves the table unchanged |
| Webhook.UnsetTokenMatchesOnlyAbsentToken | routes/webhook.js:17 | with `WEBHOOK_VERIFY_TOKEN` unset, the handshake succeeds exactly when the request carries no token at all |
| Webhook.EventCapture | routes/webhook.js:42-64 | one Messenger event captures (sender, recipient), with the text exactly when it is truthy |
| Webhook.EventCaptures | routes/webhook.js:41-65 | the `entry.messaging.forEach` fold; `EventCapturesAt` and `EventCapturesSnoc` state its contents |
| Webhook.PageCaptures | routes/webhook.js:38-76 | the `body.entry.forEach` fold of a `page` body; `PageCapturesCount` and `PageCapturesSnoc` state its size and growth |
| Webhook.ChangeCaptures | routes/webhook.js:144-189 | the captures of one Instagram change; `InstagramChangeCapture` states them |
| Webhook.ChangesCaptures | routes/webhook.js:138-204 | the `entry.changes?.forEach` fold of one Instagram entry; `ChangesCapturesSnoc` states its growth |
| Webhook.InstagramCaptures | routes/webhook.js:131-205 | the `body.entry.forEach` fold of an `instagram` body; `InstagramCapturesSnoc` states its growth |
| Webhook.WhatsAppEntryThrows | routes/webhook.js:95-101 | a WhatsApp entry throws when `changes` is missing or a `messages` change has no `value`; `ScanWhatsAppEntry` and `PostStatus` are stated with it |
| Webhook.EventCapturesAt | routes/webhook.js:41-65 | each Messenger event gives exactly one capture of (sender, recipient), with the text passed only when it is truthy |
| Webhook.PageCapturesCount | routes/webhook.js:38-76 | a `page` body captures exactly once per messaging event, over all entries |
| Webhook.OnlyPageAndInstagramCapture | routes/webhook.js:93-211 | other objects capture nothing; `whatsapp_business_account` answers 500 iff some entry has no `changes` or a `messages` change without `value` (the `forEach` or `value.messages` read throws), 200 otherwise; anything else 404 |
| Webhook.ScanWhatsAppEntry | routes/webhook.js:95-120 | the scan of one entry's changes reports a throw iff the entry has no `changes` or one of them is a `messages` change without `value` |
| Webhook.MessagesChangeWithoutValueFails | routes/webhook.js:99-101 | a WhatsApp body with a `messages` change lacking `value` answers 500 |
| Webhook.InstagramChangeCapture | routes/webhook.js:144-189 | an Instagram `messages` change with sender and recipient IDs captures (sender, recipient, text or null); a `comments` change with `from.id` captures (from, entry ID, `Comentario: ` + text); nothing else captures |
| Webhook.ApplyCapturesAppend | routes/webhook.js:38-138 | applying two batches of captures one after the other is applying their concatenation |
| Webhook.ApplyCapturesKeepsTableValid | routes/webhook.js:27-212 | any sequence of captures keeps the PSID table within 50 entries with unique pairs |
| Webhook.LastCaptureIsKept | routes/webhook.js:27-212 | after a batch of captures the pair captured last is present in the table |
| Webhook.Capture1 | routes/webhook.js:61-64 | one `addCapturedPSID` call extends the applied captures by one |
| Webhook.EventCapturesSnoc | routes/webhook.js:41 | the captures of a longer prefix of events extend those of the shorter one |
| Webhook.ChangesCapturesSnoc | routes/webhook.js:138 | the same, for Instagram changes |
| Webhook.PageCapturesSnoc | routes/webhook.js:38 | the same, for page entries |
| Webhook.InstagramCapturesSnoc | routes/webhook.js:131 | the same, for Instagram entries |
| Webhook.CaptureEventAt | routes/webhook.js:41-65 | handling one messaging event applies exactly its capture |
| Webhook.CaptureEvents | routes/webhook.js:40-76 | the loop over an entry's events applies their captures in order |
| Webhook.CaptureChangeAt | routes/webhook.js:138-204 | handling one Instagram change applies exactly its captures |
| Webhook.CaptureChanges | routes/webhook.js:138-204 | the loop over an entry's changes applies their captures in order |
| Webhook.CapturePage | routes/webhook.js:35-91 | a `page` body applies the captures of all entries, entry by entry, event by event |
| Webhook.CaptureInstagram | routes/webhook.js:128-207 | an `instagram` body applies the captures of all entries, entry by entry, change by change |
| Webhook.HandlePost | routes/webhook.js:27-212 | the POST handler answers the status of the body's kind, and the table afterwards is the old table with exactly the body's captures applied in order |
| InstagramId.Recommendation | routes/instagram-id-helper.js:75-77 | the recommendation names the captured ID (`Usar ` + ID) iff one is set, and otherwise asks to wait for a webhook |
| InstagramId.InstagramIdHelper.constructor | routes/instagram-id-helper.js:8-13 | all three fields start null |
| InstagramId.InstagramIdHelper.CaptureCorrectIdFromWebhook | routes/instagram-id-helper.js:19-30 | the ID and `lastUpdated` change only for a truthy ID that differs from the current one; the login ID never changes |
| InstagramId.InstagramIdHelper.SetLoginId | routes/instagram-id-helper.js:36-39 | only the login ID changes |
| InstagramId.InstagramIdHelper.GetCorrectMessagingId | routes/instagram-id-helper.js:45-54 | the webhook-captured ID wins when set; the login ID is the fallback |
| InstagramId.InstagramIdHelper.HasCorrectId | routes/instagram-id-helper.js:60-62 | true iff the captured ID is truthy, and then it is the ID in use |
| InstagramId.InstagramIdHelper.GetIdInfo | routes/instagram-id-helper.js:68-78 | the report mirrors the three fields, and its recommendation is the one built from `correctMessagingId`: it starts `Usar <id>` exactly when `hasCorrectId` |
| InstagramId.InstagramIdHelper.ForceMessagingId | routes/instagram-id-helper.js:84-88 | the ID is set unconditionally and `lastUpdated` is now; the login ID is kept |
| InstagramId.InstagramIdHelper.Reset | routes/instagram-id-helper.js:93-98 | all three fields are null again, so no ID is in use |
| ValidatorPatterns.FirstAt | src/utils/validator.js:13 | the first `@` of a string (or its length when there is none) |
| ValidatorPatterns.PhoneMatch | src/utils/validator.js:12 | the `PHONE` pattern; `PhoneAcceptsExactly` states what it accepts |
| ValidatorPatterns.EmailMatch | src/utils/validator.js:13 | the `EMAIL` pattern as decided on the first `@`; `EmailMatchIsRegex` proves it equal to the regex |
| ValidatorPatterns.UrlMatch | src/utils/validator.js:14 | the `URL` pattern; `UrlNeedsMoreThanScheme` states that a bare scheme fails it |
| ValidatorPatterns.WamidMatch | src/utils/validator.js:15 | the `WHATSAPP_MESSAGE_ID` pattern: `wamid.` followed by a character other than a line terminator |
| ValidatorPatterns.AccessTokenMatch | src/utils/validator.js:17 | the `ACCESS_TOKEN` pattern: one or more of `[A-Za-z0-9_-]` |
| ValidatorPatterns.CleanIsNoSpaceOrAt | src/utils/validator.js:13 | the recursive character class check `[^\s@]*` agrees with its quantified form |
| ValidatorPatterns.HasDotAt | src/utils/validator.js:13 | the recursive dot search agrees with "some character is a dot" |
| ValidatorPatterns.FirstAtIs | src/utils/validator.js:13 | the first `@` is found where it is |
| ValidatorPatterns.FirstAtFound | src/utils/validator.js:13 | a found `@` is an `@` |
| ValidatorPatterns.EmailMatchToRegex | src/utils/validator.js:13 | what the email matcher accepts, the email pattern accepts |
| ValidatorPatterns.NoSpaceOrAtJoin | src/utils/validator.js:13 | joining two `[^\s@]` runs with such a character gives such a run |
| ValidatorPatterns.FirstAtAfterClean | src/utils/validator.js:13 | an `@` preceded by a clean run is the first one |
| ValidatorPatterns.EmailPartsMatch | src/utils/validator.js:13 | a local part, `@`, a domain, a dot and a last label, all `[^\s@]+`, are accepted by the matcher |
| ValidatorPatterns.RegexToEmailMatch | src/utils/validator.js:13 | what the email pattern accepts, the matcher accepts |
| ValidatorPatterns.EmailMatchIsRegex | src/utils/validator.js:13 | the email matcher accepts exactly the strings of `^[^\s@]+@[^\s@]+\.[^\s@]+$` |
| ValidatorPatterns.DigitsBetweenExactly | src/utils/validator.js:12 | `\d{lo,hi}` matches exactly the all-digit strings of length `lo` to `hi` |
| ValidatorPatterns.PhoneAcceptsExactly | src/utils/validator.js:12 | the phone pattern accepts exactly the strings of 2 to 15 ASCII digits whose first digit is not `0` |
| ValidatorPatterns.UrlNeedsMoreThanScheme | src/utils/validator.js:14 | a bare `http://` or `https://` is refused; an accepted URL is at least 8 characters long and starts with `http` |
| Validation.RequiredCheck | src/utils/validator.js:79-84 | `required` flags exactly `undefined`, `null` and `''` (so `0` and `false` pass), with one error under the field |
| Validation.TypeCheck | src/utils/validator.js:89-98 | `type` skips only `undefined`/`null` and flags a value whose type (arrays reading as `array`) differs from the expected one |
| Validation.MinLengthCheck | src/utils/validator.js:103-108 | `minLength` skips falsy values and flags a value whose `length` (UTF-16 units for a string) is below the minimum |
| Validation.MaxLengthCheck | src/utils/validator.js:113-118 | `maxLength` skips falsy values and flags a value whose `length` (UTF-16 units for a string) is above the maximum |
| JsValues.Utf16Length | src/utils/validator.js:104 | a string's `.length` lies between its character count and twice that |
| JsValues.AstralLengthDoubles | src/utils/validator.js:104 | a string of characters outside the Basic Multilingual Plane has `.length` twice its character count |
| JsValues.BmpLengthIsSize | src/utils/validator.js:104 | within the Basic Multilingual Plane `.length` is the character count |
| Validation.Length | src/utils/validator.js:104 | `value.length`: exactly `Utf16Length` of a string (between its character count and twice that), the element count of an array, an object's own numeric `length`, and nothing otherwise |
| Validation.AstralTextOverMax | src/utils/validator.js:113-118 | a string of astral characters is measured in UTF-16 units, so it exceeds a maximum below twice its character count |
| Validation.PhoneCheck | src/utils/validator.js:123-128 | `phone` skips falsy values and flags a value whose string form is not accepted by the phone pattern |
| Validation.EmailCheck | src/utils/validator.js:133-138 | `email`, likewise with the email pattern |
| Validation.UrlCheck | src/utils/validator.js:143-148 | `url`, likewise with the URL pattern |
| Validation.AccessTokenCheck | src/utils/validator.js:153-158 | `accessToken`, likewise with the token pattern |
| Validation.WamidCheck | src/utils/validator.js:163-168 | `whatsappMessageId`, likewise with the `wamid.` pattern |
| Validation.OneOfCheck | src/utils/validator.js:173-178 | `oneOf` skips falsy values and flags a value that is not among the options |
| Validation.CustomCheck | src/utils/validator.js:235-240 | a custom rule adds its own result as the message exactly when that result is not `true` |
| Validation.PresenceErrors | src/utils/validator.js:195-201 | the `required` and `type` rules add at most two errors |
| Validation.LengthErrors | src/utils/validator.js:203-209 | the length rules add at most two errors |
| Validation.ContactErrors | src/utils/validator.js:211-221 | the phone, email and URL rules add at most three errors |
| Validation.IdentifierErrors | src/utils/validator.js:223-229 | the token and message-ID rules add at most two errors |
| Validation.ChoiceErrors | src/utils/validator.js:231-240 | the `oneOf` and custom rules add at most two errors |
| Validation.RuleErrors | src/utils/validator.js:195-240 | one field's rules add at most eleven errors; the groups concatenate in rule order by definition |
| Validation.KeyErrors | src/utils/validator.js:190-240 | one schema key adds at most eleven errors, each filed under that key's dotted name |
| Validation.KeysErrors | src/utils/validator.js:189-241 | the walk over a schema's keys adds at most eleven errors per key |
| Validation.SchemaErrors | src/utils/validator.js:183-244 | a non-object gets exactly one error; an object at most eleven per schema key |
| Validation.SchemaNamed | src/utils/validator.js:250-299 | `SCHEMAS[name]` exists iff the name is one of the seven schemas; the WhatsApp schemas start with `access_token`, `phone_number_id`, `to`, and the two OAuth schemas are `code`, `state` |
| Validation.KeysErrorsUnfold | src/utils/validator.js:189-241 | the schema walk over `n + 1` keys is the walk over `n` keys followed by the last key's errors |
| Validation.KeysErrorsSnoc | src/utils/validator.js:189-241 | the walk over one more key adds exactly that key's errors, under its dotted name |
| Validation.Validator.constructor | src/utils/validator.js:35-37 | a new validator has no errors |
| Validation.Validator.Reset | src/utils/validator.js:42-45 | `reset` empties the error list |
| Validation.Validator.AddError | src/utils/validator.js:50-53 | `addError` appends exactly one error |
| Validation.Validator.HasErrors | src/utils/validator.js:58-60 | true iff the error list is non-empty |
| Validation.Validator.FirstError | src/utils/validator.js:72-74 | the earliest error, or nothing when there is none |
| Validation.Validator.Required | src/utils/validator.js:79-84 | the list grows by exactly `RequiredCheck`; nothing is removed |
| Validation.Validator.Type | src/utils/validator.js:89-98 | the list grows by exactly `TypeCheck` |
| Validation.Validator.MinLength | src/utils/validator.js:103-108 | the list grows by exactly `MinLengthCheck` |
| Validation.Validator.MaxLength | src/utils/validator.js:113-118 | the list grows by exactly `MaxLengthCheck` |
| Validation.Validator.Phone | src/utils/validator.js:123-128 | the list grows by exactly `PhoneCheck` |
| Validation.Validator.Email | src/utils/validator.js:133-138 | the list grows by exactly `EmailCheck` |
| Validation.Validator.Url | src/utils/validator.js:143-148 | the list grows by exactly `UrlCheck` |
| Validation.Validator.AccessToken | src/utils/validator.js:153-158 | the list grows by exactly `AccessTokenCheck` |
| Validation.Validator.WhatsappMessageId | src/utils/validator.js:163-168 | the list grows by exactly `WamidCheck` |
| Validation.Validator.OneOf | src/utils/validator.js:173-178 | the list grows by exactly `OneOfCheck` |
| Validation.Validator.ApplyPresenceRules | src/utils/validator.js:195-201 | the list grows by exactly the presence rules' errors |
| Validation.Validator.ApplyLengthRules | src/utils/validator.js:203-209 | the list grows by exactly the length rules' errors |
| Validation.Validator.ApplyContactRules | src/utils/validator.js:211-221 | the list grows by exactly the contact rules' errors |
| Validation.Validator.ApplyIdentifierRules | src/utils/validator.js:223-229 | the list grows by exactly the identifier rules' errors |
| Validation.Validator.ApplyChoiceRules | src/utils/validator.js:231-240 | the list grows by exactly the choice rules' errors |
| Validation.Validator.ApplyRules | src/utils/validator.js:190-240 | the list grows by exactly one field's rule errors |
| Validation.Validator.Schema | src/utils/validator.js:183-244 | `schema` appends exactly the schema errors of the object: one error for a non-object, otherwise key by key in rule order |
| Validation.Validate | src/utils/validator.js:342-356 | an unknown schema name throws; otherwise `isValid` holds iff no error was recorded, and `firstError` is the first error or null |
| Validation.ValidateRequest | src/utils/validator.js:304-337 | an unknown schema answers 500; the merged body and query (query keys win) is rejected with 400 and its errors, or handed on iff it has none |
| Validation.AllUnderAppend | src/utils/validator.js:190-240 | errors of one field stay under that field when concatenated |
| Validation.AllUnderAtMostOne | src/utils/validator.js:79-178 | a single rule's error is under its field |
| Validation.AllUnderTwo | src/utils/validator.js:79-178 | two rules' errors are under their field |
| Validation.PresenceUnderField | src/utils/validator.js:195-201 | the presence rules file their errors under the field |
| Validation.LengthUnderField | src/utils/validator.js:203-209 | the length rules file their errors under the field |
| Validation.ContactUnderField | src/utils/validator.js:211-221 | the contact rules file their errors under the field |
| Validation.IdentifierUnderField | src/utils/validator.js:223-229 | the identifier rules file their errors under the field |
| Validation.ChoiceUnderField | src/utils/validator.js:231-240 | the choice rules file their errors under the field |
| Validation.RuleErrorsField | src/utils/validator.js:190-240 | every error of a field's rules carries that field's name |
| Validation.MissingRequiredFieldOneError | src/utils/validator.js:79-98 | a missing field that is `required` and typed yields exactly one error: `<field> es requerido` |
| Validation.FalsyValueSkipsValueRules | src/utils/validator.js:103-178 | a falsy value passes every length, format and `oneOf` rule |
| Validation.KeysErrorsAppend | src/utils/validator.js:189 | errors are ordered by schema key: the walk over two key lists is the concatenation of the walks |
| Validation.KeysErrorsFieldNames | src/utils/validator.js:190 | every error of the walk is filed under the (dotted) name of one of the schema's keys |
| Validation.NonObjectOneError | src/utils/validator.js:184-187 | a non-object input gets exactly one error, named by the prefix or `object`, and no field is checked |
| PsidLookup.Row | routes/psid-lookup.js:36-42 | a row carries the participant's ID and the conversation's ID and time; the message count defaults to 0 and the name to `Usuario desconocido` |
| PsidLookup.ParticipantRows | routes/psid-lookup.js:33-44 | every row of a conversation carries its ID and a participant other than the page |
| PsidLookup.Extracted | routes/psid-lookup.js:31-46 | the specification of the nested loops; its lemmas below state membership, order and concatenation |
| PsidLookup.PushParticipantRows | routes/psid-lookup.js:33-44 | the inner loop appends exactly the conversation's participant rows, in order, without the page |
| PsidLookup.ExtractPsids | routes/psid-lookup.js:27-46 | the nested loops push exactly `Extracted(conversations, page_id)`: conversation order, then participant order |
| PsidLookup.Conversations | routes/psid-lookup.js:7-65 | 400 iff `access_token` or `page_id` is falsy, before any call; 500 with the details when the listing fails; otherwise the extracted rows, `total_conversations` counting every conversation and `total_psids` the rows |
| PsidLookup.UserInfo | routes/psid-lookup.js:69-104 | 400 iff `access_token` or `psid` is falsy; 500 when the lookup fails; otherwise the profile is passed through |
| PsidLookup.ParticipantRowsMembership | routes/psid-lookup.js:33-44 | a conversation yields a row exactly for each participant whose ID differs from the page ID |
| PsidLookup.ExtractedMembership | routes/psid-lookup.js:31-46 | the output holds exactly the rows of the conversations that have participant data |
| PsidLookup.PageNeverListed | routes/psid-lookup.js:35-41 | the page itself never appears, every name is truthy and every message count is truthy or 0 |
| PsidLookup.ExtractedSnoc | routes/psid-lookup.js:31 | one more conversation appends exactly its rows |
| PsidLookup.ExtractedAppend | routes/psid-lookup.js:31-46 | the rows of two conversation lists are the rows of the first followed by those of the second |
| PsidLookup.ParticipantRowsAtMost | routes/psid-lookup.js:33-44 | a conversation yields at most one row per participant |
| PsidLookup.TotalPsidsAtMostParticipants | routes/psid-lookup.js:54-55 | `total_psids` never exceeds the number of listed participants |
| TokenDebug.MissingPermissions | routes/token-debug.js:107-110 | the missing list is `[pages_messaging, pages_manage_metadata]` minus the granted names, in that order, at most two |
| TokenDebug.GrantedPermissions | routes/token-debug.js:108 | the granted names are at most as many as the permission entries, and none when no entry is `granted` |
| TokenDebug.GenerateRecommendations | routes/token-debug.js:103-140 | at most three recommendations, always in the order missing_permissions, no_pages, missing_page_tokens |
| TokenDebug.GrantedPermissionsMembership | routes/token-debug.js:108 | a name counts as granted iff some permission entry with that name has status `granted`; declined or other statuses count as missing |
| TokenDebug.NothingGrantedMeansBothMissing | routes/token-debug.js:107-110 | with no granted permission both required permissions are missing |
| TokenDebug.HasAppend | routes/token-debug.js:104-139 | a kind occurs in concatenated recommendation lists iff it occurs in one of them |
| TokenDebug.RecommendationRules | routes/token-debug.js:103-140 | missing_permissions iff some required permission is missing, no_pages iff the page list is empty, missing_page_tokens iff some page lacks a truthy `has_token`; the last two never appear together |
| TokenDebug.MissingPermissionsMessage | routes/token-debug.js:112-118 | the first recommendation names the missing permissions joined by `, ` |
| TokenDebug.PageSummary | routes/token-debug.js:84-89 | each page is shown with its ID, name, `has_token = !!access_token` and `tasks` defaulting to `[]` |
| TokenDebug.PageSummaries | routes/token-debug.js:84-89 | the page list maps one summary per page, in order |
| TokenDebug.TokenInfoSummary | routes/token-debug.js:74-81 | exactly the six `token_info` fields: `app_id`, `type`, `application`, `expires_at` and `is_valid` copied from the debug data, and `scopes` defaulting to `[]` |
| TokenDebug.Verify | routes/token-debug.js:7-100 | 400 iff `access_token` is missing or empty; 500 iff the debug call fails or answers nothing; otherwise `token_info` is the summary of the debug data, `pages` the page summaries with the list defaulting to `[]`, and the recommendations are computed on the unmapped pages |
| TokenDebug.VerifyIntended | routes/token-debug.js:7-100 | the same endpoint with the recommendations computed on the mapped page summaries: 400 iff no token; 500 iff the debug call fails or answers nothing; otherwise `token_info` is the debug summary, `pages` the page summaries, permissions default to `[]` and user info to `{}` |
| TokenDebug.VerifyFrom | routes/token-debug.js:7-100 | the shared body of both versions: 400 iff no token; 500 only for a failed or empty debug answer; otherwise permissions default to `[]`, pages are the page summaries, and the recommendations see either those summaries or the raw pages |
| TokenDebug.RawPagesAlwaysLackTokens | routes/token-debug.js:90-137 | as written, any non-empty list of Graph API pages draws missing_page_tokens |
| TokenDebug.RawPageWithTokenFlagged | routes/token-debug.js:90-137 | a single page that has an access token is still reported as lacking one |
| TokenDebug.IntendedFlagsPagesWithoutToken | routes/token-debug.js:84-137 | on the mapped pages, missing_page_tokens is drawn iff some page lacks a truthy access token |
| ErrorHandling.ErrorMessage | src/utils/errorHandler.js:60 | an error's message is its string argument, and the empty string when none is given |
| ErrorHandling.NewAppError | src/utils/errorHandler.js:58-69 | an `AppError` carries exactly the given name, type, code, status, details and creation time |
| ErrorHandling.NewValidationError | src/utils/errorHandler.js:87-91 | a `ValidationError` is 400, VALIDATION_ERROR, INVALID_INPUT, with details defaulting to `{}` |
| ErrorHandling.NewApiError | src/utils/errorHandler.js:96-103 | an `ApiError` is API_ERROR with code WHATSAPP_API_ERROR whatever the API, keeps the given message, has the status defaulting to 500, and stores `apiName` in the details unless the details already name one |
| ErrorHandling.NewAuthError | src/utils/errorHandler.js:108-112 | an `AuthError` is 401, AUTH_ERROR, code defaulting to UNAUTHORIZED |
| ErrorHandling.NewWebhookError | src/utils/errorHandler.js:117-121 | a `WebhookError` is 400, WEBHOOK_ERROR, code defaulting to INVALID_WEBHOOK_PAYLOAD |
| ErrorHandling.NewConfigError | src/utils/errorHandler.js:126-130 | a `ConfigError` is 500, CONFIG_ERROR, code defaulting to MISSING_CONFIG |
| ErrorHandling.GraphErrorMessage | src/utils/errorHandler.js:147-162 | Graph error codes 100, 131056 and 80007 get fixed texts; any other code keeps the Graph message or a fallback |
| ErrorHandling.StatusOr500 | src/utils/errorHandler.js:173 | a missing or zero response status reads as 500; a present non-zero status is returned unchanged |
| ErrorHandling.HandleWhatsAppError | src/utils/errorHandler.js:139-176 | the result is always WHATSAPP_API_ERROR; with a Graph error it carries the mapped message, `response.status` and the Graph error in the details; otherwise the error's message (or a fallback) and the status or 500 |
| ErrorHandling.HandleInstagramError | src/utils/errorHandler.js:181-188 | an Instagram failure becomes an `ApiError` named `Instagram` with the status or 500 and the error's message or `Error de Instagram API` |
| ErrorHandling.HandleTiendaNubeError | src/utils/errorHandler.js:193-200 | a Tienda Nube failure becomes an `ApiError` named `TiendaNube` with the status or 500 and the error's message or `Error de Tienda Nube API` |
| ErrorHandling.NormalizeError | src/utils/errorHandler.js:205-234 | our errors pass through unchanged; otherwise, in priority order, a foreign validation error gives 400, a refused or timed-out connection 503 NETWORK_ERROR CONNECTION_FAILED, anything else 500 INTERNAL_ERROR UNEXPECTED_ERROR |
| ErrorHandling.NormalizeIdempotent | src/utils/errorHandler.js:206-208 | normalising a normalised error changes nothing |
| ErrorHandling.Middleware | src/utils/errorHandler.js:239-276 | the answer's status is the normalised status; it is logged at error level iff the status is at least 500 (warn otherwise); `details` appear iff in development |
| ErrorHandling.MiddlewareKeepsAppStatus | src/utils/errorHandler.js:239-276 | one of our errors is answered with its own status, and logged as a warning iff that status is below 500 |
| ErrorHandling.ApiCall | src/utils/errorHandler.js:290-305 | a result passes through unchanged; a failure is dispatched on the lower-cased API name to the WhatsApp, Instagram or Tienda Nube handler, and otherwise normalised |
| ErrorHandling.ApiCallIgnoresCase | src/utils/errorHandler.js:294 | API names that agree up to case are dispatched alike |
| ErrorHandling.WhatsAppFailureCode | src/utils/errorHandler.js:146-167 | every WhatsApp failure ends with code WHATSAPP_API_ERROR: the code chosen for Graph codes 100, 131056 and 80007 is discarded |
| ErrorHandling.GraphErrorCode | src/utils/errorHandler.js:146-167 | the switch picks INVALID_ACCESS_TOKEN, INVALID_PHONE_NUMBER or MESSAGE_SEND_FAILED for Graph codes 100, 131056 and 80007, and WHATSAPP_API_ERROR exactly for every other code |
| ErrorHandling.HandleWhatsAppErrorIntended | src/utils/errorHandler.js:139-176 | the handler with the computed code kept: a Graph error carries `GraphErrorCode`, any other failure WHATSAPP_API_ERROR, and all other fields are as written |
| ErrorHandling.ExpiredTokenCodeLost | src/utils/errorHandler.js:146-167 | a Graph code 100 failure is WHATSAPP_API_ERROR as written and INVALID_ACCESS_TOKEN once the code is kept |
| Logging.LevelNamed | src/utils/logger.js:11-16 | `LOG_LEVELS` knows exactly the names ERROR, WARN, INFO and DEBUG |
| Logging.LevelFromString | src/utils/logger.js:42-44 | the configured level is 1 iff the name upper-cases to WARN, 3 iff to DEBUG, and 2 otherwise, since ERROR's 0 is falsy under `\|\|` |
| Logging.ErrorLevelMeansInfo | src/utils/logger.js:43 | configuring `error` (in any case) yields the INFO level |
| Logging.ApiCallLevel | src/utils/logger.js:131 | an API call is logged as ERROR iff its status is at least 400, WARN iff 300 to 399, INFO otherwise |
| Logging.ApiCallLevelMonotone | src/utils/logger.js:131 | a higher status never gets a less severe level |
| Logging.ChildMeta | src/utils/logger.js:184-199 | a child logger's meta has the keys of both the context and the call's meta, and the call's meta wins |
| Logging.ErrorMeta | src/utils/logger.js:84-87 | an error entry always has a `stack` (from `meta.error.stack`, else a fresh trace) and keeps every other meta key |
| Logging.LevelMethod | src/utils/logger.js:81-125 | `this[name]` is a level method exactly for the lower-case names `error`, `warn`, `info` and `debug`, so `INFO`, `WARN` and `ERROR` have none |
| Logging.LogEntry | src/utils/logger.js:60-65 | a log entry has a timestamp, the level and the message, and the meta keys override them |
| Logging.Logger.constructor | src/utils/logger.js:34-37 | the level is read from the configured level name, the format is kept, nothing is written yet |
| Logging.Logger.Writes | src/utils/logger.js:81-125 | nothing is written iff the level is filtered out; an error entry carries the stack meta and, in production, is followed by the monitoring record of its message and meta |
| Logging.Logger.ShouldLog | src/utils/logger.js:49-51 | the threshold test; `ShouldLogMonotone`, `ErrorsAlwaysWritten` and `DefaultLevelFiltersDebug` state its properties |
| Logging.Logger.LogError | src/utils/logger.js:81-95 | `error` writes exactly `Writes(ERROR, …)` and changes nothing else |
| Logging.Logger.LogWarn | src/utils/logger.js:100-105 | `warn` writes exactly `Writes(WARN, …)` |
| Logging.Logger.LogInfo | src/utils/logger.js:110-115 | `info` writes exactly `Writes(INFO, …)` |
| Logging.Logger.LogDebug | src/utils/logger.js:120-125 | `debug` writes exactly `Writes(DEBUG, …)` |
| Logging.Logger.ApiCall | src/utils/logger.js:130-138 | `apiCall` writes at the level its status selects, with `status` and `duration` in the meta, overridable by the caller's meta |
| Logging.Logger.Webhook | src/utils/logger.js:155-157 | `webhook` writes one INFO entry `Webhook <event> from <source>` |
| Logging.Logger.WhatsApp | src/utils/logger.js:143-150 | as written, `whatsapp` always throws: `this['INFO']` and `this['ERROR']` are not methods |
| Logging.Logger.WhatsAppIntended | src/utils/logger.js:143-150 | as intended, `whatsapp` logs at INFO on success and ERROR on failure, with `success` in the meta |
| Logging.Logger.Auth | src/utils/logger.js:162-170 | as written, `auth` always throws: `this['INFO']` and `this['WARN']` are not methods |
| Logging.Logger.AuthIntended | src/utils/logger.js:162-170 | as intended, `auth` logs at INFO on success and WARN on failure, with `success` and `userId` in the meta |
| Logging.ShouldLogMonotone | src/utils/logger.js:49-51 | if a level is logged, every more severe level is logged too |
| Logging.ErrorsAlwaysWritten | src/utils/logger.js:43-51 | whatever the configuration, ERROR and WARN entries are always written |
| Logging.DefaultLevelFiltersDebug | src/utils/logger.js:43-51 | at the INFO level, INFO entries are written and DEBUG entries are not |
| Configuration.EnvValue | src/config/index.js:15-55 | an environment variable reads as `undefined` when unset and as its string otherwise; it is truthy iff set and non-empty |
| Configuration.ParseLeadingDigits | src/config/index.js:54-55 | `parseInt` yields a number iff the text starts with a digit |
| Configuration.IntOr | src/config/index.js:54-55 | `parseInt(x) \|\| fallback`: an unset variable or text that is not a number gives the fallback; a number read from the text is the result, unless it is 0, which gives the fallback |
| Configuration.LeadingDigitsSplit | src/config/index.js:54-55 | reading a run of digits and then the rest continues from the value the run gave |
| Configuration.NatToStringDigits | src/config/index.js:54-55 | the decimal rendering of a number is all digits, and reading it back gives the number |
| Configuration.ParseNatToString | src/config/index.js:54-55 | `parseInt` reads back a decimal number followed by nothing or by a non-digit, as in `"50"` or `"50ms"` |
| Configuration.IntOrReadsNumber | src/config/index.js:54-55 | a decimal number in the variable is the setting, and 0 gives the fallback |
| Configuration.RateLimitFromEnv | src/config/index.js:53-56 | `RATE_LIMIT_MAX=50` and `RATE_LIMIT_WINDOW=60000ms` give 50 requests per 60000 ms; `RATE_LIMIT_MAX=0` gives the default 100 requests per 900000 ms |
| Configuration.FromEnv | src/config/index.js:14-56 | the environment defaults to `development` and the port to 3000, each redirect URI is its variable when that is set and non-empty, and otherwise `http://localhost:<port>/<service>/callback` on the configured port, so it is always set; the WhatsApp API version is `v21.0` |
| Configuration.Defaults | src/config/index.js:15-56 | with an empty environment: `development`, port 3000, the localhost Instagram and Tienda Nube callback URIs on port 3000, log level `info`, format `combined`, 900000 ms and 100 requests |
| Configuration.LocalCallbackOnDefaultPort | src/config/index.js:35-43 | on the default port, a callback URI is `http://localhost:3000/<service>/callback` |
| Configuration.MissingRequired | src/config/index.js:65-71 | the missing list names exactly APP_ID, APP_SECRET and CONFIGURATION_ID when their values are falsy, in that order |
| Configuration.OptionalWarnings | src/config/index.js:86-96 | a warning is raised exactly for each of WEBHOOK_VERIFY_TOKEN, INSTAGRAM_APP_ID and TIENDANUBE_CLIENT_ID whose value is falsy |
| Configuration.WhatsAppEnabledIffNothingMissing | src/config/index.js:65-83 | WhatsApp is enabled iff nothing required is missing, so a configuration that makes the process exit never has it enabled |
| Configuration.UnknownServiceDisabled | src/config/index.js:128-129 | any name other than the four services is disabled |
| Configuration.GetServiceConfig | src/config/index.js:102-113 | a section is returned exactly for the six known names, null otherwise |
| Configuration.EnabledServiceHasConfig | src/config/index.js:102-131 | every enabled service has a configuration section |
| Configuration.GetStatus | src/config/index.js:136-166 | the status reports the environment and port; each of the four service flags agrees with `isServiceEnabled`; `config` has exactly the four sections, and `webhook.configured` is the webhook service flag |
| Configuration.WhatsAppStatus | src/config/index.js:147-151 | `config.whatsapp` shows the app ID, configuration ID and API version, but not the app secret |
| Configuration.WebhookStatus | src/config/index.js:152-155 | `config.webhook` shows the URL and whether a verify token is set, but not the token |
| Configuration.OAuthStatus | src/config/index.js:156-163 | `config.instagram` and `config.tiendanube` show the client ID and redirect URI, but not the secret |
| Configuration.ValidateExits | src/config/index.js:73-83 | `validate` exits exactly in production with a required variable missing; `WhatsAppEnabledIffNothingMissing` relates it to the WhatsApp service |
| Configuration.IsServiceEnabled | src/config/index.js:118-131 | the service test; `WhatsAppEnabledIffNothingMissing`, `UnknownServiceDisabled` and `EnabledServiceHasConfig` state its properties |
| Configuration.ServicesFromEnv | src/config/index.js:19-44 | each service is reported enabled iff its environment variables are set and non-empty: APP_ID, APP_SECRET and CONFIGURATION_ID; WEBHOOK_VERIFY_TOKEN; the two Instagram ones; the two Tienda Nube ones |
| WhatsAppMessenger.TextPayload | routes/whatsapp-messenger.js:38-45 | the text payload is `{messaging_product: 'whatsapp', to, type: 'text', text: {body}}` and nothing more |
| WhatsAppMessenger.ImagePayload | routes/whatsapp-messenger.js:118-126 | the image payload has the link, and a `caption` key iff the caption is truthy |
| WhatsAppMessenger.MarkReadPayload | routes/whatsapp-messenger.js:182-186 | the mark-read payload is `{messaging_product, status: 'read', message_id}` |
| WhatsAppMessenger.MarkReadWithTypingPayload | routes/whatsapp-messenger.js:241-248 | the with-typing payload has the mark-read keys plus `typing_indicator: {type: 'text'}` |
| WhatsAppMessenger.TypingExtendsMarkRead | routes/whatsapp-messenger.js:182-248 | the with-typing payload agrees with the plain one on every key of the plain one, and adds only `typing_indicator` |
| WhatsAppMessenger.ReceivedFlags | routes/whatsapp-messenger.js:27-32 | the `received` map reports, for each of the four fields, whether it is truthy |
| WhatsAppMessenger.SendText | routes/whatsapp-messenger.js:12-45 | as written: a `message_text` that is neither nullish nor a string throws at the log line before any check; otherwise the intended endpoint |
| WhatsAppMessenger.SendTextIntended | routes/whatsapp-messenger.js:12-45 | 400 iff any of `to`, `message_text`, `access_token`, `phone_number_id` is falsy, with a `received` map showing at least one false; otherwise the text payload is posted to the v21.0 messages endpoint |
| WhatsAppMessenger.NumericMessageTextThrows | routes/whatsapp-messenger.js:17-23 | a numeric `message_text` throws as written, while `0` reaches the 400 answer once the log line is fixed |
| WhatsAppMessenger.SendImage | routes/whatsapp-messenger.js:99-126 | 400 iff any of `to`, `image_url`, `access_token`, `phone_number_id` is falsy; otherwise the image payload is posted |
| WhatsAppMessenger.MarkRead | routes/whatsapp-messenger.js:165-248 | 400 iff any of `message_id`, `access_token`, `phone_number_id` is falsy; otherwise the mark-read payload goes to v21.0, or the with-typing payload to v23.0 |
| WhatsAppMessenger.SentMessageId | routes/whatsapp-messenger.js:71-147 | the message ID is the `id` of the first entry of `messages`, and undefined when `messages` is not a list or is empty |
| WhatsAppMessenger.MessagesUrl | routes/whatsapp-messenger.js:49 | the endpoint is `https://graph.facebook.com/` + the version + `/<phone_number_id>/messages` |
| WhatsAppMessenger.LogThrows | routes/whatsapp-messenger.js:17 | `message_text?.substring` throws exactly for a non-nullish non-string; `SendText` is stated with it |
| WhatsAppMessenger.RecommendationsFor | routes/whatsapp-messenger.js:425-463 | 3 to 5 items ending with the three fixed ones; the error item leads iff some check errored, and the format item appears iff some check warned |
| WhatsAppMessenger.CountStatus | routes/whatsapp-messenger.js:466-471 | a status count never exceeds the number of checks |
| WhatsAppMessenger.CallCheck | routes/whatsapp-messenger.js:322-421 | a check built from a Graph API call is `success` iff the call succeeded, `error` otherwise, never `warning` |
| WhatsAppMessenger.FormatCheck | routes/whatsapp-messenger.js:368-382 | `phone_format` is `success` iff the number matches the phone pattern and `warning` otherwise, never `error` |
| WhatsAppMessenger.RunChecks | routes/whatsapp-messenger.js:322-421 | the checks pushed are exactly phone_number_info, access_token, phone_format, test_message, built from the three call outcomes and the number |
| WhatsAppMessenger.Recommend | routes/whatsapp-messenger.js:425-463 | the recommendations pushed are exactly those the checks call for |
| WhatsAppMessenger.Recommendations | routes/whatsapp-messenger.js:425-463 | 3 to 5 items: an error item first when checks errored, a format item when some warned, and the three fixed items last |
| WhatsAppMessenger.SummaryOf | routes/whatsapp-messenger.js:466-471 | `total_checks` is the number of checks and each count is at most that |
| WhatsAppMessenger.Diagnose | routes/whatsapp-messenger.js:286-491 | 400 iff any of `to`, `access_token`, `phone_number_id` is falsy; otherwise the four checks in order, their recommendations and their summary |
| WhatsAppMessenger.SummaryAddsUp | routes/whatsapp-messenger.js:466-471 | successful + warnings + errors equals `total_checks` |
| WhatsAppMessenger.ChecksInOrder | routes/whatsapp-messenger.js:322-421 | exactly four checks in the fixed order; some check warns iff the number fails the phone pattern, some check errors iff a Graph API call failed |
| WhatsAppMessenger.RecommendationsShape | routes/whatsapp-messenger.js:425-463 | a high-priority error item leads iff some check errored, a medium format item appears iff some check warned, and the three fixed items always close the list: 3 to 5 in all |

## Left out

- Network I/O: every `axios` call is replaced by its outcome, given as a parameter. Request headers and Graph API query fields are not modelled.
- URLs: the endpoint URLs are modelled only for the WhatsApp send endpoints.
- Time: time is an integer number of milliseconds, and ISO-8601 strings are not modelled. `toLocaleTimeString` in `/diagnose` is a text parameter.
- JSON and console output: JSON serialisation is not modelled, including its dropping of `undefined` keys. ANSI colours, `console.*` output and the text layout of `formatMessage` are also not modelled.
- Stack traces: `Error.captureStackTrace` and `error.stack` are not modelled. A stack trace is an opaque value passed in, and the error middleware's development `stack` field is not modelled.
- HTML pages: the `/test`, `/help` and `/test-page` HTML pages and their client scripts are not modelled.
- Other files: the other routes are thin wrappers around network calls and are not part of this model. Neither are server.js, dotenv and `process.exit`. `Configuration.ValidateExits` states when the process would exit.
- Numbers: numbers are unbounded integers. Floats, `NaN` and `Infinity` are not modelled. `parseInt` is modelled for decimal digits only; leading white space, signs and radix prefixes are not.
- Property reads: only own properties are modelled. Lookups that reach `Object.prototype`, such as `SCHEMAS['toString']` or `getServiceConfig('constructor')`, are not. `Object.keys` order is taken to be schema-declaration order.
- Case mapping: `toUpperCase` and `toLowerCase` are modelled for ASCII letters only.
- Concurrency: the module-level arrays in token-helper.js and psid-helper.js are shared between concurrent requests. The model is single-threaded.
- Chaining: the validator's fluent `return this` is not modelled. Its methods return nothing.
- PsidTable.SortNewestFirst: like the engine's stable `Array.prototype.sort`, the insertion keeps entries with equal `last_seen` in table order; the contract states newest-first order and permutation, not this stability.
- Validation.OneOfCheck: membership compares whole values structurally. JavaScript `includes` compares objects by reference.
- Validation: `validate` with a custom rule is modelled as a total function from value to result. A custom rule that throws is not modelled.
- TokenDebug.Verify: a permissions call that succeeds without a `data` list is modelled as an empty list. In the source, `permissions.filter` then throws, which answers 500.
- TokenDebug.Verify: the `TypeError` message for a null debug answer is not modelled. The answer is 500 with undefined details.
- TokenDebug.Verify: `access_token` is an optional string. A non-string query value, such as the array Express's query parser makes from `?access_token=a&access_token=b`, is not representable.
- WhatsAppMessenger: the Graph API replies of the send endpoints are passed through. Their 500 error bodies are not modelled.
- WhatsAppMessenger.Diagnose: the three requests `/diagnose` sends are not modelled, including the test message with its `toLocaleTimeString` text (routes/whatsapp-messenger.js:387-394). Only their answers enter, as parameters.
- WhatsAppMessenger.Diagnose: the outer `catch` of `/diagnose` is not modelled, because no statement in its `try` can throw once the upstream calls are parameters.
- Logging: the `expressLogger` middleware is not modelled. It depends on a random request ID and on response events.
- Logging.Logger.Writes: an entry is modelled as its level, message and meta. The timestamp and the `json`/`combined` rendering are not modelled.
- Webhook: a body without `entry` makes `body.entry.forEach` throw (routes/webhook.js:38, 94, 131), which answers 500. The modelled body always has an entry list.
- Webhook: a `page` event without `sender` or `recipient` throws at routes/webhook.js:42-43 after the earlier events' captures were applied, which answers 500. Modelled events always carry both IDs.
- TokenStore.Preview: `substring(0, 20)` counts UTF-16 code units; the model takes 20 characters, so a token with astral characters gets a longer preview.
- Validation.Length: an object whose own `length` is not a number (compared by coercion in `<`) is modelled as having no length.
- WhatsAppMessenger.SendText: the `Thrown` outcome stands for the rejected async handler; what Express then answers is not modelled.
- Configuration.IntOr: only text that starts with a digit is read as `parseInt` reads it. Text with leading white space, a sign or a `0x` prefix (`" 50"`, `"-5"`, `"0x10"`) gives the fallback in the model, while the source gives the number `parseInt` reads.
- Configuration.ParseLeadingDigits: leading white space, signs and radix prefixes are not read; such text is NaN in the model.
- PsidLookup.Conversations: the listing is modelled as already-parsed conversations. A listing whose `data.data` is missing or null, a null conversation, or a truthy `participants.data` that is not iterable throws inside the `try` (routes/psid-lookup.js:27-33) and answers 500 with the error message (lines 58-63); these inputs are not representable.
- ValidatorPatterns: the `FACEBOOK_ID` pattern (src/utils/validator.js:16) is used by no validator method, so it is not modelled.
- ErrorHandling.HandleWhatsAppErrorIntended: the rest of the model (`ApiCall`, `NormalizeError`) uses the handler as written, since that is what the middleware answers with.
- Webhook: events and changes are modelled by the fields the handler reads. Postbacks, statuses and WhatsApp messages are only logged in the source, so they are not modelled.

## Findings

| source | as written | input that shows it | evidently intended | confidence | as-written member | corrected member |
|---|---|---|---|---|---|---|
| routes/token-debug.js:90 | `generateRecommendations` gets the raw Graph pages. Its `!page.has_token` test (line 130) reads a field that only the mapped page summaries have. | `/verify` where the only page is `{"id": "1", "access_token": "EAAB"}` | pass the mapped pages, so missing_page_tokens is drawn only when some page lacks an access token | high (not executed) | TokenDebug.Verify, TokenDebug.RawPageWithTokenFlagged, TokenDebug.RawPagesAlwaysLackTokens | TokenDebug.VerifyIntended, TokenDebug.IntendedFlagsPagesWithoutToken |
| routes/whatsapp-messenger.js:17 | `message_text?.substring(0, 50)` in the log line throws a `TypeError` for a number, boolean or object, before the parameter check | `/send-text` with `message_text: 0` | check the parameters (`0` is falsy and answers 400) before logging a preview of a string | medium (not executed) | WhatsAppMessenger.SendText, WhatsAppMessenger.NumericMessageTextThrows | WhatsAppMessenger.SendTextIntended |
| src/utils/errorHandler.js:146-167 | `handleWhatsAppError` computes `code` from the Graph error code and never uses it: the `ApiError` it returns always carries WHATSAPP_API_ERROR | a Graph error `{"code": 100}` (expired token) | return the computed code, such as INVALID_ACCESS_TOKEN | medium (not executed) | ErrorHandling.HandleWhatsAppError, ErrorHandling.WhatsAppFailureCode, ErrorHandling.ExpiredTokenCodeLost | ErrorHandling.HandleWhatsAppErrorIntended, ErrorHandling.GraphErrorCode |
| src/utils/logger.js:146 | `this[level]` with `level` set to `'INFO'` or `'ERROR'`: the logger has no upper-case methods, so the call throws a `TypeError` | `logger.whatsapp('send', true)` | call `this[level.toLowerCase()]`, as `apiCall` does on line 133 | high (not executed) | Logging.Logger.WhatsApp | Logging.Logger.WhatsAppIntended |
| src/utils/logger.js:165 | `this[level]` with `level` set to `'INFO'` or `'WARN'`: the same missing upper-case methods | `logger.auth('login', false)` | call `this[level.toLowerCase()]` | high (not executed) | Logging.Logger.Auth | Logging.Logger.AuthIntended |

=== FILE: config.dfy ===
/** The configuration object of src/config/index.js, built once from the
    process environment (given here as a map from variable name to value).
    An unset variable reads as `undefined`. */
module Configuration {
  import opened Wrappers
  import opened JsValues
  import opened ValidatorPatterns

  const DefaultEnv := "development"
  const DefaultPort := 3000
  const WhatsAppApiVersion := "v21.0"
  const DefaultWindowMs := 15 * 60 * 1000
  const DefaultMaxRequests := 100

  /** `process.env[name]` */
  function EnvValue(vars: map<string, string>, name: string): (r: JsValue)
    ensures r == Undefined || r.Str?
    ensures Truthy(r) <==> name in vars && vars[name] != ""
  {
    if name in vars then Str(vars[name]) else Undefined
  }

  /** The decimal digits `s` starts with, as `parseInt` reads them; `None`
      (NaN) when it does not start with a digit. */
  function ParseLeadingDigits(s: string): (r: Option<nat>)
    ensures r.Some? <==> s != [] && IsDigit(s[0])
  {
    if s == [] || !IsDigit(s[0]) then None
    else Some(LeadingDigitsValue(s, 0))
  }

  function LeadingDigitsValue(s: string, acc: nat): nat
    decreases |s|
  {
    if s == [] || !IsDigit(s[0]) then acc
    else LeadingDigitsValue(s[1..], acc * 10 + (s[0] as int - '0' as int))
  }

  /** Reading a run of digits and then the rest is reading the rest from
      where the run left the accumulator. */
  lemma {:induction false} LeadingDigitsSplit(d: string, rest: string, acc: nat)
    requires AllDigits(d)
    ensures LeadingDigitsValue(d + rest, acc) == LeadingDigitsValue(rest, LeadingDigitsValue(d, acc))
    decreases |d|
  {
    if d != [] {
      assert IsDigit(d[0]);
      assert (d + rest)[0] == d[0];
      assert (d + rest)[1..] == d[1..] + rest;
      LeadingDigitsSplit(d[1..], rest, acc * 10 + (d[0] as int - '0' as int));
    } else {
      assert d + rest == rest;
    }
  }

  lemma DigitCharValue(n: nat)
    requires n < 10
    ensures IsDigit(DigitChar(n)) && DigitChar(n) as int - '0' as int == n
  {
    assert DigitChar(n) == "0123456789"[n];
  }

  /** The decimal rendering of `n` is all digits, and reading it gives `n`. */
  lemma {:induction false} NatToStringDigits(n: nat)
    ensures AllDigits(NatToString(n))
    ensures LeadingDigitsValue(NatToString(n), 0) == n
    decreases n
  {
    DigitCharValue(n % 10);
    if n < 10 {
      assert NatToString(n) == [DigitChar(n)];
      assert NatToString(n)[1..] == [];
    } else {
      var head := NatToString(n / 10);
      NatToStringDigits(n / 10);
      var last := [DigitChar(n % 10)];
      assert NatToString(n) == head + last;
      LeadingDigitsSplit(head, last, 0);
      assert last[1..] == [];
    }
  }

  /** `parseInt` reads back a decimal number followed by anything that does
      not start with a digit (`"50"`, `"50ms"`). */
  lemma ParseNatToString(n: nat, rest: string)
    requires rest == [] || !IsDigit(rest[0])
    ensures ParseLeadingDigits(NatToString(n) + rest) == Some(n)
  {
    NatToStringDigits(n);
    LeadingDigitsSplit(NatToString(n), rest, 0);
    assert (NatToString(n) + rest)[0] == NatToString(n)[0];
  }

  /** A decimal number written in a variable is the value `IntOr` gives,
      unless it is 0. */
  lemma IntOrReadsNumber(n: nat, rest: string, fallback: int)
    requires rest == [] || !IsDigit(rest[0])
    ensures IntOr(Str(NatToString(n) + rest), fallback) == (if n == 0 then fallback else n)
  {
    ParseNatToString(n, rest);
  }

  /** `parseInt(value) || fallback`: NaN and 0 both give the fallback. */
  function IntOr(value: JsValue, fallback: int): (r: int)
    ensures !value.Str? ==> r == fallback
    ensures value.Str? && ParseLeadingDigits(value.s).None? ==> r == fallback
    ensures value.Str? && ParseLeadingDigits(value.s).Some? ==>
      r == (if ParseLeadingDigits(value.s).value == 0 then fallback else ParseLeadingDigits(value.s).value)
  {
    if value.Str? then
      var parsed := ParseLeadingDigits(value.s);
      if parsed.Some? && parsed.value != 0 then parsed.value else fallback
    else fallback
  }

  datatype WhatsAppSection = WhatsAppSection(appId: JsValue, appSecret: JsValue, configurationId: JsValue, apiVersion: string)
  datatype WebhookSection = WebhookSection(verifyToken: JsValue, url: JsValue)
  /** An OAuth client: Instagram's `appId` and `appSecret`, or Tienda Nube's
      `clientId` and `clientSecret`, with the redirect URI. */
  datatype OAuthSection = OAuthSection(clientId: JsValue, clientSecret: JsValue, redirectUri: JsValue)
  datatype LoggingSection = LoggingSection(level: JsValue, format: JsValue)
  datatype RateLimitSection = RateLimitSection(windowMs: int, max: int)

  datatype Config = Config(
    env: JsValue,
    port: JsValue,
    whatsapp: WhatsAppSection,
    webhook: WebhookSection,
    instagram: OAuthSection,
    tiendanube: OAuthSection,
    logging: LoggingSection,
    rateLimit: RateLimitSection)

  /** The redirect URI an unset variable defaults to. */
  function LocalCallback(port: JsValue, service: string): string {
    "http://localhost:" + ToJsString(port) + "/" + service + "/callback"
  }

  /** `new Config()` over the environment `vars`. */
  function FromEnv(vars: map<string, string>): (r: Config)
    ensures r.env == Or(EnvValue(vars, "NODE_ENV"), Str(DefaultEnv))
    ensures r.port == Or(EnvValue(vars, "PORT"), Num(DefaultPort))
    ensures Truthy(r.instagram.redirectUri) && Truthy(r.tiendanube.redirectUri)
    ensures Truthy(EnvValue(vars, "INSTAGRAM_REDIRECT_URI")) ==>
      r.instagram.redirectUri == EnvValue(vars, "INSTAGRAM_REDIRECT_URI")
    ensures !Truthy(EnvValue(vars, "INSTAGRAM_REDIRECT_URI")) ==>
      r.instagram.redirectUri == Str(LocalCallback(r.port, "instagram"))
    ensures Truthy(EnvValue(vars, "TIENDANUBE_REDIRECT_URI")) ==>
      r.tiendanube.redirectUri == EnvValue(vars, "TIENDANUBE_REDIRECT_URI")
    ensures !Truthy(EnvValue(vars, "TIENDANUBE_REDIRECT_URI")) ==>
      r.tiendanube.redirectUri == Str(LocalCallback(r.port, "tiendanube"))
    ensures r.whatsapp.apiVersion == WhatsAppApiVersion
  {
    var port := Or(EnvValue(vars, "PORT"), Num(DefaultPort));
    Config(
      Or(EnvValue(vars, "NODE_ENV"), Str(DefaultEnv)),
      port,
      WhatsAppSection(EnvValue(vars, "APP_ID"), EnvValue(vars, "APP_SECRET"), EnvValue(vars, "CONFIGURATION_ID"), WhatsAppApiVersion),
      WebhookSection(EnvValue(vars, "WEBHOOK_VERIFY_TOKEN"), EnvValue(vars, "WEBHOOK_URL")),
      OAuthSection(EnvValue(vars, "INSTAGRAM_APP_ID"), EnvValue(vars, "INSTAGRAM_APP_SECRET"),
        Or(EnvValue(vars, "INSTAGRAM_REDIRECT_URI"), Str(LocalCallback(port, "instagram")))),
      OAuthSection(EnvValue(vars, "TIENDANUBE_CLIENT_ID"), EnvValue(vars, "TIENDANUBE_CLIENT_SECRET"),
        Or(EnvValue(vars, "TIENDANUBE_REDIRECT_URI"), Str(LocalCallback(port, "tiendanube")))),
      LoggingSection(Or(EnvValue(vars, "LOG_LEVEL"), Str("info")), Or(EnvValue(vars, "LOG_FORMAT"), Str("combined"))),
      RateLimitSection(IntOr(EnvValue(vars, "RATE_LIMIT_WINDOW"), DefaultWindowMs), IntOr(EnvValue(vars, "RATE_LIMIT_MAX"), DefaultMaxRequests)))
  }

  /** `RATE_LIMIT_MAX=50` allows 50 requests and `RATE_LIMIT_WINDOW=60000ms`
      a one-minute window; `RATE_LIMIT_MAX=0` falls back to 100. */
  lemma RateLimitFromEnv()
    ensures FromEnv(map["RATE_LIMIT_MAX" := "50", "RATE_LIMIT_WINDOW" := "60000ms"]).rateLimit
      == RateLimitSection(60000, 50)
    ensures FromEnv(map["RATE_LIMIT_MAX" := "0"]).rateLimit == RateLimitSection(DefaultWindowMs, DefaultMaxRequests)
  {
    IntOrReadsNumber(50, "", DefaultMaxRequests);
    assert NatToString(50) + "" == "50";
    IntOrReadsNumber(60000, "ms", DefaultWindowMs);
    assert NatToString(60000) + "ms" == "60000ms";
    IntOrReadsNumber(0, "", DefaultMaxRequests);
    assert NatToString(0) + "" == "0";
  }

  /** With nothing set: development on port 3000, local callbacks, level
      info, 100 requests per 15 minutes. */
  lemma Defaults()
    ensures var c := FromEnv(map[]);
      && c.env == Str("development") && c.port == Num(3000)
      && c.instagram.redirectUri == Str("http://localhost:3000/instagram/callback")
      && c.tiendanube.redirectUri == Str("http://localhost:3000/tiendanube/callback")
      && c.logging == LoggingSection(Str("info"), Str("combined"))
      && c.rateLimit == RateLimitSection(900000, 100)
      && c.whatsapp.appId == Undefined
  {
    var c := FromEnv(map[]);
    assert c.port == Num(3000);
    DefaultCallbacks();
  }

  lemma DefaultCallbacks()
    ensures LocalCallback(Num(3000), "instagram") == "http://localhost:3000/instagram/callback"
    ensures LocalCallback(Num(3000), "tiendanube") == "http://localhost:3000/tiendanube/callback"
  {
    LocalCallbackOnDefaultPort("instagram");
    LocalCallbackOnDefaultPort("tiendanube");
  }

  lemma LocalCallbackOnDefaultPort(service: string)
    ensures LocalCallback(Num(3000), service) == "http://localhost:3000/" + service + "/callback"
  {
    DefaultPortText();
  }

  lemma DefaultPortText()
    ensures ToJsString(Num(3000)) == "3000"
  {
    assert NatToString(3) == "3";
    assert NatToString(30) == NatToString(3) + "0";
    assert NatToString(300) == NatToString(30) + "0";
    assert NatToString(3000) == NatToString(300) + "0";
  }

  /** The `validate` missing list: the names of the unset WhatsApp
      variables, in the order APP_ID, APP_SECRET, CONFIGURATION_ID. */
  function MissingRequired(c: Config): (r: seq<string>)
    ensures |r| <= 3
    ensures "APP_ID" in r <==> !Truthy(c.whatsapp.appId)
    ensures "APP_SECRET" in r <==> !Truthy(c.whatsapp.appSecret)
    ensures "CONFIGURATION_ID" in r <==> !Truthy(c.whatsapp.configurationId)
  {
    (if Truthy(c.whatsapp.appId) then [] else ["APP_ID"])
    + (if Truthy(c.whatsapp.appSecret) then [] else ["APP_SECRET"])
    + (if Truthy(c.whatsapp.configurationId) then [] else ["CONFIGURATION_ID"])
  }

  /** The optional variables `validate` warns about. */
  function OptionalWarnings(c: Config): (r: seq<string>)
    ensures |r| <= 3
    ensures "WEBHOOK_VERIFY_TOKEN" in r <==> !Truthy(c.webhook.verifyToken)
    ensures "INSTAGRAM_APP_ID" in r <==> !Truthy(c.instagram.clientId)
    ensures "TIENDANUBE_CLIENT_ID" in r <==> !Truthy(c.tiendanube.clientId)
  {
    (if Truthy(c.webhook.verifyToken) then [] else ["WEBHOOK_VERIFY_TOKEN"])
    + (if Truthy(c.instagram.clientId) then [] else ["INSTAGRAM_APP_ID"])
    + (if Truthy(c.tiendanube.clientId) then [] else ["TIENDANUBE_CLIENT_ID"])
  }

  /** `validate` ends the process only in production with something missing. */
  predicate ValidateExits(c: Config) {
    MissingRequired(c) != [] && c.env == Str("production")
  }

  /** `isServiceEnabled(service)` */
  predicate IsServiceEnabled(c: Config, service: string) {
    if service == "whatsapp" then
      Truthy(c.whatsapp.appId) && Truthy(c.whatsapp.appSecret) && Truthy(c.whatsapp.configurationId)
    else if service == "webhook" then Truthy(c.webhook.verifyToken)
    else if service == "instagram" then Truthy(c.instagram.clientId) && Truthy(c.instagram.clientSecret)
    else if service == "tiendanube" then Truthy(c.tiendanube.clientId) && Truthy(c.tiendanube.clientSecret)
    else false
  }

  /** WhatsApp is enabled exactly when `validate` finds nothing missing, and
      never in a configuration that makes `validate` exit. */
  lemma WhatsAppEnabledIffNothingMissing(c: Config)
    ensures IsServiceEnabled(c, "whatsapp") <==> MissingRequired(c) == []
    ensures ValidateExits(c) ==> !IsServiceEnabled(c, "whatsapp")
  {
    if MissingRequired(c) == [] {
      assert "APP_ID" !in MissingRequired(c);
    }
  }

  /** Only the four known services can be enabled. */
  lemma UnknownServiceDisabled(c: Config, service: string)
    requires service !in {"whatsapp", "webhook", "instagram", "tiendanube"}
    ensures !IsServiceEnabled(c, service)
  {
  }

  datatype Section =
    | WhatsAppConfig(whatsapp: WhatsAppSection)
    | WebhookConfig(webhook: WebhookSection)
    | OAuthConfig(oauth: OAuthSection)
    | LoggingConfig(logging: LoggingSection)
    | RateLimitConfig(rateLimit: RateLimitSection)

  /** `getServiceConfig(service)`: the section of the six known names, else
      `null` (`None`). */
  function GetServiceConfig(c: Config, service: string): (r: Option<Section>)
    ensures r.Some? <==> service in {"whatsapp", "webhook", "instagram", "tiendanube", "logging", "rateLimit"}
    ensures service == "instagram" ==> r == Some(OAuthConfig(c.instagram))
    ensures service == "tiendanube" ==> r == Some(OAuthConfig(c.tiendanube))
  {
    if service == "whatsapp" then Some(WhatsAppConfig(c.whatsapp))
    else if service == "webhook" then Some(WebhookConfig(c.webhook))
    else if service == "instagram" then Some(OAuthConfig(c.instagram))
    else if service == "tiendanube" then Some(OAuthConfig(c.tiendanube))
    else if service == "logging" then Some(LoggingConfig(c.logging))
    else if service == "rateLimit" then Some(RateLimitConfig(c.rateLimit))
    else None
  }

  /** Every service that can be enabled has a section. */
  lemma EnabledServiceHasConfig(c: Config, service: string)
    requires IsServiceEnabled(c, service)
    ensures GetServiceConfig(c, service).Some?
  {
  }

  datatype Services = Services(whatsapp: bool, webhook: bool, instagram: bool, tiendanube: bool)

  datatype Status = Status(environment: JsValue, port: JsValue, services: Services, config: JsValue)

  /** `getStatus().config.whatsapp`: the app and configuration IDs and the
      API version, but not the app secret. */
  function WhatsAppStatus(w: WhatsAppSection): (r: JsValue)
    ensures Prop(r, "appId") == w.appId && Prop(r, "configurationId") == w.configurationId
    ensures Prop(r, "apiVersion") == Str(w.apiVersion) && Prop(r, "appSecret") == Undefined
  {
    Obj(map["appId" := w.appId, "configurationId" := w.configurationId, "apiVersion" := Str(w.apiVersion)])
  }

  /** `getStatus().config.webhook`: the URL and whether a verify token is
      set, but not the token. */
  function WebhookStatus(h: WebhookSection): (r: JsValue)
    ensures Prop(r, "url") == h.url && Prop(r, "configured") == Bool(Truthy(h.verifyToken))
    ensures Prop(r, "verifyToken") == Undefined
  {
    Obj(map["url" := h.url, "configured" := Bool(Truthy(h.verifyToken))])
  }

  /** `getStatus().config.instagram` (`idKey` is `appId`) and
      `getStatus().config.tiendanube` (`idKey` is `clientId`): the client ID
      and the redirect URI, but not the secret. */
  function OAuthStatus(o: OAuthSection, idKey: string): (r: JsValue)
    requires idKey != "redirectUri"
    ensures Prop(r, idKey) == o.clientId && Prop(r, "redirectUri") == o.redirectUri
    ensures idKey != "clientSecret" && idKey != "appSecret" ==>
      Prop(r, "clientSecret") == Undefined && Prop(r, "appSecret") == Undefined
  {
    Obj(map[idKey := o.clientId, "redirectUri" := o.redirectUri])
  }

  /** `getStatus()` */
  function GetStatus(c: Config): (r: Status)
    ensures r.environment == c.env && r.port == c.port
    ensures r.services.whatsapp == IsServiceEnabled(c, "whatsapp")
    ensures r.services.webhook == IsServiceEnabled(c, "webhook")
    ensures r.services.instagram == IsServiceEnabled(c, "instagram")
    ensures r.services.tiendanube == IsServiceEnabled(c, "tiendanube")
    ensures r.config.Obj? && r.config.props.Keys == {"whatsapp", "webhook", "instagram", "tiendanube"}
    ensures Prop(r.config, "whatsapp") == WhatsAppStatus(c.whatsapp)
    ensures Prop(r.config, "webhook") == WebhookStatus(c.webhook)
    ensures Prop(Prop(r.config, "webhook"), "configured") == Bool(IsServiceEnabled(c, "webhook"))
    ensures Prop(r.config, "instagram") == OAuthStatus(c.instagram, "appId")
    ensures Prop(r.config, "tiendanube") == OAuthStatus(c.tiendanube, "clientId")
  {
    Status(
      c.env,
      c.port,
      Services(
        Truthy(c.whatsapp.appId) && Truthy(c.whatsapp.appSecret) && Truthy(c.whatsapp.configurationId),
        Truthy(c.webhook.verifyToken),
        Truthy(c.instagram.clientId) && Truthy(c.instagram.clientSecret),
        Truthy(c.tiendanube.clientId) && Truthy(c.tiendanube.clientSecret)),
      Obj(map[
        "whatsapp" := WhatsAppStatus(c.whatsapp),
        "webhook" := WebhookStatus(c.webhook),
        "instagram" := OAuthStatus(c.instagram, "appId"),
        "tiendanube" := OAuthStatus(c.tiendanube, "clientId")]))
  }

  /** The variable is set to a non-empty value. */
  predicate IsSet(vars: map<string, string>, name: string) {
    name in vars && vars[name] != ""
  }

  /** Which services an environment enables, read off the variables. */
  lemma ServicesFromEnv(vars: map<string, string>)
    ensures var s := GetStatus(FromEnv(vars)).services;
      && (s.whatsapp <==> IsSet(vars, "APP_ID") && IsSet(vars, "APP_SECRET") && IsSet(vars, "CONFIGURATION_ID"))
      && (s.webhook <==> IsSet(vars, "WEBHOOK_VERIFY_TOKEN"))
      && (s.instagram <==> IsSet(vars, "INSTAGRAM_APP_ID") && IsSet(vars, "INSTAGRAM_APP_SECRET"))
      && (s.tiendanube <==> IsSet(vars, "TIENDANUBE_CLIENT_ID") && IsSet(vars, "TIENDANUBE_CLIENT_SECRET"))
  {
  }
}

=== FILE: error_handler.dfy ===
/** The error taxonomy of src/utils/errorHandler.js: `AppError` and its five
    subclasses, the per-API handlers that turn a failed call into an
    `ApiError`, `normalizeError`, the Express error middleware and the
    `apiCall` wrapper. Errors are values; the creation time is a parameter
    (milliseconds) and stack traces are not modelled. */
module ErrorHandling {
  import opened Wrappers
  import opened JsValues

  // ERROR_TYPES
  const ValidationType := "VALIDATION_ERROR"
  const ApiType := "API_ERROR"
  const AuthType := "AUTH_ERROR"
  const WebhookType := "WEBHOOK_ERROR"
  const ConfigType := "CONFIG_ERROR"
  const NetworkType := "NETWORK_ERROR"
  const InternalType := "INTERNAL_ERROR"

  // ERROR_CODES used by the handlers and defaults
  const InvalidInput := "INVALID_INPUT"
  const WhatsAppApiError := "WHATSAPP_API_ERROR"
  const Unauthorized := "UNAUTHORIZED"
  const InvalidWebhookPayload := "INVALID_WEBHOOK_PAYLOAD"
  const MissingConfig := "MISSING_CONFIG"
  const ConnectionFailed := "CONNECTION_FAILED"
  const InvalidAccessToken := "INVALID_ACCESS_TOKEN"
  const InvalidPhoneNumber := "INVALID_PHONE_NUMBER"
  const MessageSendFailed := "MESSAGE_SEND_FAILED"
  const UnexpectedError := "UNEXPECTED_ERROR"

  const InvalidTokenMessage := "Access token inválido o expirado"
  const InvalidPhoneMessage := "Número de teléfono inválido"
  const SendFailedMessage := "No se pudo enviar el mensaje"
  const WhatsAppFallbackMessage := "Error de WhatsApp API"
  const WhatsAppConnectionMessage := "Error de conexión con WhatsApp API"
  const InstagramFallbackMessage := "Error de Instagram API"
  const TiendaNubeFallbackMessage := "Error de Tienda Nube API"
  const NetworkMessage := "Error de conexión de red"
  const InternalMessage := "Error interno del servidor"

  /** An `AppError` instance: `name` is the constructor's name. */
  datatype AppError = AppError(
    name: string,
    message: string,
    errorType: string,
    code: string,
    statusCode: int,
    details: map<string, JsValue>,
    timestamp: int)

  /** The HTTP response an upstream call failed with (`error.response`). */
  datatype HttpResponse = HttpResponse(status: Option<int>, data: JsValue)

  /** A thrown value: one of ours, or any other error object, of which the
      fields the handlers read are kept. */
  datatype Thrown =
    | App(err: AppError)
    | Raw(name: JsValue, message: JsValue, code: JsValue, isJoi: JsValue,
          details: JsValue, stack: JsValue, response: Option<HttpResponse>)
  {
    /** `error.message` */
    function Message(): JsValue {
      if App? then Str(err.message) else message
    }

    /** `error.response` */
    function Response(): Option<HttpResponse> {
      if App? then None else response
    }
  }

  /** `new Error(message).message`: `undefined` gives the empty string,
      anything else its string conversion. */
  function ErrorMessage(message: JsValue): (r: string)
    ensures message.Str? ==> r == message.s
    ensures message == Undefined ==> r == ""
  {
    if message == Undefined then "" else ToJsString(message)
  }

  /** `new AppError(message, type, code, statusCode, details)` with every
      argument given. */
  function NewAppError(name: string, message: JsValue, errorType: string, code: string, statusCode: int,
                       details: map<string, JsValue>, now: int): (r: AppError)
    ensures r.name == name && r.errorType == errorType && r.code == code && r.statusCode == statusCode
    ensures r.details == details && r.timestamp == now && r.message == ErrorMessage(message)
  {
    AppError(name, ErrorMessage(message), errorType, code, statusCode, details, now)
  }

  /** `new ValidationError(message, details)`: 400, VALIDATION, INVALID_INPUT. */
  function NewValidationError(message: JsValue, details: Option<map<string, JsValue>>, now: int): (r: AppError)
    ensures r.statusCode == 400 && r.errorType == ValidationType && r.code == InvalidInput
    ensures r.name == "ValidationError" && r.details == details.GetOr(map[])
  {
    NewAppError("ValidationError", message, ValidationType, InvalidInput, 400, details.GetOr(map[]), now)
  }

  /** `new ApiError(message, apiName, statusCode, details)`: the code is
      WHATSAPP_API_ERROR whatever the API; `apiName` goes into the details
      unless `details` itself has that key; an absent status means 500. */
  function NewApiError(message: JsValue, apiName: string, statusCode: Option<int>,
                       details: map<string, JsValue>, now: int): (r: AppError)
    ensures r.errorType == ApiType && r.code == WhatsAppApiError && r.name == "ApiError"
    ensures r.statusCode == statusCode.GetOr(500) && r.message == ErrorMessage(message)
    ensures "apiName" in r.details
    ensures "apiName" !in details ==> r.details["apiName"] == Str(apiName)
    ensures forall k :: k in details ==> k in r.details && r.details[k] == details[k]
  {
    NewAppError("ApiError", message, ApiType, WhatsAppApiError, statusCode.GetOr(500),
      Spread(map["apiName" := Str(apiName)], details), now)
  }

  /** `new AuthError(message, code, details)`: 401, AUTH, UNAUTHORIZED by default. */
  function NewAuthError(message: JsValue, code: Option<string>, details: Option<map<string, JsValue>>, now: int): (r: AppError)
    ensures r.statusCode == 401 && r.errorType == AuthType && r.name == "AuthError"
    ensures r.code == code.GetOr(Unauthorized)
  {
    NewAppError("AuthError", message, AuthType, code.GetOr(Unauthorized), 401, details.GetOr(map[]), now)
  }

  /** `new WebhookError(message, code, details)`: 400, WEBHOOK. */
  function NewWebhookError(message: JsValue, code: Option<string>, details: Option<map<string, JsValue>>, now: int): (r: AppError)
    ensures r.statusCode == 400 && r.errorType == WebhookType && r.name == "WebhookError"
    ensures r.code == code.GetOr(InvalidWebhookPayload)
  {
    NewAppError("WebhookError", message, WebhookType, code.GetOr(InvalidWebhookPayload), 400, details.GetOr(map[]), now)
  }

  /** `new ConfigError(message, code, details)`: 500, CONFIG. */
  function NewConfigError(message: JsValue, code: Option<string>, details: Option<map<string, JsValue>>, now: int): (r: AppError)
    ensures r.statusCode == 500 && r.errorType == ConfigType && r.name == "ConfigError"
    ensures r.code == code.GetOr(MissingConfig)
  {
    NewAppError("ConfigError", message, ConfigType, code.GetOr(MissingConfig), 500, details.GetOr(map[]), now)
  }

  /** The message `handleWhatsAppError` settles on for a Graph API error
      object: fixed text for codes 100, 131056 and 80007. */
  function GraphErrorMessage(fbError: JsValue): (r: JsValue)
    ensures Prop(fbError, "code") == Num(100) ==> r == Str(InvalidTokenMessage)
    ensures Prop(fbError, "code") == Num(131056) ==> r == Str(InvalidPhoneMessage)
    ensures Prop(fbError, "code") == Num(80007) ==> r == Str(SendFailedMessage)
    ensures Prop(fbError, "code") !in {Num(100), Num(131056), Num(80007)} ==>
      r == Or(Prop(fbError, "message"), Str(WhatsAppFallbackMessage))
  {
    var code := Prop(fbError, "code");
    if code == Num(100) then Str(InvalidTokenMessage)
    else if code == Num(131056) then Str(InvalidPhoneMessage)
    else if code == Num(80007) then Str(SendFailedMessage)
    else Or(Prop(fbError, "message"), Str(WhatsAppFallbackMessage))
  }

  /** `error.response?.status || 500` */
  function StatusOr500(response: Option<HttpResponse>): (r: int)
    ensures response.None? || response.value.status.None? || response.value.status.value == 0 ==> r == 500
    ensures response.Some? && response.value.status.Some? && response.value.status.value != 0 ==>
      r == response.value.status.value
  {
    if response.Some? && response.value.status.Some? && response.value.status.value != 0
    then response.value.status.value else 500
  }

  /** `ErrorHandler.handleWhatsAppError(error, context)`. */
  function HandleWhatsAppError(error: Thrown, context: map<string, JsValue>, now: int): (r: AppError)
    ensures r.code == WhatsAppApiError && r.errorType == ApiType
    ensures var res := error.Response();
      res.Some? && Truthy(Prop(res.value.data, "error")) ==>
        && r.statusCode == res.value.status.GetOr(500)
        && r.message == ErrorMessage(GraphErrorMessage(Prop(res.value.data, "error")))
        && ("facebookError" !in context ==>
              "facebookError" in r.details && r.details["facebookError"] == Prop(res.value.data, "error"))
    ensures var res := error.Response();
      !(res.Some? && Truthy(Prop(res.value.data, "error"))) ==>
        && r.statusCode == StatusOr500(res)
        && r.message == ErrorMessage(Or(error.Message(), Str(WhatsAppConnectionMessage)))
  {
    var response := error.Response();
    if response.Some? && Truthy(Prop(response.value.data, "error")) then
      var fbError := Prop(response.value.data, "error");
      NewApiError(GraphErrorMessage(fbError), "WhatsApp", response.value.status,
        Spread(map["facebookError" := fbError], context), now)
    else
      NewApiError(Or(error.Message(), Str(WhatsAppConnectionMessage)), "WhatsApp",
        Some(StatusOr500(response)), context, now)
  }

  /** The `code` the switch of `handleWhatsAppError` computes for a Graph
      API error, which the `ApiError` it then builds does not use. */
  function GraphErrorCode(fbError: JsValue): (r: string)
    ensures r == WhatsAppApiError <==> Prop(fbError, "code") !in {Num(100), Num(131056), Num(80007)}
    ensures Prop(fbError, "code") == Num(100) ==> r == InvalidAccessToken
    ensures Prop(fbError, "code") == Num(131056) ==> r == InvalidPhoneNumber
    ensures Prop(fbError, "code") == Num(80007) ==> r == MessageSendFailed
  {
    var code := Prop(fbError, "code");
    if code == Num(100) then InvalidAccessToken
    else if code == Num(131056) then InvalidPhoneNumber
    else if code == Num(80007) then MessageSendFailed
    else WhatsAppApiError
  }

  /** `handleWhatsAppError` with the computed code kept on the error it
      returns; everything else is as written. */
  function HandleWhatsAppErrorIntended(error: Thrown, context: map<string, JsValue>, now: int): (r: AppError)
    ensures var res := error.Response();
      res.Some? && Truthy(Prop(res.value.data, "error")) ==> r.code == GraphErrorCode(Prop(res.value.data, "error"))
    ensures var res := error.Response();
      !(res.Some? && Truthy(Prop(res.value.data, "error"))) ==> r.code == WhatsAppApiError
    ensures r.(code := WhatsAppApiError) == HandleWhatsAppError(error, context, now)
  {
    var written := HandleWhatsAppError(error, context, now);
    var response := error.Response();
    if response.Some? && Truthy(Prop(response.value.data, "error")) then
      written.(code := GraphErrorCode(Prop(response.value.data, "error")))
    else written
  }

  /** An expired token (Graph API code 100) is reported with the generic
      WHATSAPP_API_ERROR code as written, and as INVALID_ACCESS_TOKEN once
      the computed code is kept. */
  lemma ExpiredTokenCodeLost(context: map<string, JsValue>, now: int)
    ensures var e := Raw(Str("AxiosError"), Str("Request failed with status code 401"), Undefined, Undefined,
                         Undefined, Undefined, Some(HttpResponse(Some(401), Obj(map["error" := Obj(map["code" := Num(100)])]))));
      && HandleWhatsAppError(e, context, now).code == WhatsAppApiError
      && HandleWhatsAppErrorIntended(e, context, now).code == InvalidAccessToken
  {
  }

  /** `ErrorHandler.handleInstagramError(error, context)`. */
  function HandleInstagramError(error: Thrown, context: map<string, JsValue>, now: int): (r: AppError)
    ensures r.code == WhatsAppApiError && r.statusCode == StatusOr500(error.Response())
    ensures "apiName" in r.details && ("apiName" !in context ==> r.details["apiName"] == Str("Instagram"))
    ensures r.message == ErrorMessage(Or(error.Message(), Str(InstagramFallbackMessage)))
  {
    NewApiError(Or(error.Message(), Str(InstagramFallbackMessage)), "Instagram",
      Some(StatusOr500(error.Response())), context, now)
  }

  /** `ErrorHandler.handleTiendaNubeError(error, context)`. */
  function HandleTiendaNubeError(error: Thrown, context: map<string, JsValue>, now: int): (r: AppError)
    ensures r.code == WhatsAppApiError && r.statusCode == StatusOr500(error.Response())
    ensures "apiName" in r.details && ("apiName" !in context ==> r.details["apiName"] == Str("TiendaNube"))
    ensures r.message == ErrorMessage(Or(error.Message(), Str(TiendaNubeFallbackMessage)))
  {
    NewApiError(Or(error.Message(), Str(TiendaNubeFallbackMessage)), "TiendaNube",
      Some(StatusOr500(error.Response())), context, now)
  }

  /** A validation error from Joi, express-validator and the like. */
  predicate IsForeignValidation(error: Thrown)
    requires error.Raw?
  {
    error.name == Str("ValidationError") || Truthy(error.isJoi)
  }

  predicate IsNetworkFailure(error: Thrown)
    requires error.Raw?
  {
    error.code == Str("ECONNREFUSED") || error.code == Str("ETIMEDOUT")
  }

  /** `ErrorHandler.normalizeError(error, context)`: our errors pass through;
      others are classified as validation (400), network (503) or internal
      (500), in that priority. */
  function NormalizeError(error: Thrown, context: map<string, JsValue>, now: int): (r: AppError)
    ensures error.App? ==> r == error.err
    ensures error.Raw? && IsForeignValidation(error) ==>
      r.statusCode == 400 && r.errorType == ValidationType && r.code == InvalidInput
      && r.details == map["originalError" := error.details]
    ensures error.Raw? && !IsForeignValidation(error) && IsNetworkFailure(error) ==>
      r.statusCode == 503 && r.errorType == NetworkType && r.code == ConnectionFailed
      && r.message == NetworkMessage && "originalCode" in r.details
    ensures error.Raw? && !IsForeignValidation(error) && !IsNetworkFailure(error) ==>
      r.statusCode == 500 && r.errorType == InternalType && r.code == UnexpectedError
      && r.message == ErrorMessage(Or(error.message, Str(InternalMessage)))
  {
    if error.App? then error.err
    else if IsForeignValidation(error) then
      NewValidationError(error.message, Some(map["originalError" := error.details]), now)
    else if IsNetworkFailure(error) then
      NewAppError("AppError", Str(NetworkMessage), NetworkType, ConnectionFailed, 503,
        Spread(map["originalCode" := error.code], context), now)
    else
      NewAppError("AppError", Or(error.message, Str(InternalMessage)), InternalType, UnexpectedError, 500,
        Spread(map["stack" := error.stack], context), now)
  }

  /** Normalising is idempotent: a normalised error normalises to itself. */
  lemma NormalizeIdempotent(error: Thrown, context: map<string, JsValue>, context2: map<string, JsValue>, now: int, later: int)
    ensures var once := NormalizeError(error, context, now);
      NormalizeError(App(once), context2, later) == once
  {
  }

  /** The body the middleware sends; `devDetails` is present only in
      development (the stack sent beside it is not modelled). */
  datatype ErrorBody = ErrorBody(error: string, code: string, timestamp: int, devDetails: Option<map<string, JsValue>>)

  /** What the middleware does with an error: the logger method it calls,
      the line it logs, the status and the body it sends. */
  datatype MiddlewareOutcome = MiddlewareOutcome(logLevel: string, logMessage: string, status: int, body: ErrorBody)

  /** `ErrorHandler.middleware()` applied to an error; `requestContext` is
      the `{url, method, ip, userAgent}` object of the request. */
  function Middleware(error: Thrown, requestContext: map<string, JsValue>, development: bool, now: int): (r: MiddlewareOutcome)
    ensures var n := NormalizeError(error, requestContext, now);
      && r.status == n.statusCode
      && (r.logLevel == "error" <==> n.statusCode >= 500)
      && (r.logLevel == "error" || r.logLevel == "warn")
      && r.body.error == n.message && r.body.code == n.code && r.body.timestamp == n.timestamp
      && (r.body.devDetails.Some? <==> development)
      && (development ==> r.body.devDetails == Some(n.details))
      && r.logMessage == n.errorType + ": " + n.message
  {
    var n := NormalizeError(error, requestContext, now);
    MiddlewareOutcome(
      if n.statusCode >= 500 then "error" else "warn",
      n.errorType + ": " + n.message,
      n.statusCode,
      ErrorBody(n.message, n.code, n.timestamp, if development then Some(n.details) else None))
  }

  /** An error already normalised goes out with its own status. */
  lemma MiddlewareKeepsAppStatus(e: AppError, requestContext: map<string, JsValue>, development: bool, now: int)
    ensures Middleware(App(e), requestContext, development, now).status == e.statusCode
    ensures Middleware(App(e), requestContext, development, now).logLevel == "warn" <==> e.statusCode < 500
  {
  }

  /** `ErrorHandler.apiCall(apiFunction, apiName, context)` given how the call
      ended: a value passes through, a failure is rethrown through the handler
      the lower-cased `apiName` selects. */
  function ApiCall(outcome: Result<JsValue, Thrown>, apiName: string, context: map<string, JsValue>, now: int): (r: Result<JsValue, AppError>)
    ensures outcome.Ok? ==> r == Ok(outcome.value)
    ensures outcome.Err? ==> r.Err?
    ensures outcome.Err? && ToLower(apiName) == "whatsapp" ==> r.error == HandleWhatsAppError(outcome.error, context, now)
    ensures outcome.Err? && ToLower(apiName) == "instagram" ==> r.error == HandleInstagramError(outcome.error, context, now)
    ensures outcome.Err? && ToLower(apiName) == "tiendanube" ==> r.error == HandleTiendaNubeError(outcome.error, context, now)
    ensures outcome.Err? && ToLower(apiName) !in {"whatsapp", "instagram", "tiendanube"} ==>
      r.error == NormalizeError(outcome.error, context, now)
  {
    if outcome.Ok? then Ok(outcome.value)
    else
      var name := ToLower(apiName);
      if name == "whatsapp" then Err(HandleWhatsAppError(outcome.error, context, now))
      else if name == "instagram" then Err(HandleInstagramError(outcome.error, context, now))
      else if name == "tiendanube" then Err(HandleTiendaNubeError(outcome.error, context, now))
      else Err(NormalizeError(outcome.error, context, now))
  }

  /** The dispatch ignores letter case: "WhatsApp", "WHATSAPP" and
      "whatsapp" select the same handler. */
  lemma ApiCallIgnoresCase(outcome: Result<JsValue, Thrown>, a: string, b: string, context: map<string, JsValue>, now: int)
    requires ToLower(a) == ToLower(b)
    ensures ApiCall(outcome, a, context, now) == ApiCall(outcome, b, context, now)
  {
  }

  /** Every failure the WhatsApp handler reports carries the WhatsApp API
      code and, for an unknown API, the generic normalisation applies. */
  lemma WhatsAppFailureCode(error: Thrown, context: map<string, JsValue>, now: int)
    ensures ApiCall(Err(error), "WhatsApp", context, now).error.code == WhatsAppApiError
  {
    assert ToLower("WhatsApp") == "whatsapp";
  }
}

=== FILE: instagram_id.dfy ===
/** The Instagram messaging-ID selector of routes/instagram-id-helper.js: the
    ID seen in webhooks (`entry.id`) is the one to message with; the ID from
    the login is only a fallback. IDs are JavaScript values (`null` when
    unset); `lastUpdated` is the time of the last change, in milliseconds. */
module InstagramId {
  import opened Wrappers
  import opened JsValues

  const AwaitWebhook := "Esperar webhook para obtener ID correcto"

  /** `getIdInfo().recommendation` for a given `correctMessagingId`. */
  function Recommendation(correctMessagingId: JsValue): (r: string)
    ensures Truthy(correctMessagingId) <==> r != AwaitWebhook
    ensures Truthy(correctMessagingId) ==>
      |r| > 5 + |ToJsString(correctMessagingId)|
      && r[..5] == "Usar " && r[5..5 + |ToJsString(correctMessagingId)|] == ToJsString(correctMessagingId)
  {
    if Truthy(correctMessagingId) then
      var id := ToJsString(correctMessagingId);
      var r := "Usar " + id + " para mensajería";
      assert r[0] != AwaitWebhook[0];
      assert r[5..5 + |id|] == id;
      r
    else AwaitWebhook
  }

  /** The object `getIdInfo()` returns. */
  datatype IdInfo = IdInfo(
    correctMessagingId: JsValue,
    loginId: JsValue,
    hasCorrectId: bool,
    lastUpdated: Option<int>,
    recommendation: string)

  class InstagramIdHelper {
    var correctMessagingId: JsValue
    var loginId: JsValue
    var lastUpdated: Option<int>

    constructor()
      ensures correctMessagingId == Null && loginId == Null && lastUpdated == None
    {
      correctMessagingId := Null;
      loginId := Null;
      lastUpdated := None;
    }

    /** `captureCorrectIdFromWebhook(id)`: a truthy ID different from the
        current one replaces it and stamps the time; anything else, including
        the current ID again, changes nothing. */
    method CaptureCorrectIdFromWebhook(webhookEntryId: JsValue, now: int)
      modifies this
      ensures Truthy(webhookEntryId) && webhookEntryId != old(correctMessagingId) ==>
        correctMessagingId == webhookEntryId && lastUpdated == Some(now)
      ensures !Truthy(webhookEntryId) || webhookEntryId == old(correctMessagingId) ==>
        correctMessagingId == old(correctMessagingId) && lastUpdated == old(lastUpdated)
      ensures loginId == old(loginId)
    {
      if Truthy(webhookEntryId) && webhookEntryId != correctMessagingId {
        correctMessagingId := webhookEntryId;
        lastUpdated := Some(now);
      }
    }

    /** `setLoginId(id)`: only the login ID changes. */
    method SetLoginId(id: JsValue)
      modifies this
      ensures loginId == id
      ensures correctMessagingId == old(correctMessagingId) && lastUpdated == old(lastUpdated)
    {
      loginId := id;
    }

    /** `getCorrectMessagingId()`: the webhook ID when set, else the login ID. */
    function GetCorrectMessagingId(): (r: JsValue)
      reads this
      ensures Truthy(correctMessagingId) ==> r == correctMessagingId
      ensures !Truthy(correctMessagingId) ==> r == loginId
    {
      if !Truthy(correctMessagingId) then loginId else correctMessagingId
    }

    /** `hasCorrectId()` */
    function HasCorrectId(): (r: bool)
      reads this
      ensures r <==> Truthy(correctMessagingId)
      ensures r ==> GetCorrectMessagingId() == correctMessagingId
    {
      Truthy(correctMessagingId)
    }

    /** `getIdInfo()`: the recommendation names the webhook ID exactly when
        there is one. */
    function GetIdInfo(): (r: IdInfo)
      reads this
      ensures r.hasCorrectId == HasCorrectId()
      ensures r.correctMessagingId == correctMessagingId && r.loginId == loginId && r.lastUpdated == lastUpdated
      ensures r.hasCorrectId <==> r.recommendation != AwaitWebhook
      ensures r.recommendation == Recommendation(correctMessagingId)
      ensures r.hasCorrectId ==>
        var id := ToJsString(GetCorrectMessagingId());
        |r.recommendation| > 5 + |id| && r.recommendation[..5 + |id|] == "Usar " + id
    {
      IdInfo(correctMessagingId, loginId, HasCorrectId(), lastUpdated, Recommendation(correctMessagingId))
    }

    /** `forceMessagingId(id)`: sets the ID whatever it is, and the time. */
    method ForceMessagingId(forcedId: JsValue, now: int)
      modifies this
      ensures correctMessagingId == forcedId && lastUpdated == Some(now)
      ensures loginId == old(loginId)
    {
      correctMessagingId := forcedId;
      lastUpdated := Some(now);
    }

    /** `reset()`: back to the state the constructor builds. */
    method Reset()
      modifies this
      ensures correctMessagingId == Null && loginId == Null && lastUpdated == None
      ensures !HasCorrectId() && GetCorrectMessagingId() == Null
    {
      correctMessagingId := Null;
      loginId := Null;
      lastUpdated := None;
    }
  }
}

=== FILE: js_values.dfy ===
/** The slice of JavaScript's value semantics the core relies on: truthiness,
    `typeof`, conversion with `String(v)`, property reads and `Array.join`.
    Numbers are modelled as integers (no NaN, no fractions, no -0). */
module JsValues {

  datatype JsValue =
    | Undefined
    | Null
    | Bool(b: bool)
    | Num(n: int)
    | Str(s: string)
    | Arr(items: seq<JsValue>)
    | Obj(props: map<string, JsValue>)

  /** `!!v` */
  predicate Truthy(v: JsValue) {
    match v
    case Undefined => false
    case Null => false
    case Bool(b) => b
    case Num(n) => n != 0
    case Str(s) => s != ""
    case Arr(_) => true
    case Obj(_) => true
  }

  /** `v || d` */
  function Or(v: JsValue, d: JsValue): JsValue {
    if Truthy(v) then v else d
  }

  /** `v === undefined || v === null` */
  predicate Nullish(v: JsValue) {
    v.Undefined? || v.Null?
  }

  /** `Array.isArray(v) ? 'array' : typeof v` */
  function TypeName(v: JsValue): string {
    match v
    case Undefined => "undefined"
    case Null => "object"
    case Bool(_) => "boolean"
    case Num(_) => "number"
    case Str(_) => "string"
    case Arr(_) => "array"
    case Obj(_) => "object"
  }

  /** `v?.[key]` on a plain object; every other value has no own properties here. */
  function Prop(v: JsValue, key: string): JsValue {
    match v
    case Obj(m) => if key in m then m[key] else Undefined
    case _ => Undefined
  }

  /** `{ ...a, ...b }`: keys of `b` win. */
  function Spread(a: map<string, JsValue>, b: map<string, JsValue>): map<string, JsValue> {
    a + b
  }

  /** `items.length > n ? items.slice(-n) : items`: keep the last `n`. */
  function KeepLast<T>(items: seq<T>, n: nat): (r: seq<T>)
    ensures |r| == (if |items| > n then n else |items|)
  {
    if |items| > n then items[|items| - n..] else items
  }

  function DigitChar(d: nat): char
    requires d < 10
  {
    "0123456789"[d]
  }

  function NatToString(n: nat): (r: string)
    ensures |r| > 0
  {
    if n < 10 then [DigitChar(n)] else NatToString(n / 10) + [DigitChar(n % 10)]
  }

  /** Decimal rendering of an integer, as `String(n)` prints it. */
  function IntToString(n: int): string {
    if n < 0 then "-" + NatToString(-n) else NatToString(n)
  }

  /** The UTF-16 code units a character takes: two for a character outside
      the Basic Multilingual Plane, one otherwise. */
  function Utf16Units(c: char): nat {
    if c as int > 0xFFFF then 2 else 1
  }

  /** A string's `.length`, which counts UTF-16 code units. */
  function Utf16Length(s: string): (r: nat)
    ensures |s| <= r <= 2 * |s|
  {
    if s == [] then 0 else Utf16Length(s[..|s| - 1]) + Utf16Units(s[|s| - 1])
  }

  /** A string made only of characters outside the Basic Multilingual Plane,
      such as emoji, has a `.length` twice its number of characters. */
  lemma {:induction false} AstralLengthDoubles(s: string)
    requires forall i :: 0 <= i < |s| ==> s[i] as int > 0xFFFF
    ensures Utf16Length(s) == 2 * |s|
  {
    if s != [] {
      AstralLengthDoubles(s[..|s| - 1]);
    }
  }

  /** Within the Basic Multilingual Plane, `.length` is the number of
      characters. */
  lemma {:induction false} BmpLengthIsSize(s: string)
    requires forall i :: 0 <= i < |s| ==> s[i] as int <= 0xFFFF
    ensures Utf16Length(s) == |s|
  {
    if s != [] {
      BmpLengthIsSize(s[..|s| - 1]);
    }
  }

  function JoinStrings(parts: seq<string>, sep: string): string {
    if |parts| == 0 then ""
    else if |parts| == 1 then parts[0]
    else parts[0] + sep + JoinStrings(parts[1..], sep)
  }

  /** `String(v)`: the conversion a regular expression test and a template
      literal apply to their argument. */
  function ToJsString(v: JsValue): string
    decreases v
  {
    match v
    case Undefined => "undefined"
    case Null => "null"
    case Bool(b) => if b then "true" else "false"
    case Num(n) => IntToString(n)
    case Str(s) => s
    case Arr(items) => JoinValues(items, ",")
    case Obj(_) => "[object Object]"
  }

  /** `items.join(sep)`: `null` and `undefined` items become empty strings. */
  function JoinValues(items: seq<JsValue>, sep: string): string
    decreases items
  {
    if items == [] then ""
    else
      (if Nullish(items[0]) then "" else ToJsString(items[0]))
      + (if |items| == 1 then "" else sep + JoinValues(items[1..], sep))
  }

  function AsciiLowerChar(c: char): char {
    if 'A' <= c <= 'Z' then (c as int + 32) as char else c
  }

  function AsciiUpperChar(c: char): char {
    if 'a' <= c <= 'z' then (c as int - 32) as char else c
  }

  /** `s.toLowerCase()`, restricted to ASCII letters. */
  function ToLower(s: string): (r: string)
    ensures |r| == |s|
  {
    seq(|s|, i requires 0 <= i < |s| => AsciiLowerChar(s[i]))
  }

  /** `s.toUpperCase()`, restricted to ASCII letters. */
  function ToUpper(s: string): (r: string)
    ensures |r| == |s|
  {
    seq(|s|, i requires 0 <= i < |s| => AsciiUpperChar(s[i]))
  }
}

=== FILE: logger.dfy ===
/** The structured logger of src/utils/logger.js. The level and format are
    fixed by the constructor; what the logger writes to the console (and, for
    errors in production, to the monitoring placeholder) is kept in the `out`
    field, one record per write. Times are integer parameters; colours, JSON
    text and stack traces are not modelled (a stack is an opaque value). */
module Logging {
  import opened Wrappers
  import opened JsValues

  /** `LOG_LEVELS`: ERROR 0, WARN 1, INFO 2, DEBUG 3. */
  datatype Level = Error | Warn | Info | Debug
  {
    function Value(): int {
      match this
      case Error => 0
      case Warn => 1
      case Info => 2
      case Debug => 3
    }

    function Name(): string {
      match this
      case Error => "ERROR"
      case Warn => "WARN"
      case Info => "INFO"
      case Debug => "DEBUG"
    }
  }

  /** `LOG_LEVELS[name]`: only the four upper-case names are keys. */
  function LevelNamed(name: string): (r: Option<Level>)
    ensures r.Some? ==> r.value.Name() == name
    ensures r.None? ==> name !in {"ERROR", "WARN", "INFO", "DEBUG"}
  {
    if name == "ERROR" then Some(Error)
    else if name == "WARN" then Some(Warn)
    else if name == "INFO" then Some(Info)
    else if name == "DEBUG" then Some(Debug)
    else None
  }

  /** `getLevelFromString(s)`: `LOG_LEVELS[s.toUpperCase()] || LOG_LEVELS.INFO`.
      Because ERROR's value 0 is falsy, "error" selects INFO as well. */
  function LevelFromString(levelStr: string): (r: int)
    ensures 1 <= r <= 3
    ensures r == 1 <==> ToUpper(levelStr) == "WARN"
    ensures r == 3 <==> ToUpper(levelStr) == "DEBUG"
    ensures ToUpper(levelStr) !in {"WARN", "DEBUG"} ==> r == 2
  {
    var found := LevelNamed(ToUpper(levelStr));
    if found.Some? && found.value.Value() != 0 then found.value.Value() else Info.Value()
  }

  /** The configured level "error" does not silence warnings: it means INFO. */
  lemma ErrorLevelMeansInfo()
    ensures LevelFromString("error") == Info.Value()
    ensures LevelFromString("ERROR") == Info.Value()
  {
    assert ToUpper("error") == "ERROR";
    assert ToUpper("ERROR") == "ERROR";
  }

  /** `apiCall`'s choice: ERROR from 400, WARN from 300, INFO below. */
  function ApiCallLevel(status: int): (r: Level)
    ensures r == Error <==> status >= 400
    ensures r == Warn <==> 300 <= status < 400
    ensures r == Info <==> status < 300
  {
    if status >= 400 then Error else if status >= 300 then Warn else Info
  }

  /** A higher status never chooses a less severe level. */
  lemma ApiCallLevelMonotone(s1: int, s2: int)
    requires s1 <= s2
    ensures ApiCallLevel(s2).Value() <= ApiCallLevel(s1).Value()
  {
  }

  /** `{ ...context, ...meta }`: what a child logger passes to its parent. */
  function ChildMeta(context: map<string, JsValue>, meta: map<string, JsValue>): (r: map<string, JsValue>)
    ensures r.Keys == context.Keys + meta.Keys
    ensures forall k :: k in meta ==> r[k] == meta[k]
    ensures forall k :: k in context && k !in meta ==> r[k] == context[k]
  {
    Spread(context, meta)
  }

  /** The meta `error` writes: the caller's meta plus a `stack`, taken from
      `meta.error.stack` when truthy, else the trace of a fresh Error. */
  function ErrorMeta(meta: map<string, JsValue>, trace: JsValue): (r: map<string, JsValue>)
    ensures "stack" in r
    ensures r["stack"] == Or(Prop(Prop(Obj(meta), "error"), "stack"), trace)
    ensures forall k :: k in meta && k != "stack" ==> k in r && r[k] == meta[k]
  {
    Spread(meta, map["stack" := Or(Prop(Prop(Obj(meta), "error"), "stack"), trace)])
  }

  /** `this[name]` for the four level methods of a logger, whose names are
      lower case. */
  function LevelMethod(name: string): (r: Option<Level>)
    ensures r.Some? <==> name in {"error", "warn", "info", "debug"}
    ensures r.Some? ==> r.value.Name() == ToUpper(name) && name == ToLower(r.value.Name())
  {
    if name == "error" then Some(Error)
    else if name == "warn" then Some(Warn)
    else if name == "info" then Some(Info)
    else if name == "debug" then Some(Debug)
    else None
  }

  /** The object `formatMessage` builds (and prints as JSON in the json
      format): `{ timestamp, level, message, ...meta }`, meta keys winning. */
  function LogEntry(level: Level, message: string, meta: map<string, JsValue>, now: int): (r: map<string, JsValue>)
    ensures r.Keys == {"timestamp", "level", "message"} + meta.Keys
    ensures "level" !in meta ==> r["level"] == Str(level.Name())
    ensures "message" !in meta ==> r["message"] == Str(message)
    ensures forall k :: k in meta ==> r[k] == meta[k]
  {
    Spread(map["timestamp" := Num(now), "level" := Str(level.Name()), "message" := Str(message)], meta)
  }

  /** One write: a console line, or the monitoring placeholder. */
  datatype Output =
    | Console(level: Level, message: string, meta: map<string, JsValue>, time: int)
    | Monitored(message: string, meta: map<string, JsValue>)

  class Logger {
    var level: int
    var format: string
    var production: bool
    var out: seq<Output>

    /** The levels `getLevelFromString` can produce. */
    predicate Valid()
      reads this
    {
      1 <= level <= 3
    }

    /** `new Logger()` with the configured level name, format and whether
        the environment is production. */
    constructor(levelName: string, format: string, production: bool)
      ensures level == LevelFromString(levelName) && this.format == format
      ensures this.production == production && out == []
      ensures Valid()
    {
      level := LevelFromString(levelName);
      this.format := format;
      this.production := production;
      out := [];
    }

    /** `shouldLog(name)` */
    predicate ShouldLog(lv: Level)
      reads this
    {
      lv.Value() <= level
    }

    /** What one call of the `lv` method writes. */
    function Writes(lv: Level, message: string, meta: map<string, JsValue>, trace: JsValue, now: int): (r: seq<Output>)
      reads this
      ensures !ShouldLog(lv) <==> r == []
      ensures lv == Error && ShouldLog(lv) ==>
        r[0] == Console(Error, message, ErrorMeta(meta, trace), now)
        && |r| == (if production then 2 else 1)
        && (production ==> r[1] == Monitored(message, meta))
      ensures lv != Error && ShouldLog(lv) ==> r == [Console(lv, message, meta, now)]
    {
      if !ShouldLog(lv) then []
      else if lv == Error then
        [Console(Error, message, ErrorMeta(meta, trace), now)]
        + (if production then [Monitored(message, meta)] else [])
      else [Console(lv, message, meta, now)]
    }

    /** `error(message, meta)`; `trace` is the stack of a fresh Error. */
    method LogError(message: string, meta: map<string, JsValue>, trace: JsValue, now: int)
      modifies this
      ensures out == old(out) + Writes(Error, message, meta, trace, now)
      ensures level == old(level) && format == old(format) && production == old(production)
    {
      if !ShouldLog(Error) {
        return;
      }
      out := out + [Console(Error, message, ErrorMeta(meta, trace), now)];
      if production {
        out := out + [Monitored(message, meta)];
      }
    }

    /** `warn(message, meta)` */
    method LogWarn(message: string, meta: map<string, JsValue>, now: int)
      modifies this
      ensures out == old(out) + Writes(Warn, message, meta, Undefined, now)
      ensures level == old(level) && format == old(format) && production == old(production)
    {
      if !ShouldLog(Warn) {
        return;
      }
      out := out + [Console(Warn, message, meta, now)];
    }

    /** `info(message, meta)` */
    method LogInfo(message: string, meta: map<string, JsValue>, now: int)
      modifies this
      ensures out == old(out) + Writes(Info, message, meta, Undefined, now)
      ensures level == old(level) && format == old(format) && production == old(production)
    {
      if !ShouldLog(Info) {
        return;
      }
      out := out + [Console(Info, message, meta, now)];
    }

    /** `debug(message, meta)` */
    method LogDebug(message: string, meta: map<string, JsValue>, now: int)
      modifies this
      ensures out == old(out) + Writes(Debug, message, meta, Undefined, now)
      ensures level == old(level) && format == old(format) && production == old(production)
    {
      if !ShouldLog(Debug) {
        return;
      }
      out := out + [Console(Debug, message, meta, now)];
    }

    /** `apiCall(method, url, status, duration, meta)`: logs `API <method>
        <url>` at the level the status selects, with the status and the
        duration in front of the caller's meta. */
    method ApiCall(httpMethod: string, url: string, status: int, duration: int,
                   meta: map<string, JsValue>, trace: JsValue, now: int)
      modifies this
      ensures out == old(out) + Writes(ApiCallLevel(status), "API " + httpMethod + " " + url,
        Spread(map["status" := Num(status), "duration" := Str(IntToString(duration) + "ms")], meta), trace, now)
      ensures level == old(level) && format == old(format) && production == old(production)
    {
      var lv := ApiCallLevel(status);
      var message := "API " + httpMethod + " " + url;
      var fullMeta := Spread(map["status" := Num(status), "duration" := Str(IntToString(duration) + "ms")], meta);
      if lv == Error {
        LogError(message, fullMeta, trace, now);
      } else if lv == Warn {
        LogWarn(message, fullMeta, now);
      } else {
        LogInfo(message, fullMeta, now);
      }
    }

    /** `webhook(event, source, meta)`: an info line. */
    method Webhook(event: string, source: string, meta: map<string, JsValue>, now: int)
      modifies this
      ensures out == old(out) + Writes(Info, "Webhook " + event + " from " + source, meta, Undefined, now)
      ensures level == old(level) && format == old(format) && production == old(production)
    {
      LogInfo("Webhook " + event + " from " + source, meta, now);
    }

    /** `whatsapp(action, success, meta)` as written: `this['INFO']` and
        `this['ERROR']` are not methods of the logger, so the call throws a
        TypeError and nothing is written. */
    method WhatsApp(action: string, success: bool, meta: map<string, JsValue>) returns (threw: bool)
      ensures threw
    {
      threw := LevelMethod(if success then "INFO" else "ERROR").None?;
    }

    /** `whatsapp` as evidently intended: info on success, error otherwise. */
    method WhatsAppIntended(action: string, success: bool, meta: map<string, JsValue>, trace: JsValue, now: int)
      modifies this
      ensures out == old(out) + Writes(if success then Info else Error, "WhatsApp " + action,
        Spread(map["success" := Bool(success)], meta), trace, now)
      ensures level == old(level) && format == old(format) && production == old(production)
    {
      var fullMeta := Spread(map["success" := Bool(success)], meta);
      if success {
        LogInfo("WhatsApp " + action, fullMeta, now);
      } else {
        LogError("WhatsApp " + action, fullMeta, trace, now);
      }
    }

    /** `auth(action, success, userId, meta)` as written: `this['INFO']` and
        `this['WARN']` are not methods, so the call throws. */
    method Auth(action: string, success: bool, userId: JsValue, meta: map<string, JsValue>) returns (threw: bool)
      ensures threw
    {
      threw := LevelMethod(if success then "INFO" else "WARN").None?;
    }

    /** `auth` as evidently intended: info on success, warn otherwise. */
    method AuthIntended(action: string, success: bool, userId: JsValue, meta: map<string, JsValue>, now: int)
      modifies this
      ensures out == old(out) + Writes(if success then Info else Warn, "Auth " + action,
        Spread(map["success" := Bool(success), "userId" := userId], meta), Undefined, now)
      ensures level == old(level) && format == old(format) && production == old(production)
    {
      var fullMeta := Spread(map["success" := Bool(success), "userId" := userId], meta);
      if success {
        LogInfo("Auth " + action, fullMeta, now);
      } else {
        LogWarn("Auth " + action, fullMeta, now);
      }
    }
  }

  /** A logger writes a level exactly when it writes every more severe one. */
  lemma ShouldLogMonotone(logger: Logger, a: Level, b: Level)
    requires a.Value() <= b.Value()
    ensures logger.ShouldLog(b) ==> logger.ShouldLog(a)
  {
  }

  /** No level string silences errors, and none enables only errors. */
  lemma ErrorsAlwaysWritten(logger: Logger)
    requires logger.Valid()
    ensures logger.ShouldLog(Error) && logger.ShouldLog(Warn)
  {
  }

  /** With the default level "info", debug lines are dropped and the rest kept. */
  lemma DefaultLevelFiltersDebug(levelStr: string)
    requires ToUpper(levelStr) == "INFO"
    ensures var lv := LevelFromString(levelStr);
      Info.Value() <= lv && Debug.Value() > lv
  {
  }
}

=== FILE: psid_lookup.dfy ===
/** The PSID lookup of routes/psid-lookup.js: a page's conversations, as the
    Graph API lists them, are turned into one row per participant that is not
    the page itself. The HTTP call is a parameter: its outcome is given as a
    `Result` holding the listed conversations or the error details. */
module PsidLookup {
  import opened Wrappers
  import opened JsValues

  const UnknownUser := "Usuario desconocido"
  const ConversationsParamsMessage := "Se requieren access_token y page_id como parámetros"
  const UserInfoParamsMessage := "Se requieren access_token y psid como parámetros"

  datatype Participant = Participant(id: JsValue, name: JsValue)

  /** A listed conversation; `participants` is `None` when
      `participants` or `participants.data` is missing. */
  datatype Conversation = Conversation(
    id: JsValue,
    updatedTime: JsValue,
    messageCount: JsValue,
    participants: Option<seq<Participant>>)

  /** One row of the `psids` array of the response. */
  datatype PsidEntry = PsidEntry(
    psid: JsValue,
    conversationId: JsValue,
    updatedTime: JsValue,
    messageCount: JsValue,
    name: JsValue)

  /** The row pushed for participant `p` of conversation `c`, with its
      defaults: a falsy message count becomes 0, a falsy name "Usuario
      desconocido". */
  function Row(c: Conversation, p: Participant): (r: PsidEntry)
    ensures r.psid == p.id && r.conversationId == c.id && r.updatedTime == c.updatedTime
    ensures Truthy(r.name) && (Truthy(p.name) ==> r.name == p.name)
    ensures Truthy(r.messageCount) || r.messageCount == Num(0)
    ensures Truthy(c.messageCount) ==> r.messageCount == c.messageCount
  {
    PsidEntry(p.id, c.id, c.updatedTime, Or(c.messageCount, Num(0)), Or(p.name, Str(UnknownUser)))
  }

  /** The rows for participants `ps` of `c`, in their order, skipping the page. */
  function ParticipantRows(c: Conversation, ps: seq<Participant>, pageId: JsValue): (r: seq<PsidEntry>)
    ensures forall i :: 0 <= i < |r| ==> r[i].psid != pageId && r[i].conversationId == c.id
    decreases |ps|
  {
    if ps == [] then []
    else
      ParticipantRows(c, ps[..|ps| - 1], pageId)
      + (if ps[|ps| - 1].id != pageId then [Row(c, ps[|ps| - 1])] else [])
  }

  function ConversationRows(c: Conversation, pageId: JsValue): seq<PsidEntry> {
    if c.participants.None? then [] else ParticipantRows(c, c.participants.value, pageId)
  }

  /** The specification of the extraction loop: every conversation's rows,
      conversation after conversation. */
  function Extracted(conversations: seq<Conversation>, pageId: JsValue): (r: seq<PsidEntry>)
    decreases |conversations|
  {
    if conversations == [] then []
    else
      Extracted(conversations[..|conversations| - 1], pageId)
      + ConversationRows(conversations[|conversations| - 1], pageId)
  }

  /** The inner loop of `/conversations`: one conversation's participants
      are pushed, skipping the page. */
  method PushParticipantRows(c: Conversation, ps: seq<Participant>, pageId: JsValue, start: seq<PsidEntry>)
    returns (psids: seq<PsidEntry>)
    ensures psids == start + ParticipantRows(c, ps, pageId)
  {
    psids := start;
    var j := 0;
    while j < |ps|
      invariant 0 <= j <= |ps|
      invariant psids == start + ParticipantRows(c, ps[..j], pageId)
    {
      assert ps[..j + 1][..j] == ps[..j];
      if ps[j].id != pageId {
        psids := psids + [Row(c, ps[j])];
      }
      j := j + 1;
    }
    assert ps[..|ps|] == ps;
  }

  /** The outer loop of `/conversations`, over the listed conversations. */
  method ExtractPsids(conversations: seq<Conversation>, pageId: JsValue) returns (psids: seq<PsidEntry>)
    ensures psids == Extracted(conversations, pageId)
  {
    psids := [];
    var i := 0;
    while i < |conversations|
      invariant 0 <= i <= |conversations|
      invariant psids == Extracted(conversations[..i], pageId)
    {
      var conversation := conversations[i];
      assert conversations[..i + 1][..i] == conversations[..i];
      if conversation.participants.Some? {
        psids := PushParticipantRows(conversation, conversation.participants.value, pageId, psids);
      }
      i := i + 1;
    }
    assert conversations[..|conversations|] == conversations;
  }

  /** The responses of `GET /conversations`. */
  datatype ConversationsResponse =
    | MissingConversationsParams
    | ConversationsFailed(details: JsValue)
    | ConversationsFound(pageId: JsValue, psids: seq<PsidEntry>, totalConversations: nat, totalPsids: nat)
  {
    function Status(): int {
      match this
      case MissingConversationsParams => 400
      case ConversationsFailed(_) => 500
      case ConversationsFound(_, _, _, _) => 200
    }
  }

  /** `GET /conversations`: both query parameters must be truthy; a failed
      Graph API call answers 500 with its details. */
  method Conversations(accessToken: JsValue, pageId: JsValue, listed: Result<seq<Conversation>, JsValue>)
    returns (r: ConversationsResponse)
    ensures !Truthy(accessToken) || !Truthy(pageId) <==> r.MissingConversationsParams?
    ensures r.ConversationsFailed? <==> Truthy(accessToken) && Truthy(pageId) && listed.Err?
    ensures r.ConversationsFailed? ==> r.details == listed.error
    ensures r.ConversationsFound? ==>
      listed.Ok? && r.pageId == pageId && r.psids == Extracted(listed.value, pageId)
      && r.totalConversations == |listed.value| && r.totalPsids == |r.psids|
  {
    if !Truthy(accessToken) || !Truthy(pageId) {
      return MissingConversationsParams;
    }
    if listed.Err? {
      return ConversationsFailed(listed.error);
    }
    var conversations := listed.value;
    var psids := ExtractPsids(conversations, pageId);
    r := ConversationsFound(pageId, psids, |conversations|, |psids|);
  }

  /** The responses of `GET /user-info`. */
  datatype UserInfoResponse =
    | MissingUserInfoParams
    | UserInfoFailed(details: JsValue)
    | UserInfoFound(psid: JsValue, userInfo: JsValue)
  {
    function Status(): int {
      match this
      case MissingUserInfoParams => 400
      case UserInfoFailed(_) => 500
      case UserInfoFound(_, _) => 200
    }
  }

  /** `GET /user-info`: both query parameters must be truthy; the Graph API
      answer is passed through. */
  function UserInfo(accessToken: JsValue, psid: JsValue, fetched: Result<JsValue, JsValue>): (r: UserInfoResponse)
    ensures r.Status() == 400 <==> !Truthy(accessToken) || !Truthy(psid)
    ensures r.Status() == 500 <==> Truthy(accessToken) && Truthy(psid) && fetched.Err?
    ensures r.UserInfoFound? ==> r.psid == psid && fetched.Ok? && r.userInfo == fetched.value
  {
    if !Truthy(accessToken) || !Truthy(psid) then MissingUserInfoParams
    else if fetched.Err? then UserInfoFailed(fetched.error)
    else UserInfoFound(psid, fetched.value)
  }

  // Properties of the extraction.

  /** A row of `ps` exists exactly for each participant other than the page. */
  lemma {:induction false} ParticipantRowsMembership(c: Conversation, ps: seq<Participant>, pageId: JsValue, e: PsidEntry)
    ensures e in ParticipantRows(c, ps, pageId) <==>
      (exists j :: 0 <= j < |ps| && ps[j].id != pageId && e == Row(c, ps[j]))
    decreases |ps|
  {
    if ps != [] {
      var init := ps[..|ps| - 1];
      ParticipantRowsMembership(c, init, pageId, e);
      if exists j :: 0 <= j < |init| && init[j].id != pageId && e == Row(c, init[j]) {
        var j :| 0 <= j < |init| && init[j].id != pageId && e == Row(c, init[j]);
        assert ps[j] == init[j];
      }
      if exists j :: 0 <= j < |ps| && ps[j].id != pageId && e == Row(c, ps[j]) {
        var j :| 0 <= j < |ps| && ps[j].id != pageId && e == Row(c, ps[j]);
        if j < |init| {
          assert init[j] == ps[j];
        }
      }
    }
  }

  /** A row is extracted exactly when some conversation yields it. */
  lemma {:induction false} ExtractedMembership(conversations: seq<Conversation>, pageId: JsValue, e: PsidEntry)
    ensures e in Extracted(conversations, pageId) <==>
      (exists i :: 0 <= i < |conversations| && e in ConversationRows(conversations[i], pageId))
    decreases |conversations|
  {
    if conversations != [] {
      ExtractedMembership(conversations[..|conversations| - 1], pageId, e);
      ExtractedMembershipStep(conversations, pageId, e);
    }
  }

  lemma ExtractedMembershipStep(conversations: seq<Conversation>, pageId: JsValue, e: PsidEntry)
    requires conversations != []
    requires var init := conversations[..|conversations| - 1];
      e in Extracted(init, pageId) <==> (exists i :: 0 <= i < |init| && e in ConversationRows(init[i], pageId))
    ensures e in Extracted(conversations, pageId) <==>
      (exists i :: 0 <= i < |conversations| && e in ConversationRows(conversations[i], pageId))
  {
    var init := conversations[..|conversations| - 1];
    var last := ConversationRows(conversations[|conversations| - 1], pageId);
    assert Extracted(conversations, pageId) == Extracted(init, pageId) + last;
    if exists i :: 0 <= i < |init| && e in ConversationRows(init[i], pageId) {
      var i :| 0 <= i < |init| && e in ConversationRows(init[i], pageId);
      assert conversations[i] == init[i];
    }
    if exists i :: 0 <= i < |conversations| && e in ConversationRows(conversations[i], pageId) {
      var i :| 0 <= i < |conversations| && e in ConversationRows(conversations[i], pageId);
      if i < |init| {
        assert init[i] == conversations[i];
      }
    }
  }

  /** Every extracted row names a participant other than the page, and the
      row has the defaults filled in. */
  lemma PageNeverListed(conversations: seq<Conversation>, pageId: JsValue, e: PsidEntry)
    requires e in Extracted(conversations, pageId)
    ensures e.psid != pageId && Truthy(e.name)
    ensures Truthy(e.messageCount) || e.messageCount == Num(0)
  {
    ExtractedMembership(conversations, pageId, e);
    var i :| 0 <= i < |conversations| && e in ConversationRows(conversations[i], pageId);
    var c := conversations[i];
    ParticipantRowsMembership(c, c.participants.value, pageId, e);
  }

  lemma ExtractedSnoc(s: seq<Conversation>, c: Conversation, pageId: JsValue)
    ensures Extracted(s + [c], pageId) == Extracted(s, pageId) + ConversationRows(c, pageId)
  {
    assert (s + [c])[..|s|] == s;
  }

  /** Conversations are processed in order: extraction distributes over
      concatenation. */
  lemma {:induction false} ExtractedAppend(a: seq<Conversation>, b: seq<Conversation>, pageId: JsValue)
    ensures Extracted(a + b, pageId) == Extracted(a, pageId) + Extracted(b, pageId)
    decreases |b|
  {
    if b == [] {
      assert a + b == a;
    } else {
      var init := b[..|b| - 1];
      SplitLast(b);
      ExtractedAppend(a, init, pageId);
      ExtractedAppendStep(a, init, b[|b| - 1], pageId);
    }
  }

  lemma SplitLast<T>(b: seq<T>)
    requires b != []
    ensures b == b[..|b| - 1] + [b[|b| - 1]]
  {
  }

  lemma ConcatSnoc<T>(a: seq<T>, init: seq<T>, last: T)
    ensures a + (init + [last]) == (a + init) + [last]
  {
  }

  lemma ExtractedAppendStep(a: seq<Conversation>, init: seq<Conversation>, last: Conversation, pageId: JsValue)
    requires Extracted(a + init, pageId) == Extracted(a, pageId) + Extracted(init, pageId)
    ensures Extracted(a + (init + [last]), pageId) == Extracted(a, pageId) + Extracted(init + [last], pageId)
  {
    ConcatSnoc(a, init, last);
    ExtractedSnoc(a + init, last, pageId);
    ExtractedSnoc(init, last, pageId);
  }

  function ParticipantCount(conversations: seq<Conversation>): nat
    decreases |conversations|
  {
    if conversations == [] then 0
    else
      var c := conversations[|conversations| - 1];
      ParticipantCount(conversations[..|conversations| - 1])
        + (if c.participants.None? then 0 else |c.participants.value|)
  }

  lemma {:induction false} ParticipantRowsAtMost(c: Conversation, ps: seq<Participant>, pageId: JsValue)
    ensures |ParticipantRows(c, ps, pageId)| <= |ps|
    decreases |ps|
  {
    if ps != [] {
      ParticipantRowsAtMost(c, ps[..|ps| - 1], pageId);
    }
  }

  /** `total_psids` never exceeds the number of listed participants. */
  lemma {:induction false} TotalPsidsAtMostParticipants(conversations: seq<Conversation>, pageId: JsValue)
    ensures |Extracted(conversations, pageId)| <= ParticipantCount(conversations)
    decreases |conversations|
  {
    if conversations != [] {
      var c := conversations[|conversations| - 1];
      TotalPsidsAtMostParticipants(conversations[..|conversations| - 1], pageId);
      if c.participants.Some? {
        ParticipantRowsAtMost(c, c.participants.value, pageId);
      }
    }
  }
}

=== FILE: psid_table.dfy ===
/** The captured-PSID table of routes/psid-helper.js: `addCapturedPSID`
    (an upsert keyed on the pair psid/page id, capped at 50 entries) and the
    `/psid/captured` endpoint, which sorts the shared table in place. Times
    are milliseconds since the epoch, passed in as `now`. */
module PsidTable {
  import opened Wrappers
  import opened JsValues

  /** The table keeps at most this many entries. */
  const MaxCaptured: nat := 50

  datatype CapturedPsid = CapturedPsid(
    psid: string,
    pageId: string,
    firstSeen: int,
    lastSeen: int,
    messageCount: int,
    lastMessage: Option<string>)

  /** `if (message)` for a message that is a string or null. */
  predicate MessageTruthy(message: Option<string>) {
    message.Some? && message.value != ""
  }

  predicate SamePair(e: CapturedPsid, psid: string, pageId: string) {
    e.psid == psid && e.pageId == pageId
  }

  ghost predicate PairsUnique(entries: seq<CapturedPsid>) {
    forall i, j :: 0 <= i < j < |entries| ==>
      !(entries[i].psid == entries[j].psid && entries[i].pageId == entries[j].pageId)
  }

  /** `entries.findIndex(p => p.psid === psid && p.page_id === pageId)` */
  function FindPair(entries: seq<CapturedPsid>, psid: string, pageId: string): (r: int)
    ensures -1 <= r < |entries|
    ensures r >= 0 ==> SamePair(entries[r], psid, pageId)
    ensures forall j :: 0 <= j < |entries| && (r < 0 || j < r) ==> !SamePair(entries[j], psid, pageId)
  {
    if entries == [] then -1
    else if SamePair(entries[0], psid, pageId) then 0
    else
      var k := FindPair(entries[1..], psid, pageId);
      if k < 0 then -1 else k + 1
  }

  /** An existing entry seen again: `last_seen` and `message_count` move,
      `last_message` only for a truthy message. */
  function Bumped(e: CapturedPsid, message: Option<string>, now: int): (r: CapturedPsid)
    ensures r.psid == e.psid && r.pageId == e.pageId && r.firstSeen == e.firstSeen
    ensures r.lastSeen == now && r.messageCount == e.messageCount + 1
    ensures r.lastMessage == (if MessageTruthy(message) then message else e.lastMessage)
  {
    e.(lastSeen := now,
       messageCount := e.messageCount + 1,
       lastMessage := if MessageTruthy(message) then message else e.lastMessage)
  }

  /** A pair seen for the first time. */
  function FirstSighting(psid: string, pageId: string, message: Option<string>, now: int): (r: CapturedPsid)
    ensures SamePair(r, psid, pageId)
    ensures r.firstSeen == r.lastSeen == now && r.messageCount == 1 && r.lastMessage == message
  {
    CapturedPsid(psid, pageId, now, now, 1, message)
  }

  /** The table after `addCapturedPSID(psid, pageId, message)` at time `now`. */
  function Upserted(entries: seq<CapturedPsid>, psid: string, pageId: string, message: Option<string>, now: int): (r: seq<CapturedPsid>)
    ensures 0 < |r| <= MaxCaptured
    ensures FindPair(entries, psid, pageId) < 0 ==> r[|r| - 1] == FirstSighting(psid, pageId, message, now)
    ensures FindPair(entries, psid, pageId) >= 0 && |entries| <= MaxCaptured ==> |r| == |entries|
  {
    var i := FindPair(entries, psid, pageId);
    KeepLast(if i >= 0 then entries[i := Bumped(entries[i], message, now)]
             else entries + [FirstSighting(psid, pageId, message, now)], MaxCaptured)
  }

  /** A pair already in the table is updated where it stands: its count goes
      up by one, `first_seen` is kept, `last_message` changes only for a
      truthy message, and no entry moves or is dropped. */
  lemma UpsertExistingInPlace(entries: seq<CapturedPsid>, psid: string, pageId: string, message: Option<string>, now: int, i: nat)
    requires |entries| <= MaxCaptured
    requires i < |entries| && SamePair(entries[i], psid, pageId)
    ensures var r := Upserted(entries, psid, pageId, message, now);
      var k := FindPair(entries, psid, pageId);
      && 0 <= k <= i
      && |r| == |entries|
      && (forall j :: 0 <= j < |r| && j != k ==> r[j] == entries[j])
      && r[k].psid == psid && r[k].pageId == pageId
      && r[k].messageCount == entries[k].messageCount + 1
      && r[k].firstSeen == entries[k].firstSeen
      && r[k].lastSeen == now
      && r[k].lastMessage == (if MessageTruthy(message) then message else entries[k].lastMessage)
  {
  }

  /** A new pair is appended last with a count of one and `first_seen ==
      last_seen`; on overflow the entry at the front is dropped. */
  lemma UpsertNewAppends(entries: seq<CapturedPsid>, psid: string, pageId: string, message: Option<string>, now: int)
    requires forall j :: 0 <= j < |entries| ==> !SamePair(entries[j], psid, pageId)
    ensures var r := Upserted(entries, psid, pageId, message, now);
      && 0 < |r| <= MaxCaptured
      && r[|r| - 1] == CapturedPsid(psid, pageId, now, now, 1, message)
      && (|entries| < MaxCaptured ==> r == entries + [r[|r| - 1]])
      && (|entries| == MaxCaptured ==> r == entries[1..] + [r[|r| - 1]])
  {
    var f := FirstSighting(psid, pageId, message, now);
    if |entries| == MaxCaptured {
      assert (entries + [f])[1..] == entries[1..] + [f];
    }
  }

  /** Pairs stay unique, and afterwards exactly one entry carries the pair. */
  lemma UpsertKeepsPairsUnique(entries: seq<CapturedPsid>, psid: string, pageId: string, message: Option<string>, now: int)
    requires |entries| <= MaxCaptured && PairsUnique(entries)
    ensures var r := Upserted(entries, psid, pageId, message, now);
      && PairsUnique(r)
      && exists k :: 0 <= k < |r| && SamePair(r[k], psid, pageId)
                     && forall j :: 0 <= j < |r| && j != k ==> !SamePair(r[j], psid, pageId)
  {
    var i := FindPair(entries, psid, pageId);
    if i >= 0 {
      UpsertExistingKeepsPairsUnique(entries, psid, pageId, message, now, i);
    } else {
      UpsertNewKeepsPairsUnique(entries, psid, pageId, message, now);
    }
  }

  lemma UpsertExistingKeepsPairsUnique(entries: seq<CapturedPsid>, psid: string, pageId: string, message: Option<string>,
                                       now: int, i: int)
    requires |entries| <= MaxCaptured && PairsUnique(entries)
    requires i == FindPair(entries, psid, pageId) && i >= 0
    ensures var r := Upserted(entries, psid, pageId, message, now);
      && PairsUnique(r)
      && SamePair(r[i], psid, pageId)
      && forall j :: 0 <= j < |r| && j != i ==> !SamePair(r[j], psid, pageId)
  {
    var r := Upserted(entries, psid, pageId, message, now);
    assert r == entries[i := Bumped(entries[i], message, now)];
    forall j | 0 <= j < |r| && j != i ensures !SamePair(r[j], psid, pageId) {
      assert r[j] == entries[j];
      if j < i {
        assert !SamePair(entries[j], psid, pageId);
      } else {
        assert !(entries[i].psid == entries[j].psid && entries[i].pageId == entries[j].pageId);
      }
    }
    forall a, b | 0 <= a < b < |r|
      ensures !(r[a].psid == r[b].psid && r[a].pageId == r[b].pageId)
    {
      assert r[a].psid == entries[a].psid && r[a].pageId == entries[a].pageId;
      assert r[b].psid == entries[b].psid && r[b].pageId == entries[b].pageId;
    }
  }

  lemma UpsertNewKeepsPairsUnique(entries: seq<CapturedPsid>, psid: string, pageId: string, message: Option<string>, now: int)
    requires |entries| <= MaxCaptured && PairsUnique(entries)
    requires FindPair(entries, psid, pageId) < 0
    ensures var r := Upserted(entries, psid, pageId, message, now);
      && PairsUnique(r) && r != []
      && SamePair(r[|r| - 1], psid, pageId)
      && forall j :: 0 <= j < |r| - 1 ==> !SamePair(r[j], psid, pageId)
  {
    var r := Upserted(entries, psid, pageId, message, now);
    var w := entries + [FirstSighting(psid, pageId, message, now)];
    assert r == KeepLast(w, MaxCaptured);
    var d := |w| - |r|;
    assert r == w[d..];
    assert PairsUnique(w) by {
      forall a, b | 0 <= a < b < |w|
        ensures !(w[a].psid == w[b].psid && w[a].pageId == w[b].pageId)
      {
        if b == |w| - 1 {
          assert !SamePair(entries[a], psid, pageId);
        }
      }
    }
    forall a, b | 0 <= a < b < |r|
      ensures !(r[a].psid == r[b].psid && r[a].pageId == r[b].pageId)
    {
      assert r[a] == w[a + d] && r[b] == w[b + d];
    }
    forall j | 0 <= j < |r| - 1 ensures !SamePair(r[j], psid, pageId) {
      assert r[j] == w[j + d];
    }
    assert r[|r| - 1] == w[|w| - 1];
  }

  ghost predicate NewestFirst(entries: seq<CapturedPsid>) {
    forall i, j :: 0 <= i < j < |entries| ==> entries[i].lastSeen >= entries[j].lastSeen
  }

  ghost predicate AdjacentNewestFirst(entries: seq<CapturedPsid>) {
    forall i :: 0 < i < |entries| ==> entries[i - 1].lastSeen >= entries[i].lastSeen
  }

  lemma {:induction false} AdjacentIsNewestFirst(entries: seq<CapturedPsid>)
    requires AdjacentNewestFirst(entries)
    ensures NewestFirst(entries)
  {
    if |entries| > 1 {
      AdjacentIsNewestFirst(entries[1..]);
      forall j | 0 < j < |entries| ensures entries[0].lastSeen >= entries[j].lastSeen {
        assert entries[1..][0].lastSeen >= entries[1..][j - 1].lastSeen || j == 1;
      }
    }
  }

  /** Stable insertion of `x` in front of the first entry that is not newer. */
  function InsertNewestFirst(x: CapturedPsid, sorted: seq<CapturedPsid>): (r: seq<CapturedPsid>)
    ensures |r| == |sorted| + 1
    ensures multiset(r) == multiset(sorted) + multiset{x}
    ensures r[0] == x || (sorted != [] && r[0] == sorted[0])
  {
    if sorted == [] || sorted[0].lastSeen <= x.lastSeen then [x] + sorted
    else
      assert sorted == [sorted[0]] + sorted[1..];
      [sorted[0]] + InsertNewestFirst(x, sorted[1..])
  }

  /** Inserting into a newest-first table keeps it newest first. */
  lemma {:induction false} InsertKeepsNewestFirst(x: CapturedPsid, sorted: seq<CapturedPsid>)
    requires AdjacentNewestFirst(sorted)
    ensures AdjacentNewestFirst(InsertNewestFirst(x, sorted))
  {
    var r := InsertNewestFirst(x, sorted);
    if sorted == [] || sorted[0].lastSeen <= x.lastSeen {
      assert r == [x] + sorted;
      forall i | 0 < i < |r| ensures r[i - 1].lastSeen >= r[i].lastSeen {
        if i > 1 {
          assert r[i - 1] == sorted[i - 2] && r[i] == sorted[i - 1];
        }
      }
    } else {
      var tail := sorted[1..];
      forall i | 0 < i < |tail| ensures tail[i - 1].lastSeen >= tail[i].lastSeen {
        assert tail[i - 1] == sorted[i] && tail[i] == sorted[i + 1];
      }
      InsertKeepsNewestFirst(x, tail);
      var t := InsertNewestFirst(x, tail);
      assert r == [sorted[0]] + t;
      forall i | 0 < i < |r| ensures r[i - 1].lastSeen >= r[i].lastSeen {
        if i > 1 {
          assert r[i - 1] == t[i - 2] && r[i] == t[i - 1];
        } else if t[0] != x {
          assert t[0] == tail[0] == sorted[1];
        }
      }
    }
  }

  /** `entries.sort((a, b) => new Date(b.last_seen) - new Date(a.last_seen))`:
      newest first, by insertion. Entries with equal `last_seen` keep their
      table order, as the engine's stable sort keeps them; the contract states
      the order and the permutation, not this stability. */
  function SortNewestFirst(entries: seq<CapturedPsid>): (r: seq<CapturedPsid>)
    ensures |r| == |entries|
    ensures multiset(r) == multiset(entries)
    ensures AdjacentNewestFirst(r)
  {
    if entries == [] then []
    else
      assert entries == [entries[0]] + entries[1..];
      var rest := SortNewestFirst(entries[1..]);
      InsertKeepsNewestFirst(entries[0], rest);
      InsertNewestFirst(entries[0], rest)
  }

  /** The sorted table is a permutation of the table, newest first. */
  lemma SortIsNewestFirstPermutation(entries: seq<CapturedPsid>)
    ensures var r := SortNewestFirst(entries);
      multiset(r) == multiset(entries) && NewestFirst(r)
  {
    AdjacentIsNewestFirst(SortNewestFirst(entries));
  }

  /** Two tables holding the same entries have the same pairs. */
  lemma {:induction false} PairsUniqueUnderPermutation(a: seq<CapturedPsid>, b: seq<CapturedPsid>)
    requires multiset(a) == multiset(b) && PairsUnique(a)
    ensures PairsUnique(b)
  {
    forall i, j | 0 <= i < j < |b|
      ensures !(b[i].psid == b[j].psid && b[i].pageId == b[j].pageId)
    {
      if b[i].psid == b[j].psid && b[i].pageId == b[j].pageId {
        assert b[i] in multiset(a) && b[j] in multiset(a);
        var p :| 0 <= p < |a| && a[p] == b[i];
        var q :| 0 <= q < |a| && a[q] == b[j];
        if p == q {
          assert b[i] == b[j];
          assert multiset(b)[b[i]] >= 2 by {
            var bi := b[i];
            assert b == b[..i] + [bi] + b[i+1..j] + [bi] + b[j+1..];
          }
          SingleOccurrence(a, p);
        }
      }
    }
  }

  /** In a table with unique pairs every entry occurs once. */
  lemma SingleOccurrence(a: seq<CapturedPsid>, p: nat)
    requires PairsUnique(a) && p < |a|
    ensures multiset(a)[a[p]] == 1
  {
    var x := a[p];
    assert a == a[..p] + [x] + a[p+1..];
    assert x !in a[..p] && x !in a[p+1..];
    assert multiset(a[..p])[x] == 0 && multiset(a[p+1..])[x] == 0;
  }

  /** `/psid/captured` reorders the store newest first; when the table is
      full, the next new pair therefore evicts the entry seen most recently. */
  lemma SortThenEvictDropsNewest(entries: seq<CapturedPsid>, psid: string, pageId: string, message: Option<string>, now: int)
    requires |entries| == MaxCaptured
    requires forall j :: 0 <= j < |entries| ==> !SamePair(entries[j], psid, pageId)
    ensures var s := SortNewestFirst(entries);
      && (forall j :: 0 <= j < |entries| ==> s[0].lastSeen >= entries[j].lastSeen)
      && Upserted(s, psid, pageId, message, now) == s[1..] + [FirstSighting(psid, pageId, message, now)]
  {
    var s := SortNewestFirst(entries);
    SortIsNewestFirstPermutation(entries);
    forall j | 0 <= j < |entries| ensures s[0].lastSeen >= entries[j].lastSeen {
      assert entries[j] in multiset(s);
      var k :| 0 <= k < |s| && s[k] == entries[j];
    }
    forall j | 0 <= j < |s| ensures !SamePair(s[j], psid, pageId) {
      assert s[j] in multiset(entries);
    }
    UpsertNewAppends(s, psid, pageId, message, now);
  }

  datatype CapturedResponse = CapturedResponse(count: nat, psids: seq<CapturedPsid>)

  /** The module-level `capturedPSIDs` array, as an object. */
  class CaptureTable {
    var entries: seq<CapturedPsid>

    ghost predicate Valid()
      reads this
    {
      |entries| <= MaxCaptured && PairsUnique(entries)
    }

    constructor()
      ensures entries == [] && Valid()
    {
      entries := [];
    }

    /** `addCapturedPSID(psid, pageId, message)` at time `now`. */
    method AddCapturedPsid(psid: string, pageId: string, message: Option<string>, now: int)
      modifies this
      ensures entries == Upserted(old(entries), psid, pageId, message, now)
      ensures |entries| <= MaxCaptured
      ensures old(Valid()) ==> Valid()
    {
      if Valid() {
        UpsertKeepsPairsUnique(entries, psid, pageId, message, now);
      }
      var i := FindPair(entries, psid, pageId);
      if i >= 0 {
        entries := entries[i := Bumped(entries[i], message, now)];
      } else {
        entries := entries + [FirstSighting(psid, pageId, message, now)];
      }
      if |entries| > MaxCaptured {
        entries := entries[|entries| - MaxCaptured..];
      }
    }

    /** `GET /psid/captured`: sorts the shared table in place, newest first,
        and returns it with its length. */
    method Captured() returns (r: CapturedResponse)
      modifies this
      ensures entries == SortNewestFirst(old(entries))
      ensures multiset(entries) == multiset(old(entries)) && NewestFirst(entries)
      ensures r.count == |entries| && r.psids == entries
      ensures old(Valid()) ==> Valid()
    {
      var count := |entries|;
      SortIsNewestFirstPermutation(entries);
      if Valid() {
        PairsUniqueUnderPermutation(entries, SortNewestFirst(entries));
      }
      entries := SortNewestFirst(entries);
      r := CapturedResponse(count, entries);
    }
  }
}

=== FILE: token_debug.dfy ===
/** The token inspection of routes/token-debug.js: `GET /verify` gathers what
    the Graph API says about a token and adds recommendations on missing
    permissions, missing pages and pages without a token. The four Graph API
    calls are parameters: the debug call as a `Result`, the three optional
    ones as `Option`s (`None` when the call failed or returned no list). */
module TokenDebug {
  import opened Wrappers
  import opened JsValues

  const PagesMessaging := "pages_messaging"
  const PagesManageMetadata := "pages_manage_metadata"
  const Granted := "granted"

  const MissingPermissionsKind := "missing_permissions"
  const NoPagesKind := "no_pages"
  const MissingPageTokensKind := "missing_page_tokens"

  const MissingPermissionsPrefix := "Faltan permisos: "
  const MissingPermissionsAction := "Genera un nuevo token con estos permisos en Graph API Explorer"
  const NoPagesMessage := "No se encontraron páginas asociadas"
  const NoPagesAction := "Asegúrate de que tu cuenta tenga acceso a páginas de Facebook"
  const MissingPageTokensMessage := "Algunas páginas no tienen tokens de acceso"
  const MissingPageTokensAction := "Genera tokens de página específicos para enviar mensajes"
  const MissingTokenMessage := "Se requiere el parámetro access_token"

  datatype Recommendation = Recommendation(kind: string, message: string, action: string)

  /** `p.status === 'granted'` */
  predicate IsGranted(p: JsValue) {
    Prop(p, "status") == Str(Granted)
  }

  /** `permissions.filter(p => p.status === 'granted').map(p => p.permission)` */
  function GrantedPermissions(permissions: seq<JsValue>): (r: seq<JsValue>)
    ensures |r| <= |permissions|
    ensures (forall i :: 0 <= i < |permissions| ==> !IsGranted(permissions[i])) ==> r == []
  {
    if permissions == [] then []
    else
      (if IsGranted(permissions[0]) then [Prop(permissions[0], "permission")] else [])
      + GrantedPermissions(permissions[1..])
  }

  /** The required permissions, in their order, that `granted` does not include. */
  function MissingPermissions(granted: seq<JsValue>): (r: seq<string>)
    ensures |r| <= 2
    ensures PagesMessaging in r <==> Str(PagesMessaging) !in granted
    ensures PagesManageMetadata in r <==> Str(PagesManageMetadata) !in granted
    ensures forall i :: 0 <= i < |r| ==> r[i] == PagesMessaging || r[i] == PagesManageMetadata
    ensures |r| == 2 ==> r == [PagesMessaging, PagesManageMetadata]
  {
    (if Str(PagesMessaging) in granted then [] else [PagesMessaging])
    + (if Str(PagesManageMetadata) in granted then [] else [PagesManageMetadata])
  }

  /** Some page has no truthy `has_token`. */
  predicate SomePageLacksToken(pages: seq<JsValue>) {
    exists i :: 0 <= i < |pages| && !Truthy(Prop(pages[i], "has_token"))
  }

  predicate Has(r: seq<Recommendation>, kind: string) {
    exists i :: 0 <= i < |r| && r[i].kind == kind
  }

  /** Position of a kind in the fixed emission order. */
  function Rank(kind: string): int {
    if kind == MissingPermissionsKind then 0 else if kind == NoPagesKind then 1 else 2
  }

  /** `generateRecommendations(tokenInfo, permissions, pages)`; `tokenInfo`
      is not consulted. At most one recommendation of each kind, in the
      order missing permissions, no pages, pages without tokens. */
  function GenerateRecommendations(permissions: seq<JsValue>, pages: seq<JsValue>): (r: seq<Recommendation>)
    ensures |r| <= 3
    ensures forall i, j :: 0 <= i < j < |r| ==> Rank(r[i].kind) < Rank(r[j].kind)
  {
    var missing := MissingPermissions(GrantedPermissions(permissions));
    (if |missing| > 0
     then [Recommendation(MissingPermissionsKind, MissingPermissionsPrefix + JoinStrings(missing, ", "), MissingPermissionsAction)]
     else [])
    + (if |pages| == 0 then [Recommendation(NoPagesKind, NoPagesMessage, NoPagesAction)] else [])
    + (if SomePageLacksToken(pages)
       then [Recommendation(MissingPageTokensKind, MissingPageTokensMessage, MissingPageTokensAction)]
       else [])
  }

  /** A permission name is granted exactly when some permission entry with
      status `granted` carries it. */
  lemma {:induction false} GrantedPermissionsMembership(permissions: seq<JsValue>, name: JsValue)
    ensures name in GrantedPermissions(permissions) <==>
      (exists i :: 0 <= i < |permissions| && IsGranted(permissions[i]) && Prop(permissions[i], "permission") == name)
  {
    if permissions != [] {
      var rest := permissions[1..];
      GrantedPermissionsMembership(rest, name);
      if exists i :: 0 <= i < |rest| && IsGranted(rest[i]) && Prop(rest[i], "permission") == name {
        var i :| 0 <= i < |rest| && IsGranted(rest[i]) && Prop(rest[i], "permission") == name;
        assert permissions[i + 1] == rest[i];
      }
      if exists i :: 0 <= i < |permissions| && IsGranted(permissions[i]) && Prop(permissions[i], "permission") == name {
        var i :| 0 <= i < |permissions| && IsGranted(permissions[i]) && Prop(permissions[i], "permission") == name;
        if i > 0 {
          assert rest[i - 1] == permissions[i];
        }
      }
    }
  }

  /** A declined permission, or one with any status other than `granted`,
      counts as missing: with no granted entry both required permissions are
      reported. */
  lemma NothingGrantedMeansBothMissing(permissions: seq<JsValue>)
    requires forall i :: 0 <= i < |permissions| ==> !IsGranted(permissions[i])
    ensures MissingPermissions(GrantedPermissions(permissions)) == [PagesMessaging, PagesManageMetadata]
  {
    GrantedPermissionsMembership(permissions, Str(PagesMessaging));
    GrantedPermissionsMembership(permissions, Str(PagesManageMetadata));
  }

  lemma HasAppend(a: seq<Recommendation>, b: seq<Recommendation>, kind: string)
    ensures Has(a + b, kind) <==> Has(a, kind) || Has(b, kind)
  {
    if Has(a + b, kind) {
      var i :| 0 <= i < |a + b| && (a + b)[i].kind == kind;
      if i >= |a| {
        assert b[i - |a|] == (a + b)[i];
      }
    }
    if Has(a, kind) {
      var i :| 0 <= i < |a| && a[i].kind == kind;
      assert (a + b)[i] == a[i];
    }
    if Has(b, kind) {
      var i :| 0 <= i < |b| && b[i].kind == kind;
      assert (a + b)[|a| + i] == b[i];
    }
  }

  /** When each kind is emitted. */
  lemma RecommendationRules(permissions: seq<JsValue>, pages: seq<JsValue>)
    ensures var r := GenerateRecommendations(permissions, pages);
      && (Has(r, MissingPermissionsKind) <==> MissingPermissions(GrantedPermissions(permissions)) != [])
      && (Has(r, NoPagesKind) <==> pages == [])
      && (Has(r, MissingPageTokensKind) <==> SomePageLacksToken(pages))
      && !(Has(r, NoPagesKind) && Has(r, MissingPageTokensKind))
  {
    var missing := MissingPermissions(GrantedPermissions(permissions));
    var a := if |missing| > 0
      then [Recommendation(MissingPermissionsKind, MissingPermissionsPrefix + JoinStrings(missing, ", "), MissingPermissionsAction)]
      else [];
    var b := if |pages| == 0 then [Recommendation(NoPagesKind, NoPagesMessage, NoPagesAction)] else [];
    var c := if SomePageLacksToken(pages)
      then [Recommendation(MissingPageTokensKind, MissingPageTokensMessage, MissingPageTokensAction)]
      else [];
    assert GenerateRecommendations(permissions, pages) == a + b + c;
    assert MissingPermissionsKind[0] != NoPagesKind[0];
    assert MissingPermissionsKind[9] != MissingPageTokensKind[9];
    assert NoPagesKind[0] != MissingPageTokensKind[0];
    HasAppend(a + b, c, MissingPermissionsKind);
    HasAppend(a, b, MissingPermissionsKind);
    HasAppend(a + b, c, NoPagesKind);
    HasAppend(a, b, NoPagesKind);
    HasAppend(a + b, c, MissingPageTokensKind);
    HasAppend(a, b, MissingPageTokensKind);
    if Has(a, MissingPermissionsKind) {
      assert |missing| > 0;
    }
  }

  /** The missing-permissions recommendation comes first and names the
      missing permissions joined by ", ". */
  lemma MissingPermissionsMessage(permissions: seq<JsValue>, pages: seq<JsValue>)
    requires MissingPermissions(GrantedPermissions(permissions)) != []
    ensures var r := GenerateRecommendations(permissions, pages);
      r[0] == Recommendation(MissingPermissionsKind,
        MissingPermissionsPrefix + JoinStrings(MissingPermissions(GrantedPermissions(permissions)), ", "),
        MissingPermissionsAction)
  {
  }

  // The /verify response.

  /** `pages.map(page => ({ id, name, has_token: !!page.access_token, tasks: page.tasks || [] }))` */
  function PageSummary(page: JsValue): (r: JsValue)
    ensures r.Obj? && r.props.Keys == {"id", "name", "has_token", "tasks"}
    ensures r.props["has_token"] == Bool(Truthy(Prop(page, "access_token")))
    ensures Truthy(r.props["tasks"]) && (Truthy(Prop(page, "tasks")) ==> r.props["tasks"] == Prop(page, "tasks"))
    ensures r.props["id"] == Prop(page, "id") && r.props["name"] == Prop(page, "name")
  {
    Obj(map[
      "id" := Prop(page, "id"),
      "name" := Prop(page, "name"),
      "has_token" := Bool(Truthy(Prop(page, "access_token"))),
      "tasks" := Or(Prop(page, "tasks"), Arr([]))])
  }

  function PageSummaries(pages: seq<JsValue>): (r: seq<JsValue>)
    ensures |r| == |pages|
    ensures forall i :: 0 <= i < |pages| ==> r[i] == PageSummary(pages[i])
  {
    seq(|pages|, i requires 0 <= i < |pages| => PageSummary(pages[i]))
  }

  /** The `token_info` object: six fields of the debug answer, `scopes`
      defaulting to an empty list. */
  function TokenInfoSummary(tokenInfo: JsValue): (r: map<string, JsValue>)
    ensures r.Keys == {"app_id", "type", "application", "expires_at", "is_valid", "scopes"}
    ensures Truthy(r["scopes"]) && (Truthy(Prop(tokenInfo, "scopes")) ==> r["scopes"] == Prop(tokenInfo, "scopes"))
    ensures r["is_valid"] == Prop(tokenInfo, "is_valid") && r["expires_at"] == Prop(tokenInfo, "expires_at")
    ensures r["app_id"] == Prop(tokenInfo, "app_id") && r["type"] == Prop(tokenInfo, "type")
    ensures r["application"] == Prop(tokenInfo, "application")
  {
    map[
      "app_id" := Prop(tokenInfo, "app_id"),
      "type" := Prop(tokenInfo, "type"),
      "application" := Prop(tokenInfo, "application"),
      "expires_at" := Prop(tokenInfo, "expires_at"),
      "is_valid" := Prop(tokenInfo, "is_valid"),
      "scopes" := Or(Prop(tokenInfo, "scopes"), Arr([]))]
  }

  datatype VerifyResponse =
    | MissingAccessToken
    | VerifyFailed(details: JsValue)
    | Verified(
        tokenInfo: map<string, JsValue>,
        userInfo: JsValue,
        permissions: seq<JsValue>,
        pages: seq<JsValue>,
        recommendations: seq<Recommendation>)
  {
    function Status(): int {
      match this
      case MissingAccessToken => 400
      case VerifyFailed(_) => 500
      case Verified(_, _, _, _, _) => 200
    }
  }

  /** `GET /verify` with the answers of the four Graph API calls; the
      recommendations are computed from `recommendationPages`. Reading a
      field of a null or undefined debug answer throws, which lands in the
      500 branch; the message of that TypeError is not modelled. */
  function VerifyFrom(
    accessToken: Option<string>,
    debugged: Result<JsValue, JsValue>,
    permissions: Option<seq<JsValue>>,
    userInfo: Option<JsValue>,
    pages: Option<seq<JsValue>>,
    recommendPerMappedPage: bool): (r: VerifyResponse)
    ensures r.Status() == 400 <==> accessToken.None? || accessToken.value == ""
    ensures r.VerifyFailed? ==> (debugged.Err? && r.details == debugged.error) || (debugged.Ok? && Nullish(debugged.value))
    ensures r.Verified? ==>
      && debugged.Ok? && r.permissions == permissions.GetOr([]) && r.pages == PageSummaries(pages.GetOr([]))
      && r.recommendations
         == GenerateRecommendations(r.permissions, if recommendPerMappedPage then r.pages else pages.GetOr([]))
  {
    if accessToken.None? || accessToken.value == "" then MissingAccessToken
    else if debugged.Err? then VerifyFailed(debugged.error)
    else if Nullish(debugged.value) then VerifyFailed(Undefined)
    else
      var perms := permissions.GetOr([]);
      var raw := pages.GetOr([]);
      var summaries := PageSummaries(raw);
      Verified(
        TokenInfoSummary(debugged.value),
        userInfo.GetOr(Obj(map[])),
        perms,
        summaries,
        GenerateRecommendations(perms, if recommendPerMappedPage then summaries else raw))
  }

  /** `GET /verify` as written: the recommendations see the pages as the
      Graph API returned them. */
  function Verify(
    accessToken: Option<string>,
    debugged: Result<JsValue, JsValue>,
    permissions: Option<seq<JsValue>>,
    userInfo: Option<JsValue>,
    pages: Option<seq<JsValue>>): (r: VerifyResponse)
    ensures r.Status() == 400 <==> accessToken.None? || accessToken.value == ""
    ensures r.Status() == 500 <==>
      !(accessToken.None? || accessToken.value == "") && (debugged.Err? || Nullish(debugged.value))
    ensures r.Verified? ==> debugged.Ok? && r.tokenInfo == TokenInfoSummary(debugged.value)
    ensures r.Verified? ==> r.pages == PageSummaries(pages.GetOr([]))
    ensures r.Verified? ==> r.permissions == permissions.GetOr([]) && r.userInfo == userInfo.GetOr(Obj(map[]))
    ensures r.Verified? ==> r.recommendations == GenerateRecommendations(r.permissions, pages.GetOr([]))
    ensures r.VerifyFailed? && debugged.Err? ==> r.details == debugged.error
  {
    VerifyFrom(accessToken, debugged, permissions, userInfo, pages, false)
  }

  /** `GET /verify` as evidently intended: the `has_token` test runs on the
      page summaries, which carry that field. */
  function VerifyIntended(
    accessToken: Option<string>,
    debugged: Result<JsValue, JsValue>,
    permissions: Option<seq<JsValue>>,
    userInfo: Option<JsValue>,
    pages: Option<seq<JsValue>>): (r: VerifyResponse)
    ensures r.Status() == 400 <==> accessToken.None? || accessToken.value == ""
    ensures r.Status() == 500 <==>
      !(accessToken.None? || accessToken.value == "") && (debugged.Err? || Nullish(debugged.value))
    ensures r.Verified? ==> debugged.Ok? && r.tokenInfo == TokenInfoSummary(debugged.value)
    ensures r.Verified? ==> r.pages == PageSummaries(pages.GetOr([]))
    ensures r.Verified? ==> r.permissions == permissions.GetOr([]) && r.userInfo == userInfo.GetOr(Obj(map[]))
    ensures r.Verified? ==> r.recommendations == GenerateRecommendations(r.permissions, r.pages)
    ensures r.VerifyFailed? && debugged.Err? ==> r.details == debugged.error
  {
    VerifyFrom(accessToken, debugged, permissions, userInfo, pages, true)
  }

  /** A page as the Graph API lists it (`fields: id,name,access_token,tasks`)
      has no `has_token` property. */
  predicate RawGraphPage(page: JsValue) {
    page.Obj? && "has_token" !in page.props
  }

  /** As written, every non-empty list of Graph API pages draws the
      missing-page-tokens recommendation, even when each page has a token. */
  lemma RawPagesAlwaysLackTokens(accessToken: string, tokenInfo: JsValue, pages: seq<JsValue>)
    requires accessToken != "" && !Nullish(tokenInfo)
    requires pages != [] && forall i :: 0 <= i < |pages| ==> RawGraphPage(pages[i])
    ensures var r := Verify(Some(accessToken), Ok(tokenInfo), None, None, Some(pages));
      r.Verified? && Has(r.recommendations, MissingPageTokensKind)
  {
    assert !Truthy(Prop(pages[0], "has_token"));
    RecommendationRules([], pages);
  }

  /** The concrete input: one page that does have an access token. */
  lemma RawPageWithTokenFlagged()
    ensures var page := Obj(map["id" := Str("1"), "access_token" := Str("EAAB")]);
      var r := Verify(Some("EAAB"), Ok(Obj(map[])), None, None, Some([page]));
      r.Verified? && Truthy(Prop(page, "access_token"))
      && Has(r.recommendations, MissingPageTokensKind)
  {
    var page := Obj(map["id" := Str("1"), "access_token" := Str("EAAB")]);
    RawPagesAlwaysLackTokens("EAAB", Obj(map[]), [page]);
  }

  /** As intended, pages without tokens are reported exactly when some
      listed page has no truthy access token. */
  lemma IntendedFlagsPagesWithoutToken(accessToken: string, tokenInfo: JsValue, pages: seq<JsValue>)
    requires accessToken != "" && !Nullish(tokenInfo)
    ensures var r := VerifyIntended(Some(accessToken), Ok(tokenInfo), None, None, Some(pages));
      r.Verified?
      && (Has(r.recommendations, MissingPageTokensKind) <==>
          exists i :: 0 <= i < |pages| && !Truthy(Prop(pages[i], "access_token")))
  {
    var summaries := PageSummaries(pages);
    RecommendationRules([], summaries);
    if SomePageLacksToken(summaries) {
      var i :| 0 <= i < |summaries| && !Truthy(Prop(summaries[i], "has_token"));
      assert !Truthy(Prop(pages[i], "access_token"));
    }
    if exists i :: 0 <= i < |pages| && !Truthy(Prop(pages[i], "access_token")) {
      var i :| 0 <= i < |pages| && !Truthy(Prop(pages[i], "access_token"));
      assert !Truthy(Prop(summaries[i], "has_token"));
    }
  }
}

=== FILE: token_store.dfy ===
/** The in-memory access-token store of routes/token-helper.js: `storeToken`
    and the `/token/list` and `/token/get` endpoints. Times are milliseconds
    since the epoch, passed in as `now`. */
module TokenStore {
  import opened Wrappers
  import opened JsValues

  /** The store keeps at most this many records. */
  const MaxTokens: nat := 10

  /** Characters of the token shown by `/list` before the `'...'`. */
  const PreviewLength: nat := 20

  datatype TokenRecord = TokenRecord(
    token: string,
    source: string,
    pageId: Option<string>,
    createdAt: int,
    expiresIn: Option<int>,
    expiresAt: Option<int>)

  /** `expires_at`: `expiresIn ? now + expiresIn * 1000 : null`. */
  function ExpiryOf(now: int, expiresIn: Option<int>): (r: Option<int>)
    ensures r.Some? <==> expiresIn.Some? && expiresIn.value != 0
    ensures r.Some? ==> r.value - now == expiresIn.value * 1000
  {
    if expiresIn.Some? && expiresIn.value != 0 then Some(now + expiresIn.value * 1000) else None
  }

  /** The record `storeToken(token, source, pageId, expiresIn)` builds at time `now`. */
  function NewRecord(token: string, source: string, pageId: Option<string>, expiresIn: Option<int>, now: int): (r: TokenRecord)
    ensures r.token == token && r.source == source && r.pageId == pageId
    ensures r.createdAt == now && r.expiresIn == expiresIn
    ensures r.expiresAt.Some? <==> expiresIn.Some? && expiresIn.value != 0
  {
    TokenRecord(token, source, pageId, now, expiresIn, ExpiryOf(now, expiresIn))
  }

  /** `records.filter(t => t.source !== source)` */
  function WithoutSource(records: seq<TokenRecord>, source: string): (r: seq<TokenRecord>)
    ensures |r| <= |records|
    ensures forall i :: 0 <= i < |r| ==> r[i].source != source
    ensures forall x :: x in r <==> x in records && x.source != source
  {
    if records == [] then []
    else if records[0].source == source then WithoutSource(records[1..], source)
    else [records[0]] + WithoutSource(records[1..], source)
  }

  /** The store after `storeToken` wrote `rec`. */
  function Stored(records: seq<TokenRecord>, rec: TokenRecord): (r: seq<TokenRecord>)
    ensures 0 < |r| <= MaxTokens && r[|r| - 1] == rec
    ensures forall x :: x in r ==> x == rec || (x in records && x.source != rec.source)
  {
    KeepLast(WithoutSource(records, rec.source) + [rec], MaxTokens)
  }

  ghost predicate SourcesUnique(records: seq<TokenRecord>) {
    forall i, j :: 0 <= i < j < |records| ==> records[i].source != records[j].source
  }

  /** The list of records survives in store order: filtering distributes over concatenation. */
  lemma {:induction false} WithoutSourceAppend(a: seq<TokenRecord>, b: seq<TokenRecord>, source: string)
    ensures WithoutSource(a + b, source) == WithoutSource(a, source) + WithoutSource(b, source)
  {
    if a == [] {
      assert a + b == b;
    } else {
      assert (a + b)[1..] == a[1..] + b;
      WithoutSourceAppend(a[1..], b, source);
    }
  }

  /** Filtering a list with no record of `source` changes nothing. */
  lemma {:induction false} WithoutAbsentSource(records: seq<TokenRecord>, source: string)
    requires forall i :: 0 <= i < |records| ==> records[i].source != source
    ensures WithoutSource(records, source) == records
  {
    if records != [] {
      WithoutAbsentSource(records[1..], source);
    }
  }

  /** Filtering keeps other sources distinct. */
  lemma {:induction false} WithoutSourceKeepsUnique(records: seq<TokenRecord>, source: string)
    requires SourcesUnique(records)
    ensures SourcesUnique(WithoutSource(records, source))
  {
    if records != [] {
      WithoutSourceKeepsUnique(records[1..], source);
      var rest := WithoutSource(records[1..], source);
      forall j | 0 <= j < |rest| ensures records[0].source != rest[j].source {
        assert rest[j] in records[1..];
        var k :| 0 <= k < |records[1..]| && records[1..][k] == rest[j];
        assert records[k + 1] == rest[j];
      }
    }
  }

  /** After `storeToken`, the new record is the last one, and it is the only
      record with its source; the store never exceeds `MaxTokens`. */
  lemma StoredHasOneRecordPerSource(records: seq<TokenRecord>, rec: TokenRecord)
    ensures var r := Stored(records, rec);
      && 0 < |r| <= MaxTokens
      && r[|r| - 1] == rec
      && forall i :: 0 <= i < |r| - 1 ==> r[i].source != rec.source
  {
    var w := WithoutSource(records, rec.source) + [rec];
    var r := Stored(records, rec);
    if |w| > MaxTokens {
      assert r == w[|w| - MaxTokens..];
      forall i | 0 <= i < |r| - 1 ensures r[i].source != rec.source {
        assert r[i] == w[i + |w| - MaxTokens];
      }
    }
  }

  /** Writing a record keeps sources unique. */
  lemma StoredKeepsSourcesUnique(records: seq<TokenRecord>, rec: TokenRecord)
    requires SourcesUnique(records)
    ensures SourcesUnique(Stored(records, rec))
  {
    WithoutSourceKeepsUnique(records, rec.source);
    var w := WithoutSource(records, rec.source) + [rec];
    assert SourcesUnique(w);
    var r := Stored(records, rec);
    if |w| > MaxTokens {
      forall i, j | 0 <= i < j < |r| ensures r[i].source != r[j].source {
        assert r[i] == w[i + |w| - MaxTokens] && r[j] == w[j + |w| - MaxTokens];
      }
    }
  }

  /** Nothing else changes: the store is the other-source records, in their
      old order, with the oldest dropped on overflow, followed by `rec`. */
  lemma StoredIsSuffixOfOthers(records: seq<TokenRecord>, rec: TokenRecord)
    ensures var others := WithoutSource(records, rec.source);
      var k := if |others| + 1 > MaxTokens then |others| + 1 - MaxTokens else 0;
      Stored(records, rec) == others[k..] + [rec]
  {
    var others := WithoutSource(records, rec.source);
    var w := others + [rec];
    if |w| > MaxTokens {
      assert w[|w| - MaxTokens..] == others[|others| + 1 - MaxTokens..] + [rec];
    } else {
      assert others[0..] == others;
    }
  }

  /** FIFO eviction: storing a new source into a full store drops exactly the
      earliest-inserted record, whatever its expiry. */
  lemma {:induction false} StoredEvictsOldest(records: seq<TokenRecord>, rec: TokenRecord)
    requires |records| == MaxTokens
    requires forall i :: 0 <= i < |records| ==> records[i].source != rec.source
    ensures Stored(records, rec) == records[1..] + [rec]
  {
    WithoutAbsentSource(records, rec.source);
    assert (records + [rec])[1..] == records[1..] + [rec];
  }

  /** Below capacity a new source is simply appended. */
  lemma {:induction false} StoredAppendsBelowCapacity(records: seq<TokenRecord>, rec: TokenRecord)
    requires |records| < MaxTokens
    requires forall i :: 0 <= i < |records| ==> records[i].source != rec.source
    ensures Stored(records, rec) == records + [rec]
  {
    WithoutAbsentSource(records, rec.source);
  }

  /** `is_expired`: `expires_at ? now > expires_at : false`. */
  predicate IsExpired(expiresAt: Option<int>, now: int)
    ensures expiresAt.None? ==> !IsExpired(expiresAt, now)
  {
    expiresAt.Some? && now > expiresAt.value
  }

  /** A record stored with a truthy `expiresIn` at time `created` is expired
      exactly at the times strictly after `created + expiresIn * 1000`; one
      stored without it never expires. */
  lemma RecordExpiry(token: string, source: string, pageId: Option<string>, expiresIn: Option<int>, created: int, now: int)
    ensures var rec := NewRecord(token, source, pageId, expiresIn, created);
      && (expiresIn.None? || expiresIn.value == 0 ==> !IsExpired(rec.expiresAt, now))
      && (expiresIn.Some? && expiresIn.value != 0 ==>
            (IsExpired(rec.expiresAt, now) <==> now > created + expiresIn.value * 1000))
  {
  }

  /** `token.substring(0, 20) + '...'` */
  function Preview(token: string): (r: string)
    ensures |r| == (if |token| < PreviewLength then |token| else PreviewLength) + 3
    ensures r[..|r| - 3] <= token && r[|r| - 3..] == "..."
  {
    (if |token| <= PreviewLength then token else token[..PreviewLength]) + "..."
  }

  /** One row of `/token/list`. */
  datatype TokenView = TokenView(
    source: string,
    pageId: Option<string>,
    createdAt: int,
    expiresAt: Option<int>,
    tokenPreview: string,
    tokenLength: nat,
    isExpired: bool)

  /** The row of one record: everything but the token, which is shown only
      by its preview and its length. */
  function View(t: TokenRecord, now: int): (r: TokenView)
    ensures r.source == t.source && r.pageId == t.pageId && r.createdAt == t.createdAt && r.expiresAt == t.expiresAt
    ensures r.tokenPreview == Preview(t.token) && r.tokenLength == Utf16Length(t.token)
    ensures |t.token| <= r.tokenLength <= 2 * |t.token|
    ensures r.isExpired <==> t.expiresAt.Some? && now > t.expiresAt.value
  {
    TokenView(t.source, t.pageId, t.createdAt, t.expiresAt, Preview(t.token), Utf16Length(t.token), IsExpired(t.expiresAt, now))
  }

  datatype ListResponse = ListResponse(tokens: seq<TokenView>, count: nat)

  /** `GET /token/list`: every record, in store order, with a preview instead of the token. */
  function ListTokens(records: seq<TokenRecord>, now: int): (r: ListResponse)
    ensures r.count == |r.tokens| == |records|
    ensures forall i :: 0 <= i < |records| ==>
      && r.tokens[i].source == records[i].source
      && r.tokens[i].pageId == records[i].pageId
      && r.tokens[i].createdAt == records[i].createdAt
      && r.tokens[i].expiresAt == records[i].expiresAt
      && r.tokens[i].tokenLength == Utf16Length(records[i].token)
      && r.tokens[i].tokenPreview == Preview(records[i].token)
      && (r.tokens[i].isExpired <==> records[i].expiresAt.Some? && now > records[i].expiresAt.value)
  {
    var views := seq(|records|, i requires 0 <= i < |records| => View(records[i], now));
    ListResponse(views, |views|)
  }

  /** `storedTokens.find(t => t.source === source)` */
  function FindBySource(records: seq<TokenRecord>, source: JsValue): (r: Option<TokenRecord>)
    ensures r.None? <==> forall i :: 0 <= i < |records| ==> Str(records[i].source) != source
    ensures r.Some? ==> exists i :: (0 <= i < |records| && records[i] == r.value && Str(r.value.source) == source
      && forall j :: 0 <= j < i ==> Str(records[j].source) != source)
  {
    if records == [] then None
    else if Str(records[0].source) == source then Some(records[0])
    else
      var rest := FindBySource(records[1..], source);
      assert rest.Some? ==> exists i :: (0 <= i < |records[1..]| && records[1..][i] == rest.value && Str(rest.value.source) == source
        && forall j :: 0 <= j < i ==> Str(records[1..][j].source) != source);
      assert rest.Some? ==> exists i :: (1 <= i < |records| && records[i] == rest.value && Str(rest.value.source) == source
        && forall j :: 0 <= j < i ==> Str(records[j].source) != source);
      rest
  }

  datatype GetResponse =
    | MissingSource
    | NotFound(message: string)
    | Found(token: string, source: string, pageId: Option<string>, createdAt: int, expiresAt: Option<int>, isExpired: bool)
  {
    function Status(): int {
      match this
      case MissingSource => 400
      case NotFound(_) => 404
      case Found(_, _, _, _, _, _) => 200
    }
  }

  /** `GET /token/get?source=...`: 400 without a source, 404 without a record
      for it, otherwise the full token of the first record with that source. */
  function GetToken(records: seq<TokenRecord>, source: JsValue, now: int): (r: GetResponse)
    ensures r.Status() == 400 <==> !Truthy(source)
    ensures r.Status() == 404 <==> Truthy(source) && forall i :: 0 <= i < |records| ==> Str(records[i].source) != source
    ensures r.Found? ==> exists i :: (0 <= i < |records| && Str(records[i].source) == source
      && (forall j :: 0 <= j < i ==> Str(records[j].source) != source)
      && r == Found(records[i].token, records[i].source, records[i].pageId, records[i].createdAt,
                    records[i].expiresAt, IsExpired(records[i].expiresAt, now)))
  {
    if !Truthy(source) then MissingSource
    else
      match FindBySource(records, source)
      case None => NotFound("No se encontró token para source: " + ToJsString(source))
      case Some(t) => Found(t.token, t.source, t.pageId, t.createdAt, t.expiresAt, IsExpired(t.expiresAt, now))
  }

  /** Write then read: right after `storeToken(token, source, ...)`, `/get`
      for that (non-empty) source returns the token just written. */
  lemma GetAfterStore(records: seq<TokenRecord>, rec: TokenRecord, now: int)
    requires rec.source != ""
    ensures GetToken(Stored(records, rec), Str(rec.source), now)
         == Found(rec.token, rec.source, rec.pageId, rec.createdAt, rec.expiresAt, IsExpired(rec.expiresAt, now))
  {
    StoredHasOneRecordPerSource(records, rec);
  }

  /** The module-level `storedTokens` array, as an object. */
  class Store {
    var tokens: seq<TokenRecord>

    ghost predicate Valid()
      reads this
    {
      |tokens| <= MaxTokens && SourcesUnique(tokens)
    }

    constructor()
      ensures tokens == [] && Valid()
    {
      tokens := [];
    }

    /** `storeToken(token, source, pageId, expiresIn)` at time `now`. */
    method StoreToken(token: string, source: string, pageId: Option<string>, expiresIn: Option<int>, now: int)
      modifies this
      ensures tokens == Stored(old(tokens), NewRecord(token, source, pageId, expiresIn, now))
      ensures 0 < |tokens| <= MaxTokens && tokens[|tokens| - 1] == NewRecord(token, source, pageId, expiresIn, now)
      ensures forall i :: 0 <= i < |tokens| - 1 ==> tokens[i].source != source
      ensures old(Valid()) ==> Valid()
    {
      var rec := NewRecord(token, source, pageId, expiresIn, now);
      StoredHasOneRecordPerSource(tokens, rec);
      if Valid() {
        StoredKeepsSourcesUnique(tokens, rec);
      }
      tokens := WithoutSource(tokens, source);
      tokens := tokens + [rec];
      if |tokens| > MaxTokens {
        tokens := tokens[|tokens| - MaxTokens..];
      }
    }
  }
}

=== FILE: validator.dfy ===
/** The input validator of `src/utils/validator.js`: an error-accumulating
    `Validator` object with one method per rule, a schema walker that applies
    the rules of each key in a fixed order, the table of endpoint schemas, and
    the `validate` helper. Rule values are `JsValue`s; a format rule tests
    `String(value)` against its pattern. */
module Validation {
  import opened Wrappers
  import opened JsValues
  import opened ValidatorPatterns

  /** `{ field, message }`; a custom rule may report any value as its message. */
  datatype FieldError = FieldError(field: string, message: JsValue)

  /** The rules of one schema key. An unset (falsy) rule is `false`, `""`, `0`
      or `None`: `if (rules.x)` skips it. */
  datatype Rules = Rules(
    required: bool,
    kind: string,
    minLength: int,
    maxLength: int,
    phone: bool,
    email: bool,
    url: bool,
    accessToken: bool,
    whatsappMessageId: bool,
    oneOf: Option<seq<JsValue>>,
    custom: Option<JsValue -> JsValue>)

  /** A schema: its keys in `Object.keys` order, each with its rules. */
  type Schema = seq<(string, Rules)>

  /** The messages of the rules, in Spanish as the API returns them. */
  const RequiredSuffix := " es requerido"
  const TypeMid := " debe ser de tipo "
  const ReceivedMid := ", recibido "
  const MinLengthMid := " debe tener al menos "
  const CharactersSuffix := " caracteres"
  const MaxLengthMid := " no puede tener más de "
  const PhoneSuffix := " debe ser un número de teléfono válido (formato: 5491123456789)"
  const EmailSuffix := " debe ser un email válido"
  const UrlSuffix := " debe ser una URL válida (http/https)"
  const AccessTokenSuffix := " debe ser un access token válido"
  const WamidSuffix := " debe ser un message ID válido de WhatsApp"
  const OneOfMid := " debe ser uno de: "
  const NotObjectMessage := "Debe ser un objeto válido"

  /** `value.length` where it is a number: UTF-16 code units of a string,
      elements of an array, or an object's own numeric `length` property. */
  function Length(v: JsValue): (r: Option<int>)
    ensures r.Some? <==> v.Str? || v.Arr? || (v.Obj? && Prop(v, "length").Num?)
    ensures v.Str? ==> r == Some(Utf16Length(v.s)) && |v.s| <= r.value <= 2 * |v.s|
    ensures v.Arr? ==> r.value == |v.items|
    ensures v.Obj? && r.Some? ==> r.value == Prop(v, "length").n
  {
    match v
    case Str(s) => Some(Utf16Length(s))
    case Arr(items) => Some(|items|)
    case Obj(props) => if "length" in props && props["length"].Num? then Some(props["length"].n) else None
    case _ => None
  }

  /** A text of emoji within `max` characters can still be over `max` code
      units long, and is then refused. */
  lemma AstralTextOverMax(s: string, max: int, field: string)
    requires forall i :: 0 <= i < |s| ==> s[i] as int > 0xFFFF
    requires 0 <= max < 2 * |s|
    ensures MaxLengthCheck(Str(s), max, field) != []
  {
    AstralLengthDoubles(s);
  }

  function Fail(field: string, message: string): seq<FieldError> {
    [FieldError(field, Str(message))]
  }

  /** `required`: flags exactly `undefined`, `null` and `''`. */
  function RequiredCheck(v: JsValue, field: string): (r: seq<FieldError>)
    ensures |r| <= 1 && (r != [] ==> r[0].field == field)
    ensures r != [] <==> v in {Undefined, Null, Str("")}
    ensures v == Num(0) || v == Bool(false) ==> r == []
  {
    if v == Undefined || v == Null || v == Str("") then Fail(field, field + RequiredSuffix) else []
  }

  /** `type`: skips only `undefined` and `null`; arrays are `'array'`. */
  function TypeCheck(v: JsValue, expected: string, field: string): (r: seq<FieldError>)
    ensures |r| <= 1 && (r != [] ==> r[0].field == field)
    ensures r != [] <==> !Nullish(v) && TypeName(v) != expected
  {
    if Nullish(v) then []
    else if TypeName(v) != expected then
      Fail(field, field + TypeMid + expected + ReceivedMid + TypeName(v))
    else []
  }

  function MinLengthCheck(v: JsValue, min: int, field: string): (r: seq<FieldError>)
    ensures |r| <= 1 && (r != [] ==> r[0].field == field)
    ensures r != [] <==> Truthy(v) && Length(v).Some? && Length(v).value < min
  {
    if Truthy(v) && Length(v).Some? && Length(v).value < min then
      Fail(field, field + MinLengthMid + IntToString(min) + CharactersSuffix)
    else []
  }

  function MaxLengthCheck(v: JsValue, max: int, field: string): (r: seq<FieldError>)
    ensures |r| <= 1 && (r != [] ==> r[0].field == field)
    ensures r != [] <==> Truthy(v) && Length(v).Some? && Length(v).value > max
  {
    if Truthy(v) && Length(v).Some? && Length(v).value > max then
      Fail(field, field + MaxLengthMid + IntToString(max) + CharactersSuffix)
    else []
  }

  function PhoneCheck(v: JsValue, field: string): (r: seq<FieldError>)
    ensures |r| <= 1 && (r != [] ==> r[0].field == field)
    ensures r != [] <==> Truthy(v) && !PhoneMatch(ToJsString(v))
  {
    if Truthy(v) && !PhoneMatch(ToJsString(v)) then
      Fail(field, field + PhoneSuffix)
    else []
  }

  function EmailCheck(v: JsValue, field: string): (r: seq<FieldError>)
    ensures |r| <= 1 && (r != [] ==> r[0].field == field)
    ensures r != [] <==> Truthy(v) && !EmailMatch(ToJsString(v))
  {
    if Truthy(v) && !EmailMatch(ToJsString(v)) then Fail(field, field + EmailSuffix) else []
  }

  function UrlCheck(v: JsValue, field: string): (r: seq<FieldError>)
    ensures |r| <= 1 && (r != [] ==> r[0].field == field)
    ensures r != [] <==> Truthy(v) && !UrlMatch(ToJsString(v))
  {
    if Truthy(v) && !UrlMatch(ToJsString(v)) then Fail(field, field + UrlSuffix) else []
  }

  function AccessTokenCheck(v: JsValue, field: string): (r: seq<FieldError>)
    ensures |r| <= 1 && (r != [] ==> r[0].field == field)
    ensures r != [] <==> Truthy(v) && !AccessTokenMatch(ToJsString(v))
  {
    if Truthy(v) && !AccessTokenMatch(ToJsString(v)) then Fail(field, field + AccessTokenSuffix) else []
  }

  function WamidCheck(v: JsValue, field: string): (r: seq<FieldError>)
    ensures |r| <= 1 && (r != [] ==> r[0].field == field)
    ensures r != [] <==> Truthy(v) && !WamidMatch(ToJsString(v))
  {
    if Truthy(v) && !WamidMatch(ToJsString(v)) then
      Fail(field, field + WamidSuffix)
    else []
  }

  function OneOfCheck(v: JsValue, options: seq<JsValue>, field: string): (r: seq<FieldError>)
    ensures |r| <= 1 && (r != [] ==> r[0].field == field)
    ensures r != [] <==> Truthy(v) && v !in options
  {
    if Truthy(v) && v !in options then Fail(field, field + OneOfMid + JoinValues(options, ", ")) else []
  }

  /** A custom rule passes only when it returns exactly `true`; anything else
      it returns becomes the message. */
  function CustomCheck(v: JsValue, custom: JsValue -> JsValue, field: string): (r: seq<FieldError>)
    ensures |r| <= 1 && (r != [] ==> r[0].field == field)
    ensures r != [] <==> custom(v) != Bool(true)
    ensures r != [] ==> r[0] == FieldError(field, custom(v))
  {
    var result := custom(v);
    if result != Bool(true) then [FieldError(field, result)] else []
  }

  /** The presence rules of one key: required, type. */
  function PresenceErrors(v: JsValue, rules: Rules, field: string): (r: seq<FieldError>)
    ensures |r| <= 2
  {
    (if rules.required then RequiredCheck(v, field) else [])
    + (if rules.kind != "" then TypeCheck(v, rules.kind, field) else [])
  }

  /** The length rules of one key: minLength, maxLength. */
  function LengthErrors(v: JsValue, rules: Rules, field: string): (r: seq<FieldError>)
    ensures |r| <= 2
  {
    (if rules.minLength != 0 then MinLengthCheck(v, rules.minLength, field) else [])
    + (if rules.maxLength != 0 then MaxLengthCheck(v, rules.maxLength, field) else [])
  }

  /** The contact-format rules of one key: phone, email, url. */
  function ContactErrors(v: JsValue, rules: Rules, field: string): (r: seq<FieldError>)
    ensures |r| <= 3
  {
    (if rules.phone then PhoneCheck(v, field) else [])
    + (if rules.email then EmailCheck(v, field) else [])
    + (if rules.url then UrlCheck(v, field) else [])
  }

  /** The identifier-format rules of one key: accessToken, whatsappMessageId. */
  function IdentifierErrors(v: JsValue, rules: Rules, field: string): (r: seq<FieldError>)
    ensures |r| <= 2
  {
    (if rules.accessToken then AccessTokenCheck(v, field) else [])
    + (if rules.whatsappMessageId then WamidCheck(v, field) else [])
  }

  /** The last two rules of one key: oneOf, custom. */
  function ChoiceErrors(v: JsValue, rules: Rules, field: string): (r: seq<FieldError>)
    ensures |r| <= 2
  {
    (if rules.oneOf.Some? then OneOfCheck(v, rules.oneOf.value, field) else [])
    + (if rules.custom.Some? then CustomCheck(v, rules.custom.value, field) else [])
  }

  /** The errors one schema key contributes, in the fixed rule order: required,
      type, minLength, maxLength, phone, email, url, accessToken,
      whatsappMessageId, oneOf, custom. */
  function RuleErrors(v: JsValue, rules: Rules, field: string): (r: seq<FieldError>)
    ensures |r| <= 11
  {
    PresenceErrors(v, rules, field) + LengthErrors(v, rules, field) + ContactErrors(v, rules, field)
    + IdentifierErrors(v, rules, field) + ChoiceErrors(v, rules, field)
  }

  lemma KeysErrorsUnfold(obj: JsValue, schema: Schema, prefix: string)
    requires schema != []
    ensures KeysErrors(obj, schema, prefix)
         == KeysErrors(obj, schema[..|schema| - 1], prefix) + KeyErrors(obj, schema[|schema| - 1], prefix)
  {
  }

  lemma KeysErrorsSnoc(obj: JsValue, schema: Schema, prefix: string, i: nat)
    requires i < |schema|
    ensures KeysErrors(obj, schema[..i + 1], prefix)
         == KeysErrors(obj, schema[..i], prefix) + RuleErrors(Prop(obj, schema[i].0), schema[i].1, FieldName(prefix, schema[i].0))
  {
    assert schema[..i + 1][..i] == schema[..i];
  }

  lemma Append<T>(e: seq<T>, a: seq<T>, b: seq<T>)
    ensures e + a + b == e + (a + b)
  {
  }

  /** `prefix ? `${prefix}.${key}` : key` */
  function FieldName(prefix: string, key: string): string {
    if prefix != "" then prefix + "." + key else key
  }

  /** `!obj || typeof obj !== 'object'` is false: a plain object or an array. */
  predicate IsObject(obj: JsValue) {
    obj.Obj? || obj.Arr?
  }

  /** The errors of one key of `obj`. */
  function KeyErrors(obj: JsValue, entry: (string, Rules), prefix: string): (r: seq<FieldError>)
    ensures |r| <= 11
    ensures forall e :: e in r ==> e.field == FieldName(prefix, entry.0)
  {
    RuleErrorsField(Prop(obj, entry.0), entry.1, FieldName(prefix, entry.0));
    RuleErrors(Prop(obj, entry.0), entry.1, FieldName(prefix, entry.0))
  }

  /** The errors of the keys `schema`, in key order. */
  function KeysErrors(obj: JsValue, schema: Schema, prefix: string): (r: seq<FieldError>)
    ensures |r| <= 11 * |schema|
  {
    if schema == [] then []
    else KeysErrors(obj, schema[..|schema| - 1], prefix) + KeyErrors(obj, schema[|schema| - 1], prefix)
  }

  /** Everything `schema(obj, schema, prefix)` appends. */
  function SchemaErrors(obj: JsValue, schema: Schema, prefix: string): (r: seq<FieldError>)
    ensures !IsObject(obj) ==> |r| == 1
    ensures IsObject(obj) ==> |r| <= 11 * |schema|
  {
    if !IsObject(obj) then Fail(if prefix != "" then prefix else "object", NotObjectMessage)
    else KeysErrors(obj, schema, prefix)
  }

  class Validator {
    var errors: seq<FieldError>

    constructor()
      ensures errors == []
    {
      errors := [];
    }

    method Reset()
      modifies this
      ensures errors == []
    {
      errors := [];
    }

    method AddError(field: string, message: JsValue)
      modifies this
      ensures errors == old(errors) + [FieldError(field, message)]
    {
      errors := errors + [FieldError(field, message)];
    }

    function HasErrors(): (r: bool)
      reads this
      ensures r <==> |errors| > 0
    {
      errors != []
    }

    /** `this.errors[0] || null`: an error record is always truthy. */
    function FirstError(): (r: Option<FieldError>)
      reads this
      ensures r.None? <==> errors == []
      ensures r.Some? ==> r.value == errors[0]
    {
      if errors == [] then None else Some(errors[0])
    }

    method Required(value: JsValue, field: string)
      modifies this
      ensures errors == old(errors) + RequiredCheck(value, field)
    {
      if value == Undefined || value == Null || value == Str("") {
        AddError(field, Str(field + RequiredSuffix));
      }
    }

    method Type(value: JsValue, expectedType: string, field: string)
      modifies this
      ensures errors == old(errors) + TypeCheck(value, expectedType, field)
    {
      if value == Undefined || value == Null {
        return;
      }
      var actualType := TypeName(value);
      if actualType != expectedType {
        AddError(field, Str(field + TypeMid + expectedType + ReceivedMid + actualType));
      }
    }

    method MinLength(value: JsValue, min: int, field: string)
      modifies this
      ensures errors == old(errors) + MinLengthCheck(value, min, field)
    {
      if Truthy(value) && Length(value).Some? && Length(value).value < min {
        AddError(field, Str(field + MinLengthMid + IntToString(min) + CharactersSuffix));
      }
    }

    method MaxLength(value: JsValue, max: int, field: string)
      modifies this
      ensures errors == old(errors) + MaxLengthCheck(value, max, field)
    {
      if Truthy(value) && Length(value).Some? && Length(value).value > max {
        AddError(field, Str(field + MaxLengthMid + IntToString(max) + CharactersSuffix));
      }
    }

    method Phone(value: JsValue, field: string)
      modifies this
      ensures errors == old(errors) + PhoneCheck(value, field)
    {
      if Truthy(value) && !PhoneMatch(ToJsString(value)) {
        AddError(field, Str(field + PhoneSuffix));
      }
    }

    method Email(value: JsValue, field: string)
      modifies this
      ensures errors == old(errors) + EmailCheck(value, field)
    {
      if Truthy(value) && !EmailMatch(ToJsString(value)) {
        AddError(field, Str(field + EmailSuffix));
      }
    }

    method Url(value: JsValue, field: string)
      modifies this
      ensures errors == old(errors) + UrlCheck(value, field)
    {
      if Truthy(value) && !UrlMatch(ToJsString(value)) {
        AddError(field, Str(field + UrlSuffix));
      }
    }

    method AccessToken(value: JsValue, field: string)
      modifies this
      ensures errors == old(errors) + AccessTokenCheck(value, field)
    {
      if Truthy(value) && !AccessTokenMatch(ToJsString(value)) {
        AddError(field, Str(field + AccessTokenSuffix));
      }
    }

    method WhatsappMessageId(value: JsValue, field: string)
      modifies this
      ensures errors == old(errors) + WamidCheck(value, field)
    {
      if Truthy(value) && !WamidMatch(ToJsString(value)) {
        AddError(field, Str(field + WamidSuffix));
      }
    }

    method OneOf(value: JsValue, options: seq<JsValue>, field: string)
      modifies this
      ensures errors == old(errors) + OneOfCheck(value, options, field)
    {
      if Truthy(value) && value !in options {
        AddError(field, Str(field + OneOfMid + JoinValues(options, ", ")));
      }
    }

    method ApplyPresenceRules(value: JsValue, rules: Rules, fieldName: string)
      modifies this
      ensures errors == old(errors) + PresenceErrors(value, rules, fieldName)
    {
      ghost var e0 := errors;
      if rules.required { Required(value, fieldName); }
      Append(e0, if rules.required then RequiredCheck(value, fieldName) else [],
             if rules.kind != "" then TypeCheck(value, rules.kind, fieldName) else []);
      if rules.kind != "" { Type(value, rules.kind, fieldName); }
    }

    method ApplyLengthRules(value: JsValue, rules: Rules, fieldName: string)
      modifies this
      ensures errors == old(errors) + LengthErrors(value, rules, fieldName)
    {
      ghost var e0 := errors;
      if rules.minLength != 0 { MinLength(value, rules.minLength, fieldName); }
      Append(e0, if rules.minLength != 0 then MinLengthCheck(value, rules.minLength, fieldName) else [],
             if rules.maxLength != 0 then MaxLengthCheck(value, rules.maxLength, fieldName) else []);
      if rules.maxLength != 0 { MaxLength(value, rules.maxLength, fieldName); }
    }

    method ApplyContactRules(value: JsValue, rules: Rules, fieldName: string)
      modifies this
      ensures errors == old(errors) + ContactErrors(value, rules, fieldName)
    {
      ghost var a := if rules.phone then PhoneCheck(value, fieldName) else [];
      ghost var b := if rules.email then EmailCheck(value, fieldName) else [];
      ghost var c := if rules.url then UrlCheck(value, fieldName) else [];
      ghost var e0 := errors;
      if rules.phone { Phone(value, fieldName); }
      Append(e0, a, b);
      if rules.email { Email(value, fieldName); }
      Append(e0, a + b, c);
      if rules.url { Url(value, fieldName); }
    }

    method ApplyIdentifierRules(value: JsValue, rules: Rules, fieldName: string)
      modifies this
      ensures errors == old(errors) + IdentifierErrors(value, rules, fieldName)
    {
      ghost var e0 := errors;
      if rules.accessToken { AccessToken(value, fieldName); }
      Append(e0, if rules.accessToken then AccessTokenCheck(value, fieldName) else [],
             if rules.whatsappMessageId then WamidCheck(value, fieldName) else []);
      if rules.whatsappMessageId { WhatsappMessageId(value, fieldName); }
    }

    method ApplyChoiceRules(value: JsValue, rules: Rules, fieldName: string)
      modifies this
      ensures errors == old(errors) + ChoiceErrors(value, rules, fieldName)
    {
      ghost var a := if rules.oneOf.Some? then OneOfCheck(value, rules.oneOf.value, fieldName) else [];
      ghost var b := if rules.custom.Some? then CustomCheck(value, rules.custom.value, fieldName) else [];
      ghost var e0 := errors;
      if rules.oneOf.Some? { OneOf(value, rules.oneOf.value, fieldName); }
      Append(e0, a, b);
      if rules.custom.Some? {
        var customResult := rules.custom.value(value);
        if customResult != Bool(true) {
          AddError(fieldName, customResult);
        }
      }
    }

    /** The body of the `forEach` callback for one key. */
    method ApplyRules(value: JsValue, rules: Rules, fieldName: string)
      modifies this
      ensures errors == old(errors) + RuleErrors(value, rules, fieldName)
    {
      ghost var e0 := errors;
      ghost var p := PresenceErrors(value, rules, fieldName);
      ghost var l := LengthErrors(value, rules, fieldName);
      ghost var c := ContactErrors(value, rules, fieldName);
      ghost var i := IdentifierErrors(value, rules, fieldName);
      Append(e0, p, l);
      Append(e0, p + l, c);
      Append(e0, p + l + c, i);
      Append(e0, p + l + c + i, ChoiceErrors(value, rules, fieldName));
      ApplyPresenceRules(value, rules, fieldName);
      ApplyLengthRules(value, rules, fieldName);
      ApplyContactRules(value, rules, fieldName);
      ApplyIdentifierRules(value, rules, fieldName);
      ApplyChoiceRules(value, rules, fieldName);
    }

    /** `schema(obj, schema, prefix)` */
    method Schema(obj: JsValue, schema: Schema, prefix: string)
      modifies this
      ensures errors == old(errors) + SchemaErrors(obj, schema, prefix)
    {
      if !IsObject(obj) {
        AddError(if prefix != "" then prefix else "object", Str(NotObjectMessage));
        return;
      }
      var i := 0;
      while i < |schema|
        invariant 0 <= i <= |schema|
        invariant errors == old(errors) + KeysErrors(obj, schema[..i], prefix)
      {
        KeysErrorsSnoc(obj, schema, prefix, i);
        Append(old(errors), KeysErrors(obj, schema[..i], prefix),
               RuleErrors(Prop(obj, schema[i].0), schema[i].1, FieldName(prefix, schema[i].0)));
        var (key, rules) := schema[i];
        ApplyRules(Prop(obj, key), rules, FieldName(prefix, key));
        i := i + 1;
      }
      assert schema[..i] == schema;
    }
  }

  /** A key with no rules set. */
  const NoRules := Rules(false, "", 0, 0, false, false, false, false, false, None, None)

  const AccessTokenKey := ("access_token", NoRules.(required := true, kind := "string", accessToken := true))
  const PhoneNumberIdKey := ("phone_number_id", NoRules.(required := true, kind := "string"))
  const ToKey := ("to", NoRules.(required := true, kind := "string", phone := true))
  const CodeKey := ("code", NoRules.(required := true, kind := "string"))
  const StateKey := ("state", NoRules.(kind := "string"))

  /** `SCHEMAS[name]` */
  function SchemaNamed(name: string): (r: Option<Schema>)
    ensures r.Some? <==> name in {"whatsappTextMessage", "whatsappImageMessage", "whatsappTyping", "whatsappMarkRead",
                                  "embeddedSignupData", "instagramAuth", "tiendanubeAuth"}
    ensures name in {"whatsappTextMessage", "whatsappImageMessage", "whatsappTyping"} ==>
      |r.value| >= 3 && r.value[..3] == [AccessTokenKey, PhoneNumberIdKey, ToKey]
    ensures name in {"embeddedSignupData", "instagramAuth", "tiendanubeAuth"} ==> r.value == [CodeKey, StateKey]
  {
    if name == "whatsappTextMessage" then
      Some([AccessTokenKey, PhoneNumberIdKey, ToKey,
            ("message_text", NoRules.(required := true, kind := "string", minLength := 1, maxLength := 4096))])
    else if name == "whatsappImageMessage" then
      Some([AccessTokenKey, PhoneNumberIdKey, ToKey,
            ("image_url", NoRules.(required := true, kind := "string", url := true)),
            ("caption", NoRules.(kind := "string", maxLength := 1024))])
    else if name == "whatsappTyping" then
      Some([AccessTokenKey, PhoneNumberIdKey, ToKey])
    else if name == "whatsappMarkRead" then
      Some([AccessTokenKey, PhoneNumberIdKey,
            ("message_id", NoRules.(required := true, kind := "string", whatsappMessageId := true))])
    else if name == "embeddedSignupData" || name == "instagramAuth" || name == "tiendanubeAuth" then
      Some([CodeKey, StateKey])
    else None
  }

  /** The record `validate` returns. */
  datatype Report = Report(isValid: bool, errors: seq<FieldError>, firstError: Option<FieldError>)

  /** `validate(data, schemaName)`: an unknown schema name throws. */
  method Validate(data: JsValue, schemaName: string) returns (r: Result<Report, string>)
    ensures r.Err? <==> SchemaNamed(schemaName).None?
    ensures r.Err? ==> r.error == "Schema de validación no encontrado: " + schemaName
    ensures r.Ok? ==> r.value.errors == SchemaErrors(data, SchemaNamed(schemaName).value, "")
    ensures r.Ok? ==> (r.value.isValid <==> r.value.errors == [])
    ensures r.Ok? ==> (r.value.firstError.None? <==> r.value.errors == [])
    ensures r.Ok? && r.value.errors != [] ==> r.value.firstError == Some(r.value.errors[0])
  {
    var schema := SchemaNamed(schemaName);
    if schema.None? {
      return Err("Schema de validación no encontrado: " + schemaName);
    }
    var validator := new Validator();
    validator.Schema(data, schema.value, "");
    return Ok(Report(!validator.HasErrors(), validator.errors, validator.FirstError()));
  }

  /** What `validateMiddleware(schemaName)` does with one request. */
  datatype Outcome =
    | SchemaMissing
    | Rejected(details: seq<FieldError>)
    | Accepted(validatedData: JsValue)
  {
    /** The HTTP status; `Accepted` hands the request on with `next()`. */
    function Status(): int {
      match this
      case SchemaMissing => 500
      case Rejected(_) => 400
      case Accepted(_) => 200
    }
  }

  /** `validateMiddleware(schemaName)` applied to a request: the body and the
      query string are merged, query keys winning, and validated as one object. */
  method ValidateRequest(body: map<string, JsValue>, query: map<string, JsValue>, schemaName: string)
    returns (r: Outcome)
    ensures r.SchemaMissing? <==> SchemaNamed(schemaName).None?
    ensures r.Rejected? ==>
      r.details == SchemaErrors(Obj(body + query), SchemaNamed(schemaName).value, "") && r.details != []
    ensures r.Accepted? ==>
      r.validatedData == Obj(body + query) && SchemaErrors(Obj(body + query), SchemaNamed(schemaName).value, "") == []
    ensures SchemaNamed(schemaName).Some? ==>
      (r.Accepted? <==> SchemaErrors(Obj(body + query), SchemaNamed(schemaName).value, "") == [])
  {
    var schema := SchemaNamed(schemaName);
    if schema.None? {
      return SchemaMissing;
    }
    var validator := new Validator();
    var data := Obj(Spread(body, query));
    validator.Schema(data, schema.value, "");
    if validator.HasErrors() {
      return Rejected(validator.errors);
    }
    return Accepted(data);
  }

  /** Every error of `errs` is filed under `field`. */
  predicate AllUnder(errs: seq<FieldError>, field: string) {
    forall e :: e in errs ==> e.field == field
  }

  lemma AllUnderAppend(a: seq<FieldError>, b: seq<FieldError>, field: string)
    requires AllUnder(a, field) && AllUnder(b, field)
    ensures AllUnder(a + b, field)
  {
  }

  lemma AllUnderAtMostOne(r: seq<FieldError>, field: string)
    requires |r| <= 1 && (r != [] ==> r[0].field == field)
    ensures AllUnder(r, field)
  {
  }

  lemma AllUnderTwo(a: seq<FieldError>, b: seq<FieldError>, field: string)
    requires |a| <= 1 && (a != [] ==> a[0].field == field)
    requires |b| <= 1 && (b != [] ==> b[0].field == field)
    ensures AllUnder(a + b, field)
  {
    AllUnderAtMostOne(a, field);
    AllUnderAtMostOne(b, field);
    AllUnderAppend(a, b, field);
  }

  lemma PresenceUnderField(v: JsValue, rules: Rules, field: string)
    ensures AllUnder(PresenceErrors(v, rules, field), field)
  {
    AllUnderTwo(if rules.required then RequiredCheck(v, field) else [],
                if rules.kind != "" then TypeCheck(v, rules.kind, field) else [], field);
  }

  lemma LengthUnderField(v: JsValue, rules: Rules, field: string)
    ensures AllUnder(LengthErrors(v, rules, field), field)
  {
    AllUnderTwo(if rules.minLength != 0 then MinLengthCheck(v, rules.minLength, field) else [],
                if rules.maxLength != 0 then MaxLengthCheck(v, rules.maxLength, field) else [], field);
  }

  lemma ContactUnderField(v: JsValue, rules: Rules, field: string)
    ensures AllUnder(ContactErrors(v, rules, field), field)
  {
    var phone := if rules.phone then PhoneCheck(v, field) else [];
    var email := if rules.email then EmailCheck(v, field) else [];
    var url := if rules.url then UrlCheck(v, field) else [];
    AllUnderTwo(phone, email, field);
    AllUnderAtMostOne(url, field);
    AllUnderAppend(phone + email, url, field);
  }

  lemma IdentifierUnderField(v: JsValue, rules: Rules, field: string)
    ensures AllUnder(IdentifierErrors(v, rules, field), field)
  {
    AllUnderTwo(if rules.accessToken then AccessTokenCheck(v, field) else [],
                if rules.whatsappMessageId then WamidCheck(v, field) else [], field);
  }

  lemma ChoiceUnderField(v: JsValue, rules: Rules, field: string)
    ensures AllUnder(ChoiceErrors(v, rules, field), field)
  {
    AllUnderTwo(if rules.oneOf.Some? then OneOfCheck(v, rules.oneOf.value, field) else [],
                if rules.custom.Some? then CustomCheck(v, rules.custom.value, field) else [], field);
  }

  /** Every error a key's rules produce is filed under that key's field name. */
  lemma RuleErrorsField(v: JsValue, rules: Rules, field: string)
    ensures forall e :: e in RuleErrors(v, rules, field) ==> e.field == field
  {
    var p, l, c, i, ch := PresenceErrors(v, rules, field), LengthErrors(v, rules, field),
      ContactErrors(v, rules, field), IdentifierErrors(v, rules, field), ChoiceErrors(v, rules, field);
    PresenceUnderField(v, rules, field);
    LengthUnderField(v, rules, field);
    ContactUnderField(v, rules, field);
    IdentifierUnderField(v, rules, field);
    ChoiceUnderField(v, rules, field);
    AllUnderAppend(p, l, field);
    AllUnderAppend(p + l, c, field);
    AllUnderAppend(p + l + c, i, field);
    AllUnderAppend(p + l + c + i, ch, field);
    assert AllUnder(RuleErrors(v, rules, field), field);
  }

  /** A missing value (`undefined` or `null`) of a required key yields exactly
      the `required` error: `type` skips nullish values and every length,
      format and `oneOf` rule skips falsy ones. */
  lemma MissingRequiredFieldOneError(v: JsValue, rules: Rules, field: string)
    requires Nullish(v) && rules.required && rules.custom.None?
    ensures RuleErrors(v, rules, field) == [FieldError(field, Str(field + RequiredSuffix))]
  {
  }

  /** A falsy value fails no length, format or `oneOf` rule. */
  lemma FalsyValueSkipsValueRules(v: JsValue, rules: Rules, field: string)
    requires !Truthy(v)
    ensures LengthErrors(v, rules, field) == []
    ensures ContactErrors(v, rules, field) == []
    ensures IdentifierErrors(v, rules, field) == []
    ensures rules.custom.None? ==> ChoiceErrors(v, rules, field) == []
  {
  }

  /** Errors come out key by key: the errors of a schema are those of its
      first keys followed by those of the rest. */
  lemma {:induction false} KeysErrorsAppend(obj: JsValue, a: Schema, b: Schema, prefix: string)
    ensures KeysErrors(obj, a + b, prefix) == KeysErrors(obj, a, prefix) + KeysErrors(obj, b, prefix)
  {
    if b == [] {
      assert a + b == a;
    } else {
      var front, last := b[..|b| - 1], b[|b| - 1];
      assert (a + b)[..|a + b| - 1] == a + front;
      assert (a + b)[|a + b| - 1] == last;
      KeysErrorsAppend(obj, a, front, prefix);
      Append(KeysErrors(obj, a, prefix), KeysErrors(obj, front, prefix), KeyErrors(obj, last, prefix));
    }
  }

  /** Every error of an object is named after one of the schema's keys,
      dotted onto the prefix. */
  lemma {:induction false} KeysErrorsFieldNames(obj: JsValue, schema: Schema, prefix: string)
    ensures forall e :: e in KeysErrors(obj, schema, prefix) ==>
      exists k :: 0 <= k < |schema| && e.field == FieldName(prefix, schema[k].0)
  {
    if schema != [] {
      var n := |schema| - 1;
      KeysErrorsFieldNames(obj, schema[..n], prefix);
      RuleErrorsField(Prop(obj, schema[n].0), schema[n].1, FieldName(prefix, schema[n].0));
      forall e | e in KeysErrors(obj, schema, prefix)
        ensures exists k :: 0 <= k < |schema| && e.field == FieldName(prefix, schema[k].0)
      {
        if e in KeysErrors(obj, schema[..n], prefix) {
          var k :| 0 <= k < n && e.field == FieldName(prefix, schema[..n][k].0);
          assert schema[..n][k] == schema[k];
        } else {
          assert e.field == FieldName(prefix, schema[n].0);
        }
      }
    }
  }

  /** A value that is not an object yields exactly one error, named by the
      prefix or `'object'`, and no key is looked at. */
  lemma NonObjectOneError(obj: JsValue, schema: Schema, prefix: string)
    requires !IsObject(obj)
    ensures |SchemaErrors(obj, schema, prefix)| == 1
    ensures SchemaErrors(obj, schema, prefix)[0].field == (if prefix == "" then "object" else prefix)
  {
  }
}

=== FILE: validator_patterns.dfy ===
/** The regular expressions of `REGEX_PATTERNS`, each written out as a
    predicate on the string the pattern is matched against. JavaScript's `\d`
    is ASCII `[0-9]`, `\s` is the ECMAScript white-space and line-terminator
    set, and `.` matches anything but a line terminator. */
module ValidatorPatterns {

  predicate IsDigit(c: char) {
    '0' <= c <= '9'
  }

  predicate AllDigits(s: string) {
    forall i :: 0 <= i < |s| ==> IsDigit(s[i])
  }

  /** ECMAScript `LineTerminator`: what `.` refuses. */
  predicate IsLineTerminator(c: char) {
    c == '\n' || c == '\r' || c as int == 0x2028 || c as int == 0x2029
  }

  /** ECMAScript `\s`: white space and line terminators. */
  predicate IsSpace(c: char) {
    var n := c as int;
    (0x09 <= n <= 0x0D) || n == 0x20 || n == 0xA0 || n == 0x1680
    || (0x2000 <= n <= 0x200A) || n == 0x2028 || n == 0x2029
    || n == 0x202F || n == 0x205F || n == 0x3000 || n == 0xFEFF
  }

  /** `s` matches `\d{lo,hi}` as a whole. */
  predicate DigitsBetween(s: string, lo: nat, hi: nat) {
    if s == [] then lo == 0
    else hi > 0 && IsDigit(s[0]) && DigitsBetween(s[1..], if lo > 0 then lo - 1 else 0, hi - 1)
  }

  /** `PHONE: /^[1-9]\d{1,14}$/` */
  predicate PhoneMatch(s: string) {
    |s| > 0 && '1' <= s[0] <= '9' && DigitsBetween(s[1..], 1, 14)
  }

  predicate NoSpaceOrAt(s: string) {
    forall i :: 0 <= i < |s| ==> !IsSpace(s[i]) && s[i] != '@'
  }

  /** The regular expression `EMAIL: /^[^\s@]+@[^\s@]+\.[^\s@]+$/` read
      literally: a non-empty local part, `@`, a non-empty domain, a literal
      dot, a non-empty last label. */
  ghost predicate EmailRegex(s: string) {
    exists at, dot :: 0 < at && at + 1 < dot && dot + 1 < |s|
      && s[at] == '@' && s[dot] == '.'
      && NoSpaceOrAt(s[..at]) && NoSpaceOrAt(s[at + 1..dot]) && NoSpaceOrAt(s[dot + 1..])
  }

  /** `s` is made of `[^\s@]` characters only. */
  predicate Clean(s: string) {
    s == [] || (!IsSpace(s[0]) && s[0] != '@' && Clean(s[1..]))
  }

  predicate HasDot(s: string) {
    s != [] && (s[0] == '.' || HasDot(s[1..]))
  }

  /** The index of the first `@`, or `|s|` when there is none. */
  function FirstAt(s: string): (r: nat)
    ensures r <= |s|
  {
    if s == [] then 0 else if s[0] == '@' then 0 else 1 + FirstAt(s[1..])
  }

  /** The email pattern as the matcher decides it: the local part runs up to
      the first `@`, everything after it is `[^\s@]`, and a dot sits strictly
      inside the domain. */
  predicate EmailMatch(s: string) {
    var at := FirstAt(s);
    0 < at < |s| && Clean(s[..at]) && Clean(s[at + 1..])
    && |s| - at >= 4 && HasDot(s[at + 2..|s| - 1])
  }

  lemma {:induction false} CleanIsNoSpaceOrAt(s: string)
    ensures Clean(s) <==> NoSpaceOrAt(s)
  {
    if s != [] {
      CleanIsNoSpaceOrAt(s[1..]);
      assert forall i :: 1 <= i < |s| ==> s[i] == s[1..][i - 1];
    }
  }

  lemma {:induction false} HasDotAt(s: string)
    ensures HasDot(s) <==> exists j :: 0 <= j < |s| && s[j] == '.'
  {
    if s != [] {
      HasDotAt(s[1..]);
      if HasDot(s[1..]) {
        var j :| 0 <= j < |s[1..]| && s[1..][j] == '.';
        assert s[j + 1] == '.';
      }
      if exists j :: 0 <= j < |s| && s[j] == '.' {
        var j :| 0 <= j < |s| && s[j] == '.';
        if j > 0 {
          assert s[1..][j - 1] == '.';
        }
      }
    }
  }

  lemma {:induction false} FirstAtIs(s: string, at: nat)
    requires at < |s| && s[at] == '@'
    requires forall i :: 0 <= i < at ==> s[i] != '@'
    ensures FirstAt(s) == at
  {
    if at > 0 {
      FirstAtIs(s[1..], at - 1);
    }
  }

  lemma {:induction false} FirstAtFound(s: string)
    ensures FirstAt(s) < |s| ==> s[FirstAt(s)] == '@'
  {
    if s != [] && s[0] != '@' {
      FirstAtFound(s[1..]);
    }
  }

  lemma EmailMatchToRegex(s: string)
    requires EmailMatch(s)
    ensures EmailRegex(s)
  {
    var at := FirstAt(s);
    FirstAtFound(s);
    var t := s[at + 1..];
    CleanIsNoSpaceOrAt(s[..at]);
    CleanIsNoSpaceOrAt(t);
    var inner := s[at + 2..|s| - 1];
    HasDotAt(inner);
    var j :| 0 <= j < |inner| && inner[j] == '.';
    var dot := at + 2 + j;
    assert s[dot] == inner[j];
    var domain, last := s[at + 1..dot], s[dot + 1..];
    forall i | 0 <= i < |domain| ensures !IsSpace(domain[i]) && domain[i] != '@' {
      assert domain[i] == t[i];
    }
    forall i | 0 <= i < |last| ensures !IsSpace(last[i]) && last[i] != '@' {
      assert last[i] == t[dot - at + i];
    }
  }

  lemma NoSpaceOrAtJoin(a: string, c: char, b: string)
    requires NoSpaceOrAt(a) && NoSpaceOrAt(b) && !IsSpace(c) && c != '@'
    ensures NoSpaceOrAt(a + [c] + b)
  {
    var t := a + [c] + b;
    forall i | 0 <= i < |t| ensures !IsSpace(t[i]) && t[i] != '@' {
      if i < |a| {
        assert t[i] == a[i];
      } else if i > |a| {
        assert t[i] == b[i - |a| - 1];
      }
    }
  }

  lemma FirstAtAfterClean(s: string, at: nat)
    requires at < |s| && s[at] == '@' && NoSpaceOrAt(s[..at])
    ensures FirstAt(s) == at
  {
    forall i | 0 <= i < at ensures s[i] != '@' {
      assert s[i] == s[..at][i];
    }
    FirstAtIs(s, at);
  }

  lemma EmailPartsMatch(s: string, at: nat, dot: nat)
    requires 0 < at && at + 1 < dot && dot + 1 < |s| && s[at] == '@' && s[dot] == '.'
    requires NoSpaceOrAt(s[..at]) && NoSpaceOrAt(s[at + 1..dot]) && NoSpaceOrAt(s[dot + 1..])
    ensures EmailMatch(s)
  {
    FirstAtAfterClean(s, at);
    CleanIsNoSpaceOrAt(s[..at]);
    var t := s[at + 1..];
    assert t == s[at + 1..dot] + [s[dot]] + s[dot + 1..];
    NoSpaceOrAtJoin(s[at + 1..dot], s[dot], s[dot + 1..]);
    CleanIsNoSpaceOrAt(t);
    var inner := s[at + 2..|s| - 1];
    assert inner[dot - at - 2] == '.';
    HasDotAt(inner);
  }

  lemma RegexToEmailMatch(s: string)
    requires EmailRegex(s)
    ensures EmailMatch(s)
  {
    var at, dot :| 0 < at && at + 1 < dot && dot + 1 < |s|
      && s[at] == '@' && s[dot] == '.'
      && NoSpaceOrAt(s[..at]) && NoSpaceOrAt(s[at + 1..dot]) && NoSpaceOrAt(s[dot + 1..]);
    EmailPartsMatch(s, at, dot);
  }

  /** The matcher agrees with the regular expression on every string. */
  lemma EmailMatchIsRegex(s: string)
    ensures EmailMatch(s) <==> EmailRegex(s)
  {
    if EmailMatch(s) {
      EmailMatchToRegex(s);
    }
    if EmailRegex(s) {
      RegexToEmailMatch(s);
    }
  }

  /** `URL: /^https?:\/\/.+/` (no end anchor: only the first character after
      the scheme is looked at). */
  predicate UrlMatch(s: string) {
    (|s| > 7 && s[..7] == "http://" && !IsLineTerminator(s[7]))
    || (|s| > 8 && s[..8] == "https://" && !IsLineTerminator(s[8]))
  }

  /** `WHATSAPP_MESSAGE_ID: /^wamid\..+/` */
  predicate WamidMatch(s: string) {
    |s| > 6 && s[..6] == "wamid." && !IsLineTerminator(s[6])
  }

  predicate IsTokenChar(c: char) {
    ('A' <= c <= 'Z') || ('a' <= c <= 'z') || IsDigit(c) || c == '_' || c == '-'
  }

  /** `ACCESS_TOKEN: /^[A-Za-z0-9_-]+$/` */
  predicate AccessTokenMatch(s: string) {
    |s| > 0 && forall i :: 0 <= i < |s| ==> IsTokenChar(s[i])
  }

  /** `\d{lo,hi}` matches exactly the all-digit strings whose length lies in
      `[lo, hi]`. */
  lemma {:induction false} DigitsBetweenExactly(s: string, lo: nat, hi: nat)
    ensures DigitsBetween(s, lo, hi) <==> lo <= |s| <= hi && AllDigits(s)
  {
    if s != [] && hi > 0 {
      DigitsBetweenExactly(s[1..], if lo > 0 then lo - 1 else 0, hi - 1);
      if AllDigits(s) {
        assert AllDigits(s[1..]) by {
          forall i | 0 <= i < |s[1..]| ensures IsDigit(s[1..][i]) {
            assert s[1..][i] == s[i + 1];
          }
        }
      }
      if IsDigit(s[0]) && AllDigits(s[1..]) {
        forall i | 0 <= i < |s| ensures IsDigit(s[i]) {
          if i > 0 {
            assert s[i] == s[1..][i - 1];
          }
        }
      }
    }
  }

  /** The phone rule is a loose E.164 check (ITU-T E.164, without the `+`):
      it accepts exactly the strings of 2 to 15 ASCII digits whose first digit
      is not zero. */
  lemma PhoneAcceptsExactly(s: string)
    ensures PhoneMatch(s) <==> 2 <= |s| <= 15 && s[0] != '0' && AllDigits(s)
  {
    if |s| > 0 {
      DigitsBetweenExactly(s[1..], 1, 14);
      if AllDigits(s) {
        assert AllDigits(s[1..]) by {
          forall i | 0 <= i < |s[1..]| ensures IsDigit(s[1..][i]) {
            assert s[1..][i] == s[i + 1];
          }
        }
      }
      if '1' <= s[0] <= '9' && AllDigits(s[1..]) {
        forall i | 0 <= i < |s| ensures IsDigit(s[i]) {
          if i > 0 {
            assert s[i] == s[1..][i - 1];
          }
        }
      }
    }
  }

  /** A URL needs a scheme followed by at least one more character. */
  lemma UrlNeedsMoreThanScheme(s: string)
    ensures !UrlMatch("http://") && !UrlMatch("https://")
    ensures UrlMatch(s) ==> |s| >= 8 && s[..4] == "http"
  {
    assert "https://"[..7] == "https:/";
    if UrlMatch(s) {
      if |s| > 7 && s[..7] == "http://" {
        assert s[..4] == s[..7][..4];
      } else {
        assert s[..4] == s[..8][..4];
      }
    }
  }
}

=== FILE: webhook.dfy ===
/** The Meta webhook endpoint of routes/webhook.js: the GET subscription
    handshake and the POST dispatch of `page`, `whatsapp_business_account`
    and `instagram` payloads into PSID captures. */
module Webhook {
  import opened Wrappers
  import opened JsValues
  import PsidTable
  import Configuration

  const VerifyTokenVar := "WEBHOOK_VERIFY_TOKEN"

  datatype VerifyResponse = Challenge(body: JsValue) | Forbidden {
    function Status(): int {
      if Challenge? then 200 else 403
    }
  }

  /** `GET /webhook`: echo `hub.challenge` iff `hub.mode` is `'subscribe'` and
      `hub.verify_token` is strictly equal to `process.env.WEBHOOK_VERIFY_TOKEN`;
      `env` is the process environment. */
  function VerifySubscription(mode: JsValue, token: JsValue, challenge: JsValue, env: map<string, string>): (r: VerifyResponse)
    ensures r.Status() == 200 <==> mode == Str("subscribe") && token == Configuration.EnvValue(env, VerifyTokenVar)
    ensures r.Status() == 403 <==> !(mode == Str("subscribe") && token == Configuration.EnvValue(env, VerifyTokenVar))
    ensures r.Challenge? ==> r.body == challenge
  {
    if mode == Str("subscribe") && token == Configuration.EnvValue(env, VerifyTokenVar) then Challenge(challenge) else Forbidden
  }

  /** With no token configured, a subscribe request without `hub.verify_token`
      passes the handshake, and any request carrying a token fails it. */
  lemma UnsetTokenMatchesOnlyAbsentToken(token: JsValue, challenge: JsValue, env: map<string, string>)
    requires VerifyTokenVar !in env
    ensures VerifySubscription(Str("subscribe"), token, challenge, env).Status() == 200 <==> token == Undefined
  {
  }

  /** One `entry.messaging[]` event of a `page` payload; `messageText` is
      `event.message?.text`. */
  datatype MessagingEvent = MessagingEvent(senderId: string, recipientId: string, messageText: Option<string>)

  /** `change.value` of an Instagram change, covering both the `messages`
      shape (`sender`, `recipient`, `message.text`) and the `comments` shape
      (`from`, `text`). */
  datatype ChangeValue = ChangeValue(
    senderId: Option<string>,
    recipientId: Option<string>,
    messageText: Option<string>,
    fromId: Option<string>,
    commentText: JsValue)

  datatype Change = Change(field: string, value: Option<ChangeValue>)

  datatype Entry = Entry(id: string, messaging: Option<seq<MessagingEvent>>, changes: Option<seq<Change>>)

  datatype WebhookBody = WebhookBody(objectType: JsValue, entries: seq<Entry>)

  /** One call `addCapturedPSID(psid, pageId, message)`. */
  datatype Capture = Capture(psid: string, pageId: string, message: Option<string>)

  predicate TextTruthy(t: Option<string>) {
    t.Some? && t.value != ""
  }

  /** The capture a Messenger event triggers: the text only when it is truthy. */
  function EventCapture(e: MessagingEvent): (r: Capture)
    ensures r.psid == e.senderId && r.pageId == e.recipientId
    ensures r.message.Some? <==> TextTruthy(e.messageText)
    ensures r.message.Some? ==> r.message == e.messageText
  {
    Capture(e.senderId, e.recipientId, if TextTruthy(e.messageText) then e.messageText else None)
  }

  /** `entry.messaging.forEach(...)` */
  function EventCaptures(events: seq<MessagingEvent>): seq<Capture> {
    if events == [] then [] else EventCaptures(events[..|events| - 1]) + [EventCapture(events[|events| - 1])]
  }

  function PageEntryCaptures(e: Entry): seq<Capture> {
    if e.messaging.Some? then EventCaptures(e.messaging.value) else []
  }

  /** `body.entry.forEach(...)` for a `page` payload. */
  function PageCaptures(entries: seq<Entry>): seq<Capture> {
    if entries == [] then [] else PageCaptures(entries[..|entries| - 1]) + PageEntryCaptures(entries[|entries| - 1])
  }

  /** The captures of one Instagram change of entry `entryId`. */
  function ChangeCaptures(entryId: string, c: Change): seq<Capture>
  {
    if c.value.None? then []
    else
      var v := c.value.value;
      if c.field == "messages" then
        if TextTruthy(v.senderId) && TextTruthy(v.recipientId) then
          [Capture(v.senderId.value, v.recipientId.value, if TextTruthy(v.messageText) then v.messageText else None)]
        else []
      else if c.field == "comments" then
        if TextTruthy(v.fromId) then [Capture(v.fromId.value, entryId, Some("Comentario: " + ToJsString(v.commentText)))]
        else []
      else []
  }

  function ChangesCaptures(entryId: string, changes: seq<Change>): seq<Capture> {
    if changes == [] then []
    else ChangesCaptures(entryId, changes[..|changes| - 1]) + ChangeCaptures(entryId, changes[|changes| - 1])
  }

  function InstagramEntryCaptures(e: Entry): seq<Capture> {
    if e.changes.Some? then ChangesCaptures(e.id, e.changes.value) else []
  }

  /** `body.entry.forEach(...)` for an `instagram` payload. */
  function InstagramCaptures(entries: seq<Entry>): seq<Capture> {
    if entries == [] then []
    else InstagramCaptures(entries[..|entries| - 1]) + InstagramEntryCaptures(entries[|entries| - 1])
  }

  /** Every capture call a POST makes, in order. */
  function Captures(body: WebhookBody): (r: seq<Capture>)
    ensures body.objectType == Str("page") ==> |r| == EventTotal(body.entries)
    ensures body.objectType != Str("page") && body.objectType != Str("instagram") ==> r == []
  {
    if body.objectType == Str("page") then PageCapturesCount(body.entries); PageCaptures(body.entries)
    else if body.objectType == Str("instagram") then InstagramCaptures(body.entries)
    else []
  }

  /** A WhatsApp `messages` change without `value`: reading `value.messages`
      throws. */
  predicate MessagesWithoutValue(c: Change) {
    c.field == "messages" && c.value.None?
  }

  /** A WhatsApp entry on which the handler throws: `changes.forEach` on a
      missing `changes`, or a `messages` change without `value`. */
  predicate WhatsAppEntryThrows(e: Entry) {
    e.changes.None? || exists j :: 0 <= j < |e.changes.value| && MessagesWithoutValue(e.changes.value[j])
  }

  /** The HTTP status of a POST. A throw inside the WhatsApp branch is
      answered by Express with 500. */
  function PostStatus(body: WebhookBody): (r: int)
    ensures r == 200 || r == 404 || r == 500
    ensures r == 404 <==>
      body.objectType !in {Str("page"), Str("instagram"), Str("whatsapp_business_account")}
    ensures r == 500 ==> body.objectType == Str("whatsapp_business_account")
  {
    if body.objectType == Str("page") || body.objectType == Str("instagram") then 200
    else if body.objectType == Str("whatsapp_business_account") then
      if exists i :: 0 <= i < |body.entries| && WhatsAppEntryThrows(body.entries[i]) then 500 else 200
    else 404
  }

  /** Every Messenger event triggers exactly one capture of its
      (sender, recipient), in event order, with its text only when present. */
  lemma {:induction false} EventCapturesAt(events: seq<MessagingEvent>, k: nat)
    requires k < |events|
    ensures |EventCaptures(events)| == |events|
    ensures var c := EventCaptures(events)[k];
      && c.psid == events[k].senderId
      && c.pageId == events[k].recipientId
      && (c.message.Some? <==> TextTruthy(events[k].messageText))
      && (c.message.Some? ==> c.message == events[k].messageText)
  {
    var n := |events| - 1;
    if k < n {
      EventCapturesAt(events[..n], k);
    } else if n > 0 {
      EventCapturesAt(events[..n], 0);
    } else {
      assert events[..n] == [];
    }
  }

  /** A `page` POST answers 200 and captures one entry per messaging event. */
  lemma {:induction false} PageCapturesCount(entries: seq<Entry>)
    ensures |PageCaptures(entries)| == EventTotal(entries)
  {
    if entries != [] {
      PageCapturesCount(entries[..|entries| - 1]);
      var e := entries[|entries| - 1];
      if e.messaging.Some? && e.messaging.value != [] {
        EventCapturesAt(e.messaging.value, 0);
      }
    }
  }

  /** The number of Messenger events across all entries. */
  function EventTotal(entries: seq<Entry>): nat {
    if entries == [] then 0
    else
      var e := entries[|entries| - 1];
      EventTotal(entries[..|entries| - 1]) + (if e.messaging.Some? then |e.messaging.value| else 0)
  }

  /** A `whatsapp_business_account` POST, or any unknown object, captures nothing;
      an unknown object answers 404. */
  lemma OnlyPageAndInstagramCapture(body: WebhookBody)
    requires body.objectType != Str("page") && body.objectType != Str("instagram")
    ensures Captures(body) == []
    ensures body.objectType != Str("whatsapp_business_account") ==> PostStatus(body) == 404
    ensures body.objectType == Str("whatsapp_business_account") ==>
      && (PostStatus(body) == 200 || PostStatus(body) == 500)
      && (PostStatus(body) == 500 <==>
            exists i :: 0 <= i < |body.entries| &&
              (body.entries[i].changes.None? ||
               exists j :: 0 <= j < |body.entries[i].changes.value| &&
                 body.entries[i].changes.value[j].field == "messages" &&
                 body.entries[i].changes.value[j].value.None?))
  {
  }

  /** One WhatsApp entry whose only change is a `messages` change without
      `value` is enough for a 500. */
  lemma MessagesChangeWithoutValueFails(entryId: string)
    ensures PostStatus(WebhookBody(Str("whatsapp_business_account"),
                                   [Entry(entryId, None, Some([Change("messages", None)]))])) == 500
  {
    var e := Entry(entryId, None, Some([Change("messages", None)]));
    assert MessagesWithoutValue(e.changes.value[0]);
    assert WhatsAppEntryThrows(e);
    assert WebhookBody(Str("whatsapp_business_account"), [e]).entries[0] == e;
  }

  /** An Instagram `messages` change with both ids captures (sender, recipient,
      text or null); a `comments` change with `from.id` captures (from, entry id,
      "Comentario: " + text); no other change captures anything. */
  lemma {:induction false} InstagramChangeCapture(entryId: string, c: Change)
    ensures var cs := ChangeCaptures(entryId, c);
      && |cs| <= 1
      && (|cs| == 1 <==> (c.value.Some? &&
            ((c.field == "messages" && TextTruthy(c.value.value.senderId) && TextTruthy(c.value.value.recipientId))
             || (c.field == "comments" && TextTruthy(c.value.value.fromId)))))
      && (|cs| == 1 && c.field == "messages" ==>
            cs[0] == Capture(c.value.value.senderId.value, c.value.value.recipientId.value,
                             if TextTruthy(c.value.value.messageText) then c.value.value.messageText else None))
      && (|cs| == 1 && c.field == "comments" ==>
            cs[0] == Capture(c.value.value.fromId.value, entryId,
                             Some("Comentario: " + ToJsString(c.value.value.commentText))))
  {
  }

  /** The table after the captures `cs`, applied in order at time `now`. */
  function ApplyCaptures(entries: seq<PsidTable.CapturedPsid>, cs: seq<Capture>, now: int): (r: seq<PsidTable.CapturedPsid>)
    ensures cs == [] ==> r == entries
  {
    if cs == [] then entries
    else
      var c := cs[|cs| - 1];
      PsidTable.Upserted(ApplyCaptures(entries, cs[..|cs| - 1], now), c.psid, c.pageId, c.message, now)
  }

  lemma {:induction false} ApplyCapturesAppend(entries: seq<PsidTable.CapturedPsid>, a: seq<Capture>, b: seq<Capture>, now: int)
    ensures ApplyCaptures(entries, a + b, now) == ApplyCaptures(ApplyCaptures(entries, a, now), b, now)
  {
    if b == [] {
      assert a + b == a;
    } else {
      assert (a + b)[..|a + b| - 1] == a + b[..|b| - 1];
      ApplyCapturesAppend(entries, a, b[..|b| - 1], now);
    }
  }

  /** However many captures a payload makes, the table stays within 50
      entries with unique pairs. */
  lemma {:induction false} ApplyCapturesKeepsTableValid(entries: seq<PsidTable.CapturedPsid>, cs: seq<Capture>, now: int)
    requires |entries| <= PsidTable.MaxCaptured && PsidTable.PairsUnique(entries)
    ensures var r := ApplyCaptures(entries, cs, now);
      |r| <= PsidTable.MaxCaptured && PsidTable.PairsUnique(r)
  {
    if cs != [] {
      ApplyCapturesKeepsTableValid(entries, cs[..|cs| - 1], now);
      var c := cs[|cs| - 1];
      PsidTable.UpsertKeepsPairsUnique(ApplyCaptures(entries, cs[..|cs| - 1], now), c.psid, c.pageId, c.message, now);
    }
  }

  /** The pair of the last capture of a payload is in the table afterwards. */
  lemma LastCaptureIsKept(entries: seq<PsidTable.CapturedPsid>, cs: seq<Capture>, now: int)
    requires cs != []
    requires |entries| <= PsidTable.MaxCaptured && PsidTable.PairsUnique(entries)
    ensures var r := ApplyCaptures(entries, cs, now);
      exists k :: 0 <= k < |r| && PsidTable.SamePair(r[k], cs[|cs| - 1].psid, cs[|cs| - 1].pageId)
  {
    ApplyCapturesKeepsTableValid(entries, cs[..|cs| - 1], now);
    var c := cs[|cs| - 1];
    var before := ApplyCaptures(entries, cs[..|cs| - 1], now);
    assert ApplyCaptures(entries, cs, now) == PsidTable.Upserted(before, c.psid, c.pageId, c.message, now);
    PsidTable.UpsertKeepsPairsUnique(before, c.psid, c.pageId, c.message, now);
  }

  /** Adds one capture to the table and records it in the running list. */
  method Capture1(table: PsidTable.CaptureTable, c: Capture, now: int, ghost start: seq<PsidTable.CapturedPsid>, ghost done: seq<Capture>)
    requires table.entries == ApplyCaptures(start, done, now)
    modifies table
    ensures table.entries == ApplyCaptures(start, done + [c], now)
  {
    assert (done + [c])[..|done + [c]| - 1] == done;
    table.AddCapturedPsid(c.psid, c.pageId, c.message, now);
  }

  lemma EventCapturesSnoc(events: seq<MessagingEvent>, j: nat)
    requires j < |events|
    ensures EventCaptures(events[..j + 1]) == EventCaptures(events[..j]) + [EventCapture(events[j])]
  {
    assert events[..j + 1][..j] == events[..j];
  }

  lemma ChangesCapturesSnoc(entryId: string, changes: seq<Change>, j: nat)
    requires j < |changes|
    ensures ChangesCaptures(entryId, changes[..j + 1]) == ChangesCaptures(entryId, changes[..j]) + ChangeCaptures(entryId, changes[j])
  {
    assert changes[..j + 1][..j] == changes[..j];
  }

  lemma PageCapturesSnoc(entries: seq<Entry>, i: nat)
    requires i < |entries|
    ensures PageCaptures(entries[..i + 1]) == PageCaptures(entries[..i]) + PageEntryCaptures(entries[i])
  {
    assert entries[..i + 1][..i] == entries[..i];
  }

  lemma InstagramCapturesSnoc(entries: seq<Entry>, i: nat)
    requires i < |entries|
    ensures InstagramCaptures(entries[..i + 1]) == InstagramCaptures(entries[..i]) + InstagramEntryCaptures(entries[i])
  {
    assert entries[..i + 1][..i] == entries[..i];
  }

  /** One iteration of `entry.messaging.forEach(...)`. */
  method CaptureEventAt(table: PsidTable.CaptureTable, events: seq<MessagingEvent>, j: nat, now: int,
                        ghost start: seq<PsidTable.CapturedPsid>, ghost done: seq<Capture>)
    requires j < |events|
    requires table.entries == ApplyCaptures(start, done + EventCaptures(events[..j]), now)
    modifies table
    ensures table.entries == ApplyCaptures(start, done + EventCaptures(events[..j + 1]), now)
  {
    ghost var before := done + EventCaptures(events[..j]);
    EventCapturesSnoc(events, j);
    assert before + [EventCapture(events[j])] == done + EventCaptures(events[..j + 1]);
    Capture1(table, EventCapture(events[j]), now, start, before);
  }

  /** `entry.messaging.forEach(...)`: one capture per event. */
  method CaptureEvents(table: PsidTable.CaptureTable, events: seq<MessagingEvent>, now: int,
                       ghost start: seq<PsidTable.CapturedPsid>, ghost done: seq<Capture>)
    requires table.entries == ApplyCaptures(start, done, now)
    modifies table
    ensures table.entries == ApplyCaptures(start, done + EventCaptures(events), now)
  {
    assert events[..0] == [];
    assert done + EventCaptures(events[..0]) == done;
    var j := 0;
    while j < |events|
      invariant 0 <= j <= |events|
      invariant table.entries == ApplyCaptures(start, done + EventCaptures(events[..j]), now)
    {
      CaptureEventAt(table, events, j, now, start, done);
      j := j + 1;
    }
    assert events[..j] == events;
  }

  /** One iteration of an Instagram entry's `changes.forEach(...)`. */
  method CaptureChangeAt(table: PsidTable.CaptureTable, entryId: string, changes: seq<Change>, j: nat, now: int,
                         ghost start: seq<PsidTable.CapturedPsid>, ghost done: seq<Capture>)
    requires j < |changes|
    requires table.entries == ApplyCaptures(start, done + ChangesCaptures(entryId, changes[..j]), now)
    modifies table
    ensures table.entries == ApplyCaptures(start, done + ChangesCaptures(entryId, changes[..j + 1]), now)
  {
    ghost var before := done + ChangesCaptures(entryId, changes[..j]);
    var cs := ChangeCaptures(entryId, changes[j]);
    InstagramChangeCapture(entryId, changes[j]);
    ChangesCapturesSnoc(entryId, changes, j);
    assert before + cs == done + ChangesCaptures(entryId, changes[..j + 1]);
    if |cs| == 1 {
      assert [cs[0]] == cs;
      Capture1(table, cs[0], now, start, before);
    } else {
      assert before + cs == before;
    }
  }

  /** `entry.changes?.forEach(...)` of an Instagram entry. */
  method CaptureChanges(table: PsidTable.CaptureTable, entryId: string, changes: seq<Change>, now: int,
                        ghost start: seq<PsidTable.CapturedPsid>, ghost done: seq<Capture>)
    requires table.entries == ApplyCaptures(start, done, now)
    modifies table
    ensures table.entries == ApplyCaptures(start, done + ChangesCaptures(entryId, changes), now)
  {
    assert changes[..0] == [];
    assert done + ChangesCaptures(entryId, changes[..0]) == done;
    var j := 0;
    while j < |changes|
      invariant 0 <= j <= |changes|
      invariant table.entries == ApplyCaptures(start, done + ChangesCaptures(entryId, changes[..j]), now)
    {
      CaptureChangeAt(table, entryId, changes, j, now, start, done);
      j := j + 1;
    }
    assert changes[..j] == changes;
  }

  /** The `page` branch: `body.entry.forEach(entry => entry.messaging?.forEach(...))`. */
  method CapturePage(table: PsidTable.CaptureTable, entries: seq<Entry>, now: int)
    modifies table
    ensures table.entries == ApplyCaptures(old(table.entries), PageCaptures(entries), now)
  {
    ghost var start := table.entries;
    assert PageCaptures(entries[..0]) == [];
    var i := 0;
    while i < |entries|
      invariant 0 <= i <= |entries|
      invariant table.entries == ApplyCaptures(start, PageCaptures(entries[..i]), now)
    {
      CapturePageEntryAt(table, entries, i, now, start);
      i := i + 1;
    }
    assert entries[..i] == entries;
  }

  method CapturePageEntryAt(table: PsidTable.CaptureTable, entries: seq<Entry>, i: nat, now: int,
                            ghost start: seq<PsidTable.CapturedPsid>)
    requires i < |entries|
    requires table.entries == ApplyCaptures(start, PageCaptures(entries[..i]), now)
    modifies table
    ensures table.entries == ApplyCaptures(start, PageCaptures(entries[..i + 1]), now)
  {
    ghost var before := PageCaptures(entries[..i]);
    PageCapturesSnoc(entries, i);
    if entries[i].messaging.Some? {
      CaptureEvents(table, entries[i].messaging.value, now, start, before);
    } else {
      assert before + [] == before;
    }
  }

  /** The `instagram` branch. */
  method CaptureInstagram(table: PsidTable.CaptureTable, entries: seq<Entry>, now: int)
    modifies table
    ensures table.entries == ApplyCaptures(old(table.entries), InstagramCaptures(entries), now)
  {
    ghost var start := table.entries;
    assert InstagramCaptures(entries[..0]) == [];
    var i := 0;
    while i < |entries|
      invariant 0 <= i <= |entries|
      invariant table.entries == ApplyCaptures(start, InstagramCaptures(entries[..i]), now)
    {
      ghost var before := InstagramCaptures(entries[..i]);
      InstagramCapturesSnoc(entries, i);
      if entries[i].changes.Some? {
        CaptureChanges(table, entries[i].id, entries[i].changes.value, now, start, before);
      } else {
        assert before + [] == before;
      }
      i := i + 1;
    }
    assert entries[..i] == entries;
  }

  /** `changes.forEach(...)` of one WhatsApp entry: whether it throws. */
  method ScanWhatsAppEntry(e: Entry) returns (throws: bool)
    ensures throws == WhatsAppEntryThrows(e)
  {
    if e.changes.None? {
      return true;
    }
    var changes := e.changes.value;
    var j := 0;
    while j < |changes|
      invariant 0 <= j <= |changes|
      invariant forall k :: 0 <= k < j ==> !MessagesWithoutValue(changes[k])
    {
      if changes[j].field == "messages" && changes[j].value.None? {
        return true;
      }
      j := j + 1;
    }
    return false;
  }

  /** `POST /webhook`: dispatch on `body.object`, capture PSIDs into the
      table, answer with a status. */
  method HandlePost(body: WebhookBody, table: PsidTable.CaptureTable, now: int) returns (status: int)
    modifies table
    ensures status == PostStatus(body)
    ensures table.entries == ApplyCaptures(old(table.entries), Captures(body), now)
  {
    if body.objectType == Str("page") {
      CapturePage(table, body.entries, now);
      return 200;
    }
    if body.objectType == Str("whatsapp_business_account") {
      var i := 0;
      while i < |body.entries|
        invariant 0 <= i <= |body.entries|
        invariant forall k :: 0 <= k < i ==> !WhatsAppEntryThrows(body.entries[k])
        invariant table.entries == old(table.entries)
      {
        var throws := ScanWhatsAppEntry(body.entries[i]);
        if throws {
          assert WhatsAppEntryThrows(body.entries[i]);
          return 500;
        }
        i := i + 1;
      }
      return 200;
    } else if body.objectType == Str("instagram") {
      CaptureInstagram(table, body.entries, now);
      return 200;
    } else {
      return 404;
    }
  }
}

=== FILE: whatsapp_messenger.dfy ===
/** The WhatsApp Cloud API test endpoints of routes/whatsapp-messenger.js:
    the parameter checks and payloads of send-text, send-image, mark-read and
    mark-read-with-typing, and the `/diagnose` run. Request bodies are
    JavaScript values; the Graph API answers are parameters (`Ok` with the
    response data, `Err` with `error.response?.data || error.message`). */
module WhatsAppMessenger {
  import opened Wrappers
  import opened JsValues
  import opened ValidatorPatterns

  const SendTextParamsError := "Parámetros requeridos: to, message_text, access_token, phone_number_id"
  const SendImageParamsError := "Parámetros requeridos: to, image_url, access_token, phone_number_id"
  const MarkReadParamsError := "Parámetros requeridos: message_id, access_token, phone_number_id"
  const DiagnoseParamsError := "Parámetros requeridos: to, access_token, phone_number_id"

  /** The Graph API messages endpoint of a phone number. */
  function MessagesUrl(version: string, phoneNumberId: JsValue): (r: string)
    ensures |r| > 36 + |version|
    ensures r[..27] == "https://graph.facebook.com/" && r[27..27 + |version|] == version
    ensures r[|r| - 9..] == "/messages"
  {
    "https://graph.facebook.com/" + version + "/" + ToJsString(phoneNumberId) + "/messages"
  }

  /** What a send endpoint does with its body: answer 400, post a payload,
      or throw a `TypeError` before any answer is sent. */
  datatype Outbound =
    | BadRequest(error: string, received: Option<map<string, bool>>)
    | Post(url: string, payload: JsValue)
    | Thrown

  /** `{messaging_product: 'whatsapp', to, type: 'text', text: {body}}` */
  function TextPayload(to: JsValue, body: JsValue): (r: JsValue)
    ensures r.Obj? && r.props.Keys == {"messaging_product", "to", "type", "text"}
    ensures r.props["messaging_product"] == Str("whatsapp") && r.props["type"] == Str("text")
    ensures r.props["to"] == to && Prop(r.props["text"], "body") == body
  {
    Obj(map[
      "messaging_product" := Str("whatsapp"),
      "to" := to,
      "type" := Str("text"),
      "text" := Obj(map["body" := body])])
  }

  /** The image payload: `caption` is present only when truthy. */
  function ImagePayload(to: JsValue, link: JsValue, caption: JsValue): (r: JsValue)
    ensures r.Obj? && r.props.Keys == {"messaging_product", "to", "type", "image"}
    ensures r.props["type"] == Str("image") && r.props["to"] == to
    ensures var image := r.props["image"];
      && image.Obj? && Prop(image, "link") == link
      && ("caption" in image.props <==> Truthy(caption))
      && (Truthy(caption) ==> image.props["caption"] == caption)
  {
    Obj(map[
      "messaging_product" := Str("whatsapp"),
      "to" := to,
      "type" := Str("image"),
      "image" := Obj(Spread(map["link" := link], if Truthy(caption) then map["caption" := caption] else map[]))])
  }

  /** `{messaging_product: 'whatsapp', status: 'read', message_id}` */
  function MarkReadPayload(messageId: JsValue): (r: JsValue)
    ensures r.Obj? && r.props.Keys == {"messaging_product", "status", "message_id"}
    ensures r.props["status"] == Str("read") && r.props["message_id"] == messageId
  {
    Obj(map["messaging_product" := Str("whatsapp"), "status" := Str("read"), "message_id" := messageId])
  }

  /** The mark-read payload with `typing_indicator: {type: 'text'}` added. */
  function MarkReadWithTypingPayload(messageId: JsValue): (r: JsValue)
    ensures r.Obj? && r.props.Keys == MarkReadPayload(messageId).props.Keys + {"typing_indicator"}
    ensures r.props["typing_indicator"] == Obj(map["type" := Str("text")])
  {
    Obj(map[
      "messaging_product" := Str("whatsapp"),
      "status" := Str("read"),
      "message_id" := messageId,
      "typing_indicator" := Obj(map["type" := Str("text")])])
  }

  /** The with-typing payload is the plain one with exactly one key more. */
  lemma TypingExtendsMarkRead(messageId: JsValue)
    ensures var plain, typing := MarkReadPayload(messageId).props, MarkReadWithTypingPayload(messageId).props;
      && "typing_indicator" !in plain
      && forall k :: k in plain ==> k in typing && typing[k] == plain[k]
  {
  }

  /** The `received` map of send-text's 400 answer. */
  function ReceivedFlags(to: JsValue, messageText: JsValue, accessToken: JsValue, phoneNumberId: JsValue): (r: map<string, bool>)
    ensures r.Keys == {"to", "message_text", "access_token", "phone_number_id"}
    ensures r["to"] == Truthy(to) && r["message_text"] == Truthy(messageText)
    ensures r["access_token"] == Truthy(accessToken) && r["phone_number_id"] == Truthy(phoneNumberId)
  {
    map["to" := Truthy(to), "message_text" := Truthy(messageText),
        "access_token" := Truthy(accessToken), "phone_number_id" := Truthy(phoneNumberId)]
  }

  /** The request log of `POST /send-text` calls `message_text?.substring`,
      which is a function only on strings: any other non-nullish value
      throws before the parameter check. */
  predicate LogThrows(messageText: JsValue) {
    !Nullish(messageText) && !messageText.Str?
  }

  /** `POST /send-text` up to the Graph API call, as written. */
  function SendText(to: JsValue, messageText: JsValue, accessToken: JsValue, phoneNumberId: JsValue): (r: Outbound)
    ensures r.Thrown? <==> LogThrows(messageText)
    ensures !LogThrows(messageText) ==> r == SendTextIntended(to, messageText, accessToken, phoneNumberId)
  {
    if LogThrows(messageText) then Thrown
    else SendTextIntended(to, messageText, accessToken, phoneNumberId)
  }

  /** A numeric `message_text`, even a falsy `0`, throws instead of drawing
      the 400 answer. */
  lemma NumericMessageTextThrows(to: JsValue, n: int, accessToken: JsValue, phoneNumberId: JsValue)
    ensures SendText(to, Num(n), accessToken, phoneNumberId).Thrown?
    ensures SendTextIntended(Str("5491123456789"), Num(0), accessToken, phoneNumberId).BadRequest?
  {
  }

  /** `POST /send-text` with the parameter check reached for every body: the
      request log made safe for non-string texts. */
  function SendTextIntended(to: JsValue, messageText: JsValue, accessToken: JsValue, phoneNumberId: JsValue): (r: Outbound)
    ensures !r.Thrown?
    ensures r.BadRequest? <==> !Truthy(to) || !Truthy(messageText) || !Truthy(accessToken) || !Truthy(phoneNumberId)
    ensures r.BadRequest? ==>
      (r.received == Some(ReceivedFlags(to, messageText, accessToken, phoneNumberId)) && false in r.received.value.Values)
    ensures r.Post? ==> r.payload == TextPayload(to, messageText) && r.url == MessagesUrl("v21.0", phoneNumberId)
  {
    if !Truthy(to) || !Truthy(messageText) || !Truthy(accessToken) || !Truthy(phoneNumberId) then
      var received := ReceivedFlags(to, messageText, accessToken, phoneNumberId);
      assert received[if !Truthy(to) then "to" else if !Truthy(messageText) then "message_text"
        else if !Truthy(accessToken) then "access_token" else "phone_number_id"] == false;
      BadRequest(SendTextParamsError, Some(received))
    else Post(MessagesUrl("v21.0", phoneNumberId), TextPayload(to, messageText))
  }

  /** `POST /send-image` up to the Graph API call; the caption is optional. */
  function SendImage(to: JsValue, imageUrl: JsValue, caption: JsValue, accessToken: JsValue, phoneNumberId: JsValue): (r: Outbound)
    ensures !r.Thrown?
    ensures r.BadRequest? <==> !Truthy(to) || !Truthy(imageUrl) || !Truthy(accessToken) || !Truthy(phoneNumberId)
    ensures r.BadRequest? ==> r.received.None?
    ensures r.Post? ==> r.payload == ImagePayload(to, imageUrl, caption) && r.url == MessagesUrl("v21.0", phoneNumberId)
  {
    if !Truthy(to) || !Truthy(imageUrl) || !Truthy(accessToken) || !Truthy(phoneNumberId) then
      BadRequest(SendImageParamsError, None)
    else Post(MessagesUrl("v21.0", phoneNumberId), ImagePayload(to, imageUrl, caption))
  }

  /** `POST /mark-read` and `POST /mark-read-with-typing` up to the Graph API
      call; the typing variant posts to API version v23.0. */
  function MarkRead(messageId: JsValue, accessToken: JsValue, phoneNumberId: JsValue, withTyping: bool): (r: Outbound)
    ensures !r.Thrown?
    ensures r.BadRequest? <==> !Truthy(messageId) || !Truthy(accessToken) || !Truthy(phoneNumberId)
    ensures r.Post? && !withTyping ==> r.payload == MarkReadPayload(messageId) && r.url == MessagesUrl("v21.0", phoneNumberId)
    ensures r.Post? && withTyping ==>
      r.payload == MarkReadWithTypingPayload(messageId) && r.url == MessagesUrl("v23.0", phoneNumberId)
  {
    if !Truthy(messageId) || !Truthy(accessToken) || !Truthy(phoneNumberId) then
      BadRequest(MarkReadParamsError, None)
    else if withTyping then Post(MessagesUrl("v23.0", phoneNumberId), MarkReadWithTypingPayload(messageId))
    else Post(MessagesUrl("v21.0", phoneNumberId), MarkReadPayload(messageId))
  }

  /** `response.data.messages?.[0]?.id`: the ID of the sent message. */
  function SentMessageId(data: JsValue): (r: JsValue)
    ensures var m := Prop(data, "messages");
      && (!m.Arr? || m.items == [] ==> r == Undefined)
      && (m.Arr? && |m.items| > 0 ==> r == Prop(m.items[0], "id"))
  {
    var messages := Prop(data, "messages");
    if messages.Arr? && |messages.items| > 0 then Prop(messages.items[0], "id") else Undefined
  }

  // /diagnose

  const PhoneNumberInfoCheck := "phone_number_info"
  const AccessTokenCheck := "access_token"
  const PhoneFormatCheck := "phone_format"
  const TestMessageCheck := "test_message"

  const PhoneInfoOk := "Información del número obtenida correctamente"
  const PhoneInfoFailed := "No se pudo obtener información del número"
  const TokenOk := "Token de acceso válido"
  const TokenFailed := "Token de acceso inválido o expirado"
  const FormatOk := "Formato de número válido"
  const FormatDoubtful := "Formato de número puede ser incorrecto"
  const ExpectedFormat := "Código de país + número sin + ni espacios (ej: 5491123456789)"
  const TestOk := "Mensaje de prueba enviado exitosamente al API"
  const TestFailed := "Error enviando mensaje de prueba"
  const TestNote := "Si no recibes este mensaje, el problema está en la configuración de WhatsApp Business"

  const ErrorsIssue := "Errores críticos detectados"
  const ErrorsSolution := "Revisa los errores en las verificaciones anteriores. Problemas comunes: token expirado, número de WhatsApp Business no configurado correctamente."
  const FormatIssue := "Formato de número de teléfono"
  const FormatSolution := "Verifica que el número incluya el código de país sin el símbolo + (ej: 5491123456789 para Argentina)"
  const NotReceivedIssue := "Mensaje enviado exitosamente pero no recibido"
  const NotReceivedSolution := "Causas comunes: 1) Número no está en la lista de testers en Meta Developer Console, 2) Usuario no ha iniciado conversación en las últimas 24 horas, 3) Aplicación en modo desarrollo"
  const ConsoleIssue := "Configuración de Meta Developer Console"
  const ConsoleSolution := "Ve a Meta Developer Console > Tu App > WhatsApp > Configuración y agrega el número como \"tester\" o verifica que la app esté en modo producción"
  const WindowIssue := "Ventana de conversación de 24 horas"
  const WindowSolution := "Para enviar mensajes proactivos, el usuario debe haber enviado un mensaje al número de WhatsApp Business en las últimas 24 horas"

  datatype CheckStatus = Success | Warning | Failed

  /** One entry of `diagnostics.checks`; `info` is its `data`, `error` or
      `details` field, and `note` the extra note of a successful test send. */
  datatype Check = Check(check: string, status: CheckStatus, message: string, info: JsValue, note: Option<string>)

  datatype Recommendation = Recommendation(priority: string, issue: string, solution: string)

  datatype Summary = Summary(totalChecks: nat, successful: nat, warnings: nat, errors: nat)

  datatype Diagnosis =
    | DiagnoseBadRequest
    | Diagnosed(
        phoneNumber: JsValue,
        phoneNumberId: JsValue,
        timestamp: int,
        checks: seq<Check>,
        recommendations: seq<Recommendation>,
        summary: Summary)

  /** `checks.filter(c => c.status === status).length` */
  function CountStatus(checks: seq<Check>, status: CheckStatus): (r: nat)
    ensures r <= |checks|
  {
    if checks == [] then 0
    else (if checks[0].status == status then 1 else 0) + CountStatus(checks[1..], status)
  }

  /** `checks.some(c => c.status === status)` */
  predicate AnyStatus(checks: seq<Check>, status: CheckStatus) {
    exists i :: 0 <= i < |checks| && checks[i].status == status
  }

  const ErrorsItem := Recommendation("high", ErrorsIssue, ErrorsSolution)
  const FormatItem := Recommendation("medium", FormatIssue, FormatSolution)
  const NotReceivedItem := Recommendation("high", NotReceivedIssue, NotReceivedSolution)
  const ConsoleItem := Recommendation("medium", ConsoleIssue, ConsoleSolution)
  const WindowItem := Recommendation("low", WindowIssue, WindowSolution)

  /** The recommendations: one for errors, one for warnings, then three
      that always apply. */
  function Recommendations(hasErrors: bool, hasWarnings: bool): (r: seq<Recommendation>)
    ensures |r| == 3 + (if hasErrors then 1 else 0) + (if hasWarnings then 1 else 0)
    ensures r[|r| - 3..] == [NotReceivedItem, ConsoleItem, WindowItem]
    ensures hasErrors ==> r[0] == ErrorsItem
    ensures hasWarnings ==> r[|r| - 4] == FormatItem
  {
    (if hasErrors then [ErrorsItem] else [])
    + (if hasWarnings then [FormatItem] else [])
    + [NotReceivedItem, ConsoleItem, WindowItem]
  }

  /** The recommendations `/diagnose` draws from its checks. */
  function RecommendationsFor(checks: seq<Check>): (r: seq<Recommendation>)
    ensures 3 <= |r| <= 5 && r[|r| - 3..] == [NotReceivedItem, ConsoleItem, WindowItem]
    ensures AnyStatus(checks, Failed) <==> r[0] == ErrorsItem
    ensures AnyStatus(checks, Warning) <==> FormatItem in r
  {
    RecommendationsShape(AnyStatus(checks, Failed), AnyStatus(checks, Warning));
    Recommendations(AnyStatus(checks, Failed), AnyStatus(checks, Warning))
  }

  function SummaryOf(checks: seq<Check>): (r: Summary)
    ensures r.totalChecks == |checks|
    ensures r.successful <= r.totalChecks && r.warnings <= r.totalChecks && r.errors <= r.totalChecks
  {
    Summary(|checks|, CountStatus(checks, Success), CountStatus(checks, Warning), CountStatus(checks, Failed))
  }

  /** The check a Graph API call yields. */
  function CallCheck(name: string, answer: Result<JsValue, JsValue>, okMessage: string, failedMessage: string,
                     okNote: Option<string>): (r: Check)
    ensures r.check == name && (r.status == Success <==> answer.Ok?) && r.status != Warning
  {
    if answer.Ok? then Check(name, Success, okMessage, answer.value, okNote)
    else Check(name, Failed, failedMessage, answer.error, None)
  }

  /** The phone-format check: never an error. */
  function FormatCheck(to: JsValue): (r: Check)
    ensures r.check == PhoneFormatCheck
    ensures r.status == Success <==> PhoneMatch(ToJsString(to))
    ensures r.status == Warning <==> !PhoneMatch(ToJsString(to))
  {
    var valid := PhoneMatch(ToJsString(to));
    Check(PhoneFormatCheck, if valid then Success else Warning, if valid then FormatOk else FormatDoubtful,
      Obj(map["provided" := to, "expected_format" := Str(ExpectedFormat), "is_valid" := Bool(valid)]), None)
  }

  /** The four checks of `/diagnose`, pushed one by one as the Graph API
      answers come back. */
  method RunChecks(to: JsValue, phoneInfo: Result<JsValue, JsValue>, tokenInfo: Result<JsValue, JsValue>,
                   testSend: Result<JsValue, JsValue>)
    returns (checks: seq<Check>)
    ensures checks == [
      CallCheck(PhoneNumberInfoCheck, phoneInfo, PhoneInfoOk, PhoneInfoFailed, None),
      CallCheck(AccessTokenCheck, tokenInfo, TokenOk, TokenFailed, None),
      FormatCheck(to),
      CallCheck(TestMessageCheck, testSend, TestOk, TestFailed, Some(TestNote))]
  {
    checks := [];
    // 1. the phone number
    if phoneInfo.Ok? {
      checks := checks + [Check(PhoneNumberInfoCheck, Success, PhoneInfoOk, phoneInfo.value, None)];
    } else {
      checks := checks + [Check(PhoneNumberInfoCheck, Failed, PhoneInfoFailed, phoneInfo.error, None)];
    }
    // 2. the access token
    if tokenInfo.Ok? {
      checks := checks + [Check(AccessTokenCheck, Success, TokenOk, tokenInfo.value, None)];
    } else {
      checks := checks + [Check(AccessTokenCheck, Failed, TokenFailed, tokenInfo.error, None)];
    }
    // 3. the phone format
    var isValidFormat := PhoneMatch(ToJsString(to));
    var details := Obj(map["provided" := to, "expected_format" := Str(ExpectedFormat), "is_valid" := Bool(isValidFormat)]);
    if isValidFormat {
      checks := checks + [Check(PhoneFormatCheck, Success, FormatOk, details, None)];
    } else {
      checks := checks + [Check(PhoneFormatCheck, Warning, FormatDoubtful, details, None)];
    }
    // 4. the test message
    if testSend.Ok? {
      checks := checks + [Check(TestMessageCheck, Success, TestOk, testSend.value, Some(TestNote))];
    } else {
      checks := checks + [Check(TestMessageCheck, Failed, TestFailed, testSend.error, None)];
    }
  }

  /** The recommendations `/diagnose` pushes after its checks. */
  method Recommend(checks: seq<Check>) returns (recommendations: seq<Recommendation>)
    ensures recommendations == RecommendationsFor(checks)
  {
    recommendations := [];
    var hasErrors := AnyStatus(checks, Failed);
    var hasWarnings := AnyStatus(checks, Warning);
    if hasErrors {
      recommendations := recommendations + [ErrorsItem];
    }
    if hasWarnings {
      recommendations := recommendations + [FormatItem];
    }
    recommendations := recommendations + [NotReceivedItem];
    recommendations := recommendations + [ConsoleItem];
    recommendations := recommendations + [WindowItem];
  }

  /** `POST /diagnose`, given the answers of the phone-number lookup, the
      token lookup and the test send. */
  method Diagnose(to: JsValue, accessToken: JsValue, phoneNumberId: JsValue,
                  phoneInfo: Result<JsValue, JsValue>, tokenInfo: Result<JsValue, JsValue>,
                  testSend: Result<JsValue, JsValue>, now: int)
    returns (r: Diagnosis)
    ensures r.DiagnoseBadRequest? <==> !Truthy(to) || !Truthy(accessToken) || !Truthy(phoneNumberId)
    ensures r.Diagnosed? ==>
      && r.phoneNumber == to && r.phoneNumberId == phoneNumberId && r.timestamp == now
      && r.checks == [
           CallCheck(PhoneNumberInfoCheck, phoneInfo, PhoneInfoOk, PhoneInfoFailed, None),
           CallCheck(AccessTokenCheck, tokenInfo, TokenOk, TokenFailed, None),
           FormatCheck(to),
           CallCheck(TestMessageCheck, testSend, TestOk, TestFailed, Some(TestNote))]
      && r.recommendations == RecommendationsFor(r.checks)
      && r.summary == SummaryOf(r.checks)
  {
    if !Truthy(to) || !Truthy(accessToken) || !Truthy(phoneNumberId) {
      return DiagnoseBadRequest;
    }
    var checks := RunChecks(to, phoneInfo, tokenInfo, testSend);
    var recommendations := Recommend(checks);
    var summary := Summary(|checks|, CountStatus(checks, Success), CountStatus(checks, Warning), CountStatus(checks, Failed));
    r := Diagnosed(to, phoneNumberId, now, checks, recommendations, summary);
  }

  // Properties of the diagnosis.

  /** Every check is counted exactly once in the summary. */
  lemma {:induction false} SummaryAddsUp(checks: seq<Check>)
    ensures var s := SummaryOf(checks); s.successful + s.warnings + s.errors == s.totalChecks
  {
    if checks != [] {
      SummaryAddsUp(checks[1..]);
    }
  }

  /** The four checks come in a fixed order, and only the format check can
      warn. */
  lemma ChecksInOrder(to: JsValue, phoneInfo: Result<JsValue, JsValue>, tokenInfo: Result<JsValue, JsValue>,
                      testSend: Result<JsValue, JsValue>)
    ensures var checks := [
        CallCheck(PhoneNumberInfoCheck, phoneInfo, PhoneInfoOk, PhoneInfoFailed, None),
        CallCheck(AccessTokenCheck, tokenInfo, TokenOk, TokenFailed, None),
        FormatCheck(to),
        CallCheck(TestMessageCheck, testSend, TestOk, TestFailed, Some(TestNote))];
      && |checks| == 4
      && checks[0].check == PhoneNumberInfoCheck && checks[1].check == AccessTokenCheck
      && checks[2].check == PhoneFormatCheck && checks[3].check == TestMessageCheck
      && (AnyStatus(checks, Warning) <==> !PhoneMatch(ToJsString(to)))
      && (AnyStatus(checks, Failed) <==> phoneInfo.Err? || tokenInfo.Err? || testSend.Err?)
      && checks[2].status != Failed
  {
    var checks := [
        CallCheck(PhoneNumberInfoCheck, phoneInfo, PhoneInfoOk, PhoneInfoFailed, None),
        CallCheck(AccessTokenCheck, tokenInfo, TokenOk, TokenFailed, None),
        FormatCheck(to),
        CallCheck(TestMessageCheck, testSend, TestOk, TestFailed, Some(TestNote))];
    if !PhoneMatch(ToJsString(to)) {
      assert checks[2].status == Warning;
    }
    if phoneInfo.Err? {
      assert checks[0].status == Failed;
    } else if tokenInfo.Err? {
      assert checks[1].status == Failed;
    } else if testSend.Err? {
      assert checks[3].status == Failed;
    }
  }

  /** A high-priority error item leads exactly when some check failed, a
      medium format item follows exactly when some check warned, and the
      three general items always close the list: 3 to 5 in all. */
  lemma RecommendationsShape(hasErrors: bool, hasWarnings: bool)
    ensures var r := Recommendations(hasErrors, hasWarnings);
      && |r| == 3 + (if hasErrors then 1 else 0) + (if hasWarnings then 1 else 0)
      && r[|r| - 3..] == [NotReceivedItem, ConsoleItem, WindowItem]
      && (hasErrors <==> r[0] == ErrorsItem)
      && (hasWarnings <==> FormatItem in r)
  {
    assert |ErrorsIssue| != |NotReceivedIssue|;
    assert FormatIssue[0] != ConsoleIssue[0];
    var r := Recommendations(hasErrors, hasWarnings);
    if hasErrors && hasWarnings {
      assert r == [ErrorsItem, FormatItem, NotReceivedItem, ConsoleItem, WindowItem];
    } else if hasErrors {
      assert r == [ErrorsItem, NotReceivedItem, ConsoleItem, WindowItem];
    } else if hasWarnings {
      assert r == [FormatItem, NotReceivedItem, ConsoleItem, WindowItem];
    } else {
      assert r == [NotReceivedItem, ConsoleItem, WindowItem];
    }
  }
}

=== FILE: wrappers.dfy ===
/** Option and Result, used for JavaScript's `null`/absent values and for
    error paths (thrown errors, HTTP error responses). */
module Wrappers {

  datatype Option<+T> = None | Some(value: T) {
    function GetOr(default: T): T {
      match this
      case Some(v) => v
      case None => default
    }
  }

  datatype Result<+R, +E> = Ok(value: R) | Err(error: E)
}
